=== FILE: README.md ===
# Algorithm study refund and submission rules, in Dafny

This project models the rule logic of an algorithm-study web application, where paying participants solve one problem a day for a 14-day season. At the end of the season, the entry fees of those who dropped out are shared among those who stayed.

The centre of the model is the refund engine `calculateRefund`, which works in these steps:
- It counts each paid participant's missed past-due problems.
- It drops `DROPPED` participants, and `ACTIVE` participants with three or more misses.
- It gives the remaining participants standard competition ranks: ties share a rank, and the next rank skips over them.
- It splits the dropped participants' fees over the rank groups using the 70/20/10 table. Each group gets the table entries inside its rank window, shared evenly among its members.
- It floors every share to whole won and adds the entry fee back to every active participant.

Around the engine sit the application's smaller pure rules:
- season status resolution;
- admin e-mail list normalisation and membership, and the route guard;
- default rows of the 14-day problem table, and single-field row edits;
- counting and cell marks of the submission grid;
- the participant edit-draft diff;
- the submit form's selection rules, default markdown template and submit-button guard;
- the seed script's argument parser, file filter, problem-type normaliser and season validation.

## Modelling choices

- **Dates.** Dates are whole day indices (`Domain.Day`). The wall-clock "today" is a parameter, already reduced to the start of the day in the Seoul time zone.
- **Environment variables.** The admin lists are parameters of type `Option<string>`, where `None` means unset.
- **Strings.** Strings are `seq<char>`. Trimming and case mapping use ASCII whitespace and ASCII letters.
- **`Number()`.** JavaScript's `Number()` is a parameter `toNumber: string -> Option<int>`, where `None` stands for `NaN`.
- **Refund arithmetic.** A member's refund percentage is the exact rational `g / k`. Here `g` is the group's table total and `k` the group size. The bonus is `(droppedPool * g) / (100 * k)`, integer division rounding down, which is the floor the source takes. `RefundPool.RankedShareIsFloor` proves it is the floor of `droppedPool * percentage / 100` over the reals. The code rounds with `Math.floor`, which the model follows exactly, negative pools included.
- **Sorting.** The in-place, stable `Array.prototype.sort` is a stable insertion sort on sequences (`RefundRanking.SortByMissed`). Its specification is sortedness, permutation, and stability for each missed count.
- **Rank groups.** The group map is modelled per result: a result's group is every active result with the same rank.
- **Refund pipeline.** `Refund.CalculateRefund` composes the steps as they run:
  - `Evaluated`: the paid filter and the per-participant map;
  - `ActiveResults` and `DroppedResults`;
  - `Ranked`: sort, then rank;
  - `Payouts`: split, then add the fee back;
  - active lines first, then dropped lines.
- **Two ways to count submissions.** Two counts disagree, and the model keeps both as written. The refund engine's `submittedCount` is the raw number of submitted ids. The submission grid counts only submitted non-rest problems. `SubmissionGrid.RestDayIgnored` states the grid's side of this.
- **Email trimming.** The route guard lower-cases the token e-mail but does not trim it. The admin check does both. `Proxy.PaddedEmailContrast` exhibits an e-mail that the admin check accepts and the route guard refuses.

## Model

| member | source | states |
|---|---|---|
| RefundEligibility.PastProblems | src/lib/utils/refund.ts:40-48 | the past-due problems are exactly the problems assigned before the start of today, none added |
| RefundEligibility.Evaluate | src/lib/utils/refund.ts:50-71 | a participant's result keeps the name, counts all problems and the raw number of submitted ids, and its missed count is the number of past-due problems whose id was not submitted (pinned down by the append lemmas below); a COMPLETED participant is never dropped, a DROPPED one always is, an ACTIVE one exactly when it missed at least 3; the result is unranked with no refund |
| RefundEligibility.MissedAtMostTotal | src/lib/utils/refund.ts:35-55 | the missed count never exceeds the number of problems |
| RefundEligibility.FutureProblemNeverMissed | src/lib/utils/refund.ts:41-48 | a problem assigned today or later adds nothing to any missed count |
| RefundEligibility.PastUnsubmittedProblemMissed | src/lib/utils/refund.ts:53-55 | a past-due problem that was not submitted adds exactly one miss |
| RefundEligibility.PastSubmittedProblemNotMissed | src/lib/utils/refund.ts:53-55 | a past-due problem that was submitted adds no miss |
| RefundEligibility.NoProblemsNoMisses | src/lib/utils/refund.ts:53-55 | a season without problems gives no miss, the base case that with the three append lemmas fixes every missed count |
| RefundEligibility.MoreSubmissionsFewerMisses | src/lib/utils/refund.ts:53-55 | submitting more ids never increases the missed count |
| RefundEligibility.MissedExtremes | src/lib/utils/refund.ts:53-55 | submitting every past-due problem gives 0 misses; submitting none of them misses them all |
| RefundEligibility.DropMonotone | src/lib/utils/refund.ts:57-59 | more misses never turn a dropped participant back into an active one |
| RefundRanking.SortByMissed | src/lib/utils/refund.ts:78 | the sorted active results are in ascending order of misses and are a permutation of the input |
| RefundRanking.SortStable | src/lib/utils/refund.ts:78 | the sort is stable: the results with any given missed count keep their input order |
| RefundRanking.AssignRanks | src/lib/utils/refund.ts:80-86 | ranking gives every result a rank and changes nothing else |
| RefundRanking.RankFromIsCompetitionRank | src/lib/utils/refund.ts:80-86 | the rank loop keeps the invariant that every result from position i on gets 1 + the number of results with fewer misses |
| RefundRanking.AssignRanksCorrect | src/lib/utils/refund.ts:80-86 | on sorted input every assigned rank is the competition rank: 1 + the number of results with strictly fewer misses |
| RefundRanking.RankAtRunStart | src/lib/utils/refund.ts:82-83 | the first result of a new missed count is ranked at its 1-based position, and the first result is ranked 1 |
| RefundRanking.RankAtMostPosition | src/lib/utils/refund.ts:80-86 | no result is ranked below its own 1-based position |
| RefundRanking.RankOrder | src/lib/utils/refund.ts:80-86 | ranks never decrease along the list, and two results share a rank exactly when they share a missed count |
| RefundPool.CumulativeBounds | src/lib/utils/refund.ts:97-101 | the table entries of ranks 1 to n add up to at most 100, to exactly 100 from n = 3 on, and to 0 for n <= 0 |
| RefundPool.GroupPercentageTelescopes | src/lib/utils/refund.ts:109-116 | a group of size k at rank r gets the table entries of ranks r to r+k-1, cut at 3, and 0 when r > 3, so consecutive groups' windows do not overlap |
| RefundPool.MemberAmountIsFloor | src/lib/utils/refund.ts:118-122 | each member's amount is the floor of droppedPool times the group total, over 100 times the group size |
| RefundPool.RankedShareIsFloor | src/lib/utils/refund.ts:118-122 | each ranked result's amount is the floor of droppedPool times its percentage over 100 |
| RefundPool.DistributeShares | src/lib/utils/refund.ts:88-123 | the split changes only percentage and amount; unranked results are untouched; equal ranks get equal percentage and equal amount; ranks past 3 get nothing; no share is negative when the pool is not |
| RefundPool.TwoWayTieAtFirst | src/lib/utils/refund.ts:106-123 | two results tied at rank 1 get 45 percent each and the same floored amount |
| RefundPool.RunIsGroup | src/lib/utils/refund.ts:88-95 | a run of equal missed counts starting at position i is exactly the group of rank i+1 |
| RefundPool.DistributePercentageTotal | src/lib/utils/refund.ts:106-126 | the percentages of n ranked results add up to the table entries of ranks 1 to n: never over 100, exactly 100 from three results on |
| RefundPool.DistributeAmountTotal | src/lib/utils/refund.ts:106-126 | the shares add up to at most the dropped pool, and flooring loses less than one won per result |
| RefundPool.AddEntryFee | src/lib/utils/refund.ts:128-130 | adding the fee back raises each amount by exactly the entry fee and changes nothing else |
| RefundPool.AddEntryFeeSum | src/lib/utils/refund.ts:128-130 | adding the fee back raises the total by one fee per result and leaves the percentages' total unchanged |
| Refund.Evaluated | src/lib/utils/refund.ts:50-71 | the i-th result is the evaluation of the i-th paid participant, in input order: same name, all problems counted, the missed past-due problems and the drop rule, unranked and unpaid |
| Refund.CalculateRefund | src/lib/utils/refund.ts:20-137 | the total pool is one entry fee per paid participant, and the table has one line per paid participant |
| Refund.RankLabel | src/lib/utils/refund.ts:139-145 | a rank's label starts with the rank's decimal digits followed by 등, and outside the podium it is exactly those digits and 등; the dropped label is the only one not starting with a digit |
| Refund.RankLabelPodium | src/lib/utils/refund.ts:141-143 | the labels of ranks 1 to 3 name the rank and the r-1 misses a podium rank allows |
| Refund.RankLabelLast | src/lib/utils/refund.ts:139-145 | a podium label ends with a closing parenthesis and any other rank's label with 등 |
| Refund.RankLabelInjective | src/lib/utils/refund.ts:139-145 | different ranks, and the dropped state, get different labels |
| RefundProperties.TableShape | src/lib/utils/refund.ts:73-136 | the table is the payout lines followed by the dropped lines, and the dropped pool is one fee per dropped line |
| RefundProperties.ResultsArePaidParticipants | src/lib/utils/refund.ts:33-71 | with the ranking and payout fields reset, the table is a permutation of the paid participants' results, so no unpaid participant appears; every line counts all problems |
| RefundProperties.ActiveBeforeDropped | src/lib/utils/refund.ts:132-136 | the active lines come first, each ranked; the dropped lines follow, unranked, with 0 percent and 0 won |
| RefundProperties.DroppedIffUnranked | src/lib/utils/refund.ts:57-86 | a line is dropped exactly when it has no rank |
| RefundProperties.ActiveLinesRanked | src/lib/utils/refund.ts:78-86 | the active lines are sorted by misses and competition-ranked |
| RefundProperties.TiedLinesShareRefund | src/lib/utils/refund.ts:106-123 | among active lines, equal misses and equal rank are the same thing, tied lines get equal percentage and amount, and earlier lines never have more misses or a larger rank |
| RefundProperties.ActiveLineRefund | src/lib/utils/refund.ts:118-130 | an active line's amount is the entry fee plus the floor of its share of the dropped pool, so at least the fee; from rank 4 on it is the fee alone |
| RefundProperties.PoolBounds | src/lib/utils/refund.ts:33-76 | the total pool is the dropped pool plus one fee per active line, and with a non-negative fee the dropped pool lies between 0 and the total pool |
| RefundProperties.RefundTotals | src/lib/utils/refund.ts:106-130 | the table's percentages add up to at most 100, to exactly 100 from three active lines on; with a non-negative fee the refunds lie between the active fees and the total pool, and the bonuses stay within the dropped pool |
| Season.ResolveStatus | src/lib/utils/season.ts:15-26 | the key is COMPLETED exactly when the status is; UPCOMING only when neither the ACTIVE status nor the active flag is set |
| Season.ResolveStatusCases | src/lib/utils/season.ts:19-25 | the three keys, each in both directions: COMPLETED iff status COMPLETED; ACTIVE iff not COMPLETED and the flag is set or the status is ACTIVE; UPCOMING otherwise |
| Season.CompletedWins | src/lib/utils/season.ts:19-21 | a COMPLETED status wins whatever the active flag says |
| Season.MissingFieldsUpcoming | src/lib/utils/season.ts:25 | with no status and no set active flag, the key is UPCOMING |
| Season.ResolveIdempotent | src/lib/utils/season.ts:15-26 | feeding the resolved key back as the status yields the same key |
| Season.LabelAndBadgeFollowKey | src/lib/utils/season.ts:28-40 | two seasons have the same label, and the same badge class, exactly when they resolve to the same key |
| Season.StatusOptions | src/lib/utils/season.ts:42-46 | three options, each labelled with its key's label |
| Season.StatusOptionsCoverKeys | src/lib/utils/season.ts:42-46 | every key has an option, in the order UPCOMING, ACTIVE, COMPLETED |
| AdminAuth.NormalizeList | src/lib/auth/admin.ts:1-5 | the list holds exactly the non-empty normalised comma-separated pieces: every entry is trimmed, lower-case and non-empty and comes from some piece, and every piece that normalises to something non-empty is listed |
| AdminAuth.EmptyListWhenUnset | src/lib/auth/admin.ts:2 | an unset or empty variable gives the empty list |
| AdminAuth.NormalizeListOfJoin | src/lib/auth/admin.ts:1-5 | normalising a comma-joined list of normalised entries gives the list back |
| AdminAuth.BlankEmailNeverAdmin | src/lib/auth/admin.ts:13-20 | a missing, empty or all-space e-mail is never an admin |
| AdminAuth.IsAdminUserIff | src/lib/auth/admin.ts:13-20 | an e-mail is an admin's exactly when its trimmed lower-case form is in the normalised list |
| AdminAuth.AdminIgnoresCase | src/lib/auth/admin.ts:14 | the admin check ignores the e-mail's letter case |
| AdminAuth.AdminIgnoresPadding | src/lib/auth/admin.ts:14 | the admin check ignores whitespace around the e-mail |
| AdminAuth.ListedEntriesAreAdmins | src/lib/auth/admin.ts:1-20 | every listed address, in any case and with padding, is an admin |
| Proxy.NoTokenNoAccess | src/proxy.ts:11 | without a token no path is authorised |
| Proxy.OtherPathsOpen | src/proxy.ts:13-17 | any token is authorised outside /admin |
| Proxy.AdminPathRule | src/proxy.ts:13-15 | under /admin a token is authorised exactly when it has an e-mail whose lower-case form is in the normalised list |
| Proxy.PaddedEmailContrast | src/proxy.ts:14 | a padded e-mail that the admin check accepts is refused by the route guard, which does not trim |
| ProblemTableEditor.DefaultTitleMatchesType | src/components/admin/ProblemTableEditor.tsx:30-40 | the default title is the title of the default type: 자율 문제 on free days, 휴식일 on rest days, empty otherwise |
| ProblemTableEditor.DefaultWeeklyPattern | src/components/admin/ProblemTableEditor.tsx:30-34 | both weeks follow one pattern: day 6 of a week is free, day 7 is rest, the others are regular |
| ProblemTableEditor.LastOnDay | src/components/admin/ProblemTableEditor.tsx:66 | the problem found for a day is an existing problem of that day with none after it, and nothing is found exactly when no problem has that day |
| ProblemTableEditor.LastOnDayIsLast | src/components/admin/ProblemTableEditor.tsx:66 | when several problems share a day, the last one wins |
| ProblemTableEditor.InitialRows | src/components/admin/ProblemTableEditor.tsx:68-98 | the table has 14 rows; row i is day i+1, dated start + i, whether or not a problem exists for it |
| ProblemTableEditor.ExistingRowKept | src/components/admin/ProblemTableEditor.tsx:78-87 | a row with an existing problem takes its title, type and practice flag, and its url with a missing one as "" |
| ProblemTableEditor.DefaultRow | src/components/admin/ProblemTableEditor.tsx:89-96 | a row without a problem takes the default type, the matching title and an empty url, and is practice only on day 1 |
| ProblemTableEditor.UpdateProblem | src/components/admin/ProblemTableEditor.tsx:103-113 | an edit keeps the length, every row's day number and every row of another day |
| ProblemTableEditor.UpdateChangesOneField | src/components/admin/ProblemTableEditor.tsx:108-111 | in the edited row only the given field changes |
| ProblemTableEditor.UpdateLastWins | src/components/admin/ProblemTableEditor.tsx:103-113 | two edits of the same field of the same day leave only the second |
| ProblemTableEditor.UpdateIdempotent | src/components/admin/ProblemTableEditor.tsx:103-113 | repeating an edit changes nothing |
| ProblemTableEditor.UpdatesCommute | src/components/admin/ProblemTableEditor.tsx:103-113 | edits of different days or different fields can be applied in either order |
| Domain.Submittable | src/components/dashboard/SubmissionGrid.tsx:57 | the submittable problems are exactly the non-rest problems |
| Domain.SubmittableAppend | src/components/dashboard/SubmissionGrid.tsx:57 | filtering out rest days keeps the problems' order |
| Domain.SubmittableSingle | src/components/dashboard/SubmissionGrid.tsx:57 | one problem is kept, once, exactly when it is not a rest day |
| SubmissionGrid.SubmittedCount | src/components/dashboard/SubmissionGrid.tsx:121-123 | the submitted count never exceeds the number of non-rest problems |
| SubmissionGrid.MissedCount | src/components/dashboard/SubmissionGrid.tsx:126-128 | the missed count never exceeds the number of non-rest problems |
| SubmissionGrid.CountsDisjoint | src/components/dashboard/SubmissionGrid.tsx:121-128 | submitted and missed problems are disjoint, so the two counts together stay within the non-rest problems |
| SubmissionGrid.CountsMatchCells | src/components/dashboard/SubmissionGrid.tsx:121-174 | the submitted count is the number of O cells and the missed count the number of X cells |
| SubmissionGrid.CellCountsPartition | src/components/dashboard/SubmissionGrid.tsx:148-174 | every cell is in exactly one class: the rest, O, X and upcoming counts add up to the number of problems |
| SubmissionGrid.OverdueCells | src/components/dashboard/SubmissionGrid.tsx:148-174 | a cell shows X exactly when its problem is not a rest day, is dated before today and was not submitted |
| SubmissionGrid.MissedGrowsWithTime | src/components/dashboard/SubmissionGrid.tsx:50-54 | as days pass the missed count never goes down |
| SubmissionGrid.RestDayIgnored | src/components/dashboard/SubmissionGrid.tsx:57 | a rest day adds nothing to either count, even when its id was submitted |
| ParticipantList.StartEditing | src/components/admin/ParticipantList.tsx:38-50 | every draft has all three fields |
| ParticipantList.StartEditingDrafts | src/components/admin/ParticipantList.tsx:40-46 | each participant's draft equals its stored paid flag, status and refund flag |
| ParticipantList.StartEditingKeys | src/components/admin/ParticipantList.tsx:38-50 | there is a draft for every participant and for no one else |
| ParticipantList.UpdateDraft | src/components/admin/ParticipantList.tsx:58-73 | a patch adds the participant's key if missing and leaves every other participant's draft unchanged |
| ParticipantList.UpdateDraftFields | src/components/admin/ParticipantList.tsx:66-72 | in the patched draft the patched fields take the patch's values and the other fields keep theirs |
| ParticipantList.UpdateDraftKeepsComplete | src/components/admin/ParticipantList.tsx:58-73 | patching a complete draft keeps it complete |
| ParticipantList.UpdateCarriesChangedFields | src/components/admin/ParticipantList.tsx:84-102 | an update is produced exactly when some field differs from the stored value, and it carries the participant id and exactly the differing fields with their draft values |
| ParticipantList.NoDraftNoUpdate | src/components/admin/ParticipantList.tsx:81-82 | a participant without a draft yields no update |
| ParticipantList.BuildUpdates | src/components/admin/ParticipantList.tsx:79-109 | at most one update per participant, each with at least one changed field |
| ParticipantList.BuildUpdatesAppend | src/components/admin/ParticipantList.tsx:79-109 | updates follow the participants' order: the updates of two lists in a row are the first list's followed by the second's |
| ParticipantList.NoChangesNoUpdates | src/components/admin/ParticipantList.tsx:79-109 | when no participant yields an update the list is empty |
| ParticipantList.OneUpdate | src/components/admin/ParticipantList.tsx:79-109 | when only one participant yields an update the list is exactly that update |
| ParticipantList.SaveChanges | src/components/admin/ParticipantList.tsx:111-115 | saving sends nothing and leaves edit mode exactly when there are no updates |
| ParticipantList.SaveWithoutEditsSendsNothing | src/components/admin/ParticipantList.tsx:79-115 | saving straight after starting to edit sends nothing |
| ParticipantList.EditedUpdate | src/components/admin/ParticipantList.tsx:84-102 | flipping one participant's paid flag gives that participant an update with the paid flag alone |
| ParticipantList.UneditedNoUpdate | src/components/admin/ParticipantList.tsx:81-102 | the other participants yield no update |
| ParticipantList.SingleEditSendsOneUpdate | src/components/admin/ParticipantList.tsx:79-109 | after a single paid-flag edit, exactly one update is sent, carrying only that flag |
| SubmitForm.NormalizeIdentifier | src/components/submit/SubmitForm.tsx:166-167 | the normalised session identifier is the lower-cased trim of the given value, so it is trimmed and lower-case, and it is empty when the value is missing or all space |
| SubmitForm.BlankIdentityMatchesNobody | src/components/submit/SubmitForm.tsx:169-186 | with both identifiers empty no participant matches |
| SubmitForm.MatchIgnoresStoredCase | src/components/submit/SubmitForm.tsx:169-186 | matching ignores the letter case of the stored e-mail and user name |
| SubmitForm.SignedInEmailMatches | src/components/submit/SubmitForm.tsx:166-175 | a padded, differently cased session e-mail matches the participant stored with that e-mail |
| SubmitForm.PaddedStoredEmailNeverMatches | src/components/submit/SubmitForm.tsx:171-175 | a stored e-mail with leading space never matches, since only the session side is trimmed |
| SubmitForm.RegisteredSeasons | src/components/submit/SubmitForm.tsx:188-195 | empty when both identifiers are empty; otherwise exactly the seasons with a matching participant, in input order |
| SubmitForm.RegisteredSeasonsAppend | src/components/submit/SubmitForm.tsx:192-194 | the registered seasons of two lists in a row are the first list's followed by the second's |
| SubmitForm.SeasonForDefaultProblem | src/components/submit/SubmitForm.tsx:198-202 | a season is found only for a non-empty problem id and is a season holding that problem; nothing is found exactly when no season holds it |
| SubmitForm.SeasonForDefaultProblemIsFirst | src/components/submit/SubmitForm.tsx:198-202 | the season found is the first one holding the problem |
| SubmitForm.GetPreferredSeasonId | src/components/submit/SubmitForm.tsx:204-221 | "" when there is no registered season, otherwise the id of a registered season |
| SubmitForm.PreferredSeasonOrder | src/components/submit/SubmitForm.tsx:208-220 | the preference order: the default problem's season if registered, else the requested season if registered, else the first registered season |
| SubmitForm.PreferredSeasonEmptyIff | src/components/submit/SubmitForm.tsx:204-221 | with non-empty ids, the preferred id is "" exactly when there is no registered season |
| SubmitForm.OpensOnDefaultProblemSeason | src/components/submit/SubmitForm.tsx:198-223 | the initial selection (the `useState` initializer, before any effect runs) is the first season holding the default problem when the user is registered in it; the effects that run afterwards are not modelled, see Left out |
| SubmitForm.InitialSeasonIsTheUsers | src/components/submit/SubmitForm.tsx:204-223 | a non-empty opening season id is the id of a season the form lists |
| SubmitForm.SelectedSeason | src/components/submit/SubmitForm.tsx:266-268 | the selected season is the one with the selected id when that id is registered, and otherwise the first registered season; there is none exactly when no season is registered |
| SubmitForm.RegisteredIffSeasonsOffered | src/components/submit/SubmitForm.tsx:266-273 | the user counts as registered exactly when some season is registered |
| SubmitForm.ProblemOptions | src/components/submit/SubmitForm.tsx:266-293 | the selectable problems are exactly the selected season's non-rest problems, in the season's order through ProblemOptionsInOrder, and none without a registered season |
| SubmitForm.ProblemOptionsInOrder | src/components/submit/SubmitForm.tsx:293 | the options follow the order of the selected season's problems |
| SubmitForm.CommentPrefixRule | src/components/submit/SubmitForm.tsx:60-75 | the comment prefix is # for python and // for every other language, known or not |
| SubmitForm.TemplateLanguage | src/components/submit/SubmitForm.tsx:74 | the template language is the lower-cased language when one is given, and exactly the default `javascript` when it is empty |
| SubmitForm.BuildDefaultMarkdown | src/components/submit/SubmitForm.tsx:73-85 | the template starts with the heading and code fence, followed by the template language, the comment prefix line and the grammar heading |
| SubmitForm.DefaultMarkdownLanguage | src/components/submit/SubmitForm.tsx:74 | the empty language gives the javascript template, and the template ignores the language's case |
| SubmitForm.FenceLanguageOfDefaultMarkdown | src/components/submit/SubmitForm.tsx:73-85 | reading the fence language back from a template gives its template language |
| SubmitForm.DefaultMarkdownInjective | src/components/submit/SubmitForm.tsx:73-85 | different template languages give different templates |
| SubmitForm.DefaultMarkdownNotBlank | src/components/submit/SubmitForm.tsx:73-85 | a template is never blank |
| SubmitForm.UntouchedTemplateBlocksSubmit | src/components/submit/SubmitForm.tsx:861-867 | an unchanged template, padded or not, blocks submitting outside edit mode |
| SubmitForm.BlankCodeBlocksSubmit | src/components/submit/SubmitForm.tsx:865 | blank code blocks submitting |
| SubmitForm.FreeChoiceNeedsTitle | src/components/submit/SubmitForm.tsx:864 | a free-choice problem with an empty title blocks submitting |
| SubmitForm.UnregisteredUserCannotSubmit | src/components/submit/SubmitForm.tsx:863 | a user registered in no season cannot submit |
| SubmitForm.EditModeLiftsTemplateCheck | src/components/submit/SubmitForm.tsx:866 | in edit mode a registered user may submit the template itself |
| SeedSeasons.ParseArgs | scripts/seed-seasons.js:11-27 | no arguments give the empty selection without a dry run, and a dry run needs the --dry-run argument |
| SeedSeasons.SelectedComeFromArgs | scripts/seed-seasons.js:11-27 | every selected season number was given as an argument, either alone or after --season= |
| SeedSeasons.InlineSeasonValueOf | scripts/seed-seasons.js:19-23 | --season=v reads the number v |
| SeedSeasons.ParseSeasonFlag | scripts/seed-seasons.js:13-18 | --season or -s always consumes the next argument and adds it only when it is a number |
| SeedSeasons.ParseInlineSeason | scripts/seed-seasons.js:19-23 | --season=v adds v only when it is a number |
| SeedSeasons.ParseSingle | scripts/seed-seasons.js:24-26 | --dry-run sets the dry run, and any other argument is ignored |
| SeedSeasons.ParseRendered | scripts/seed-seasons.js:11-27 | parsing a rendered option list gives that list's meaning |
| SeedSeasons.DanglingSeasonFlag | scripts/seed-seasons.js:13-18 | a trailing --season with no value selects nothing |
| SeedSeasons.SeedFiles | scripts/seed-seasons.js:35-42 | a file is kept exactly when it ends in .js, does not start with _ and does not contain "template" in any case |
| SeedSeasons.SeedFilesAppend | scripts/seed-seasons.js:35-42 | the kept files stay in directory order |
| SeedSeasons.SeedFileSingle | scripts/seed-seasons.js:35-42 | one file is kept, once, exactly when it passes all three tests |
| SeedSeasons.TemplateFilesSkipped | scripts/seed-seasons.js:41 | a name containing "template" in any letter case is skipped |
| SeedSeasons.SelectSeasons | scripts/seed-seasons.js:51-54 | an empty selection keeps every season; otherwise exactly the selected seasons are kept, in order |
| SeedSeasons.SelectSeasonsAppend | scripts/seed-seasons.js:51-54 | the kept seasons stay in the order of the season list, the order they are seeded in |
| SeedSeasons.SelectSeasonSingle | scripts/seed-seasons.js:51-54 | one season is kept, once, exactly when nothing was selected or its number was |
| SeedSeasons.SelectionMonotone | scripts/seed-seasons.js:51-54 | selecting more season numbers never keeps fewer seasons |
| SeedSeasons.SelectingAllKeepsAll | scripts/seed-seasons.js:51-54 | selecting every season's number keeps them all |
| SeedSeasons.NormalizeProblemType | scripts/seed-seasons.js:66-73 | a missing type is REGULAR, and FREE or REST only when the upper-cased text names it |
| SeedSeasons.NormalizeTypeName | scripts/seed-seasons.js:66-73 | every type's name, upper or lower case, normalises back to that type |
| SeedSeasons.NormalizeProblemTypeIff | scripts/seed-seasons.js:66-73 | FREE and REST exactly for their names in any case, REGULAR for everything else |
| SeedSeasons.SeasonFields | scripts/seed-seasons.js:76-94 | a season missing its number, name, start or end date fails with the file's name; otherwise the fee defaults to 20000 only when missing, and the status is written, unchanged, exactly when non-empty |
| SeedSeasons.ZeroEntryFeeKept | scripts/seed-seasons.js:86 | a fee of 0 is kept, not replaced by the default |
| SeedSeasons.SeasonZeroRefused | scripts/seed-seasons.js:78-80 | season number 0 counts as missing |
| SeedSeasons.ProblemFields | scripts/seed-seasons.js:118-125 | a problem's url is written only when non-empty, it is practice only when its flag is true, and its type is the normalised type |
| SeedSeasons.ProblemsFields | scripts/seed-seasons.js:110-125 | the problems fail exactly when one misses its day, title or date, with the season's number and file in the message; otherwise each one is written in order |
| SeedSeasons.SeedSeasonData | scripts/seed-seasons.js:75-125 | seeding succeeds exactly when the season's fields are complete and, outside a dry run, every problem's are; on success the season record is the season's fields and, outside a dry run, each written problem is that problem's fields, in order; a dry run writes no problem; an incomplete problem fails with the season number and file name |
| SeedSeasons.SeededProblemTypes | scripts/seed-seasons.js:118-123 | a problem typed with a lower-case type name is written with that type |

## Left out

- Time zones (src/lib/utils/date.ts) are not modelled. "Today" arrives already reduced to a day index. Problem dates are day indices, and date formatting for display is left out.
- Floating point is not modelled. refund.ts:118-122 divides in IEEE doubles, and the model computes the exact rational result. JavaScript can therefore differ by one won when the exact share sits on a whole-won boundary.
- `usedPercentage` (refund.ts:103, 125) is never read, so it has no counterpart.
- JavaScript's Unicode `trim` and `toLowerCase` are not modelled. Only ASCII whitespace and ASCII letters are.
- `Number()` is a parameter. Which texts it accepts, including fractions, is not modelled.
- I/O is left out: Prisma queries and upserts, `fetch`, NextAuth sessions, `process.exit`, `console`, `fs` and `require`. So is the concurrency of `Promise.all` in saveChanges (ParticipantList.tsx:118).
- Proxy.Authorized: the `config.matcher` list (src/proxy.ts:22-24) is routing configuration and is not modelled. The predicate is stated for every path.
- React state, effects and rendering are left out. This includes:
  - the SubmitForm effects (SubmitForm.tsx:226-264). They run on mount too, so the season the form shows can differ from the initial selection that SubmitForm.OpensOnDefaultProblemSeason describes. The effect at SubmitForm.tsx:226-233 gives a requested season (`defaultSeasonId`) priority when the user is registered in it. When that changes the selection, the effect at SubmitForm.tsx:255-264 runs again after the first render and clears the selected problem. Example: the user is in seasons A and B, A is requested, and the requested problem is only in B. The form starts on B, then ends on A with no problem selected;
  - `handleSubmit`;
  - the editor integration.
  The form state is a plain record.
- SubmitForm.IsDefaultMarkdown compares against the templates of the current and the previous language. The previous language is an input, because it comes from a React ref.
- ProblemTableEditor.UpdateProblem: a field update is a typed datatype (`FieldUpdate`). The untyped `[field]: value` write is not modelled, so neither is its ability to overwrite `dayNumber`.
- SubmissionGrid.MissedTone (SubmissionGrid.tsx:185-190) is a display colour and has no contract beyond its definition.
- SeedSeasons: `toDate` and the Date conversion of the season and problem dates are left out; dates stay as text. The database writes and their order are also left out. In the script the season is written before its problems are checked; the model returns a single result.
- SeedSeasons.SeasonFields: JavaScript's distinction between `null` and `undefined` is not modelled. `isActive` is written when present, and an explicit `null` counts as absent.
- Environment variables (`NEXT_PUBLIC_ADMIN_EMAILS`, `ADMIN_EMAILS`) are read once at module load in the source. Here they are parameters.

=== FILE: admin_auth.dfy ===
/** The administrator check (src/lib/auth/admin.ts): the configured list of
    administrator e-mails, normalised, and membership of a user's e-mail in
    it. The list's environment variable is a parameter (`None` when
    unset). */
module AdminAuth {
  import opened Wrappers
  import opened Seqs
  import opened Strings

  /** One configured entry or e-mail as compared: trimmed, then
      lower-cased. */
  function NormalizeEntry(item: string): string {
    ToLower(Trim(item))
  }

  predicate NonEmpty(s: string) {
    |s| > 0
  }

  /** An entry as the normalised list holds it: non-empty, trimmed,
      lower-case, without the separator. */
  predicate IsNormalEntry(x: string) {
    |x| > 0 && IsTrimmed(x) && ToLower(x) == x && ',' !in x
  }

  /** The comma-separated list split, each entry normalised, blank entries
      dropped; an unset or empty variable gives the empty list. */
  function NormalizeList(value: Option<string>): (r: seq<string>)
    ensures forall i :: 0 <= i < |r| ==> IsNormalEntry(r[i])
    ensures forall i :: 0 <= i < |Split(value.GetOr(""), ',')| ==>
      var x := NormalizeEntry(Split(value.GetOr(""), ',')[i]); |x| > 0 ==> x in r
    ensures forall x :: x in r ==>
      exists i :: 0 <= i < |Split(value.GetOr(""), ',')| && x == NormalizeEntry(Split(value.GetOr(""), ',')[i])
  {
    var pieces := Split(value.GetOr(""), ',');
    var entries := Map(NormalizeEntry, pieces);
    forall i | 0 <= i < |pieces| ensures |entries[i]| > 0 ==> IsNormalEntry(entries[i]) {
      NormalizedIsNormal(pieces[i]);
    }
    Filter(NonEmpty, entries)
  }

  /** Whether `email` belongs to an administrator: its normalised form is
      non-empty and listed. */
  function IsAdminUser(email: Option<string>, adminEmails: Option<string>): bool {
    match email
    case None => false
    case Some(e) =>
      var normalized := NormalizeEntry(e);
      |normalized| > 0 && normalized in NormalizeList(adminEmails)
  }

  /** Lower-casing keeps a trimmed string trimmed. */
  lemma LowerKeepsTrimmed(t: string)
    requires IsTrimmed(t)
    ensures IsTrimmed(ToLower(t))
  {
    if |t| > 0 {
      LowerKeepsSpace(t[0]);
      LowerKeepsSpace(t[|t| - 1]);
    }
  }

  /** A normalised piece of a comma split, when non-empty, is a normal
      entry. */
  lemma NormalizedIsNormal(piece: string)
    requires ',' !in piece
    ensures |NormalizeEntry(piece)| > 0 ==> IsNormalEntry(NormalizeEntry(piece))
  {
    var t := Trim(piece);
    TrimSlice(piece);
    assert ',' !in t;
    LowerKeepsTrimmed(t);
    LowerIdempotent(t);
    assert forall i :: 0 <= i < |t| ==> LowerChar(t[i]) != ',';
  }

  /** An unset or empty variable configures no administrator. */
  lemma EmptyListWhenUnset()
    ensures NormalizeList(None) == []
    ensures NormalizeList(Some("")) == []
  {
    assert Split("", ',') == [""];
    assert NormalizeEntry("") == "";
    assert Map(NormalizeEntry, [""]) == [""];
    FilterNone(NonEmpty, [""]);
  }

  /** Writing normal entries out comma-separated and normalising the text
      gives the entries back. */
  lemma NormalizeListOfJoin(xs: seq<string>)
    requires forall i :: 0 <= i < |xs| ==> IsNormalEntry(xs[i])
    ensures NormalizeList(Some(Join(xs, ','))) == xs
  {
    if |xs| == 0 {
      EmptyListWhenUnset();
    } else {
      SplitJoin(xs, ',');
      EntriesNormalized(xs);
      FilterAll(NonEmpty, xs);
    }
  }

  /** Normalising normal entries changes none of them. */
  lemma EntriesNormalized(xs: seq<string>)
    requires forall i :: 0 <= i < |xs| ==> IsNormalEntry(xs[i])
    ensures Map(NormalizeEntry, xs) == xs
  {
    forall i | 0 <= i < |xs| ensures NormalizeEntry(xs[i]) == xs[i] {
      TrimTrimmed(xs[i]);
    }
  }

  /** A missing, empty or all-whitespace e-mail is never an
      administrator's. */
  lemma BlankEmailNeverAdmin(email: Option<string>, adminEmails: Option<string>)
    requires email.None? || AllSpace(email.value)
    ensures !IsAdminUser(email, adminEmails)
  {
    if email.Some? {
      TrimStartOfAllSpace(email.value);
    }
  }

  /** An e-mail is an administrator's exactly when its normalised form is
      listed: the emptiness test is implied, since listed entries are never
      empty. */
  lemma IsAdminUserIff(e: string, adminEmails: Option<string>)
    ensures IsAdminUser(Some(e), adminEmails) <==> NormalizeEntry(e) in NormalizeList(adminEmails)
  {
  }

  /** Upper- or lower-casing the e-mail changes nothing. */
  lemma AdminIgnoresCase(e: string, adminEmails: Option<string>)
    ensures IsAdminUser(Some(ToUpper(e)), adminEmails) == IsAdminUser(Some(e), adminEmails)
    ensures IsAdminUser(Some(ToLower(e)), adminEmails) == IsAdminUser(Some(e), adminEmails)
  {
    TrimToUpper(e);
    LowerOfUpper(Trim(e));
    TrimToLower(e);
    LowerIdempotent(Trim(e));
  }

  /** Whitespace around the e-mail changes nothing. */
  lemma AdminIgnoresPadding(w1: string, e: string, w2: string, adminEmails: Option<string>)
    requires AllSpace(w1) && AllSpace(w2)
    ensures IsAdminUser(Some(w1 + e + w2), adminEmails) == IsAdminUser(Some(e), adminEmails)
  {
    TrimPadded(w1, e, w2);
  }

  /** Every configured entry, written in any case and with any padding,
      is accepted. */
  lemma ListedEntriesAreAdmins(xs: seq<string>, i: nat, w: string)
    requires forall j :: 0 <= j < |xs| ==> IsNormalEntry(xs[j])
    requires i < |xs| && AllSpace(w)
    ensures IsAdminUser(Some(w + ToUpper(xs[i]) + w), Some(Join(xs, ',')))
  {
    var env := Some(Join(xs, ','));
    var x := xs[i];
    assert IsAdminUser(Some(x), env) by {
      NormalizeListOfJoin(xs);
      TrimTrimmed(x);
      assert NormalizeEntry(x) == x;
    }
    assert IsAdminUser(Some(ToUpper(x)), env) by {
      AdminIgnoresCase(x, env);
    }
    AdminIgnoresPadding(w, ToUpper(x), w, env);
  }
}

=== FILE: domain.dfy ===
/** The enumerations and the problem record that the components share (the
    database schema's `ProblemType` and participant status), and the filter
    that drops rest days. */
module Domain {
  import Seqs
  import opened Wrappers

  /** Days are counted as integers; the wall-clock date and time zone are
      not modelled. */
  type Day = int

  datatype ProblemType = Regular | Free | Rest

  datatype ParticipantStatus = Active | Dropped | Completed

  /** A problem of a season as the dashboard and the submit form see it. */
  datatype Problem = Problem(
    id: string,
    dayNumber: int,
    title: string,
    url: Option<string>,
    problemType: ProblemType,
    isPractice: bool,
    assignedDay: Day)

  predicate IsSubmittable(p: Problem) {
    p.problemType != Rest
  }

  /** The problems a participant can submit for: every problem except rest
      days, in their original order. */
  function Submittable(problems: seq<Problem>): (r: seq<Problem>)
    ensures forall i :: 0 <= i < |r| ==> r[i] in problems && r[i].problemType != Rest
    ensures forall i :: 0 <= i < |problems| && problems[i].problemType != Rest ==> problems[i] in r
  {
    Seqs.Filter(IsSubmittable, problems)
  }

  /** The filter keeps the order: the submittable problems of two stretches
      of a season are those of the first followed by those of the second. */
  lemma SubmittableAppend(a: seq<Problem>, b: seq<Problem>)
    ensures Submittable(a + b) == Submittable(a) + Submittable(b)
  {
    Seqs.FilterAppend(IsSubmittable, a, b);
  }

  /** One problem is kept, once, exactly when it is not a rest day. */
  lemma SubmittableSingle(p: Problem)
    ensures Submittable([p]) == if p.problemType == Rest then [] else [p]
  {
    Seqs.FilterSingleton(IsSubmittable, p);
  }
}

=== FILE: participant_list.dfy ===
/** Editing participants in the admin list
    (src/components/admin/ParticipantList.tsx:38-115): the drafts an edit
    starts from, patching one draft, and the update payloads a save sends,
    which carry only the fields that changed. */
module ParticipantList {
  import opened Wrappers
  import opened Domain

  /** A participant as the list shows it. */
  datatype Participant = Participant(id: string, isPaid: bool, status: ParticipantStatus, refundCompleted: bool)

  /** The editable fields of one participant; a field is `None` when the
      draft lacks it (a draft created by a patch alone). */
  datatype Draft = Draft(isPaid: Option<bool>, status: Option<ParticipantStatus>, refundCompleted: Option<bool>)

  /** The fields a patch sets (`None`: left as it is). */
  datatype Patch = Patch(isPaid: Option<bool>, status: Option<ParticipantStatus>, refundCompleted: Option<bool>)

  /** A payload field: left out, present but undefined (a draft without the
      field never equals the stored value), or set to a value. */
  datatype PayloadField<T> = Omitted | Undefined | Set(value: T)

  datatype Update = Update(
    participantId: string,
    isPaid: PayloadField<bool>,
    status: PayloadField<ParticipantStatus>,
    refundCompleted: PayloadField<bool>)

  /** What a save does: nothing to send (edit mode ends at once), or the
      updates to send. */
  datatype SaveOutcome = NothingToSave | Send(updates: seq<Update>)

  function DraftOf(p: Participant): Draft {
    Draft(Some(p.isPaid), Some(p.status), Some(p.refundCompleted))
  }

  /** Whether every field of the draft is present. */
  predicate Complete(d: Draft) {
    d.isPaid.Some? && d.status.Some? && d.refundCompleted.Some?
  }

  /** The drafts an edit starts with: one per participant, holding its
      current values; a later participant replaces an earlier one with the
      same id. */
  function StartEditing(ps: seq<Participant>): (drafts: map<string, Draft>)
    ensures forall id :: id in drafts ==> Complete(drafts[id])
    decreases |ps|
  {
    if |ps| == 0 then map[]
    else
      var last := ps[|ps| - 1];
      StartEditing(ps[..|ps| - 1])[last.id := DraftOf(last)]
  }

  function Merge<T>(patched: Option<T>, previous: Option<T>): Option<T> {
    if patched.Some? then patched else previous
  }

  /** The draft of `id` with the patch's fields written over it (over
      nothing when there was no draft). */
  function UpdateDraft(drafts: map<string, Draft>, id: string, patch: Patch): (r: map<string, Draft>)
    ensures r.Keys == drafts.Keys + {id}
    ensures forall other :: other in drafts && other != id ==> r[other] == drafts[other]
  {
    var base := if id in drafts then drafts[id] else Draft(None, None, None);
    drafts[id := Draft(
      Merge(patch.isPaid, base.isPaid),
      Merge(patch.status, base.status),
      Merge(patch.refundCompleted, base.refundCompleted))]
  }

  /** One field of the payload: a draft value different from the stored
      one is sent, an equal one left out. */
  function DiffField<T(==)>(drafted: Option<T>, stored: T): PayloadField<T> {
    match drafted
    case None => Undefined
    case Some(v) => if v != stored then Set(v) else Omitted
  }

  /** A payload has changes when any field besides the id is present. */
  predicate HasChanges(u: Update) {
    u.isPaid != Omitted || u.status != Omitted || u.refundCompleted != Omitted
  }

  /** The payload for one participant, if there is a draft for it and the
      payload has changes. */
  function UpdateFor(p: Participant, drafts: map<string, Draft>): Option<Update> {
    if p.id !in drafts then None
    else
      var d := drafts[p.id];
      var u := Update(p.id, DiffField(d.isPaid, p.isPaid), DiffField(d.status, p.status),
                      DiffField(d.refundCompleted, p.refundCompleted));
      if HasChanges(u) then Some(u) else None
  }

  /** The payloads of a save, in the order of the participants. */
  function BuildUpdates(ps: seq<Participant>, drafts: map<string, Draft>): (updates: seq<Update>)
    ensures |updates| <= |ps|
    ensures forall k :: 0 <= k < |updates| ==> HasChanges(updates[k])
    decreases |ps|
  {
    if |ps| == 0 then []
    else
      var rest := BuildUpdates(ps[1..], drafts);
      match UpdateFor(ps[0], drafts)
      case None => rest
      case Some(u) => [u] + rest
  }

  /** A save: nothing to send when no payload has changes. */
  function SaveChanges(ps: seq<Participant>, drafts: map<string, Draft>): (outcome: SaveOutcome)
    ensures outcome == NothingToSave <==> BuildUpdates(ps, drafts) == []
  {
    var updates := BuildUpdates(ps, drafts);
    if |updates| == 0 then NothingToSave else Send(updates)
  }

  /** With distinct ids every participant's draft holds its current
      values. */
  lemma {:induction false} StartEditingDrafts(ps: seq<Participant>, i: nat)
    requires i < |ps|
    requires forall a, b :: 0 <= a < b < |ps| ==> ps[a].id != ps[b].id
    ensures ps[i].id in StartEditing(ps) && StartEditing(ps)[ps[i].id] == DraftOf(ps[i])
    decreases |ps|
  {
    if i < |ps| - 1 {
      StartEditingDrafts(ps[..|ps| - 1], i);
    }
  }

  /** There is a draft for exactly the participants' ids. */
  lemma {:induction false} StartEditingKeys(ps: seq<Participant>)
    ensures StartEditing(ps).Keys == set i | 0 <= i < |ps| :: ps[i].id
    decreases |ps|
  {
    if |ps| > 0 {
      var init := ps[..|ps| - 1];
      StartEditingKeys(init);
      assert (set i | 0 <= i < |ps| :: ps[i].id) == (set i | 0 <= i < |init| :: init[i].id) + {ps[|ps| - 1].id};
    }
  }

  /** Patching a draft writes the patched fields and keeps the others. */
  lemma UpdateDraftFields(drafts: map<string, Draft>, id: string, patch: Patch)
    requires id in drafts
    ensures var d := UpdateDraft(drafts, id, patch)[id];
      && d.isPaid == (if patch.isPaid.Some? then patch.isPaid else drafts[id].isPaid)
      && d.status == (if patch.status.Some? then patch.status else drafts[id].status)
      && d.refundCompleted == (if patch.refundCompleted.Some? then patch.refundCompleted else drafts[id].refundCompleted)
  {
  }

  /** Patching a complete draft keeps it complete. */
  lemma UpdateDraftKeepsComplete(drafts: map<string, Draft>, id: string, patch: Patch)
    requires id in drafts && Complete(drafts[id])
    ensures Complete(UpdateDraft(drafts, id, patch)[id])
  {
  }

  /** For a complete draft the payload carries exactly the changed fields,
      each with its drafted value; without a change there is no payload. */
  lemma UpdateCarriesChangedFields(p: Participant, drafts: map<string, Draft>)
    requires p.id in drafts && Complete(drafts[p.id])
    ensures var d := drafts[p.id];
      var changed := d.isPaid.value != p.isPaid || d.status.value != p.status
        || d.refundCompleted.value != p.refundCompleted;
      && (UpdateFor(p, drafts).Some? <==> changed)
      && (UpdateFor(p, drafts).Some? ==>
           var u := UpdateFor(p, drafts).value;
           && u.participantId == p.id
           && (u.isPaid.Set? <==> d.isPaid.value != p.isPaid)
           && (u.isPaid.Set? ==> u.isPaid.value == d.isPaid.value)
           && (u.status.Set? <==> d.status.value != p.status)
           && (u.status.Set? ==> u.status.value == d.status.value)
           && (u.refundCompleted.Set? <==> d.refundCompleted.value != p.refundCompleted)
           && (u.refundCompleted.Set? ==> u.refundCompleted.value == d.refundCompleted.value)
           && u.isPaid != Undefined && u.status != Undefined && u.refundCompleted != Undefined)
  {
  }

  /** A participant without a draft yields no payload. */
  lemma NoDraftNoUpdate(p: Participant, drafts: map<string, Draft>)
    requires p.id !in drafts
    ensures UpdateFor(p, drafts).None?
  {
  }

  /** The payloads of a longer list are those of its parts, in order. */
  lemma {:induction false} BuildUpdatesAppend(ps: seq<Participant>, qs: seq<Participant>, drafts: map<string, Draft>)
    ensures BuildUpdates(ps + qs, drafts) == BuildUpdates(ps, drafts) + BuildUpdates(qs, drafts)
    decreases |ps|
  {
    if |ps| == 0 {
      assert ps + qs == qs;
    } else {
      assert (ps + qs)[1..] == ps[1..] + qs;
      BuildUpdatesAppend(ps[1..], qs, drafts);
    }
  }

  /** Saving right after starting an edit, with distinct ids, sends
      nothing. */
  lemma SaveWithoutEditsSendsNothing(ps: seq<Participant>)
    requires forall a, b :: 0 <= a < b < |ps| ==> ps[a].id != ps[b].id
    ensures SaveChanges(ps, StartEditing(ps)) == NothingToSave
  {
    forall i | 0 <= i < |ps| ensures UpdateFor(ps[i], StartEditing(ps)).None? {
      StartEditingDrafts(ps, i);
    }
    NoChangesNoUpdates(ps, StartEditing(ps));
  }

  /** When no participant yields a payload, there are no updates. */
  lemma {:induction false} NoChangesNoUpdates(ps: seq<Participant>, drafts: map<string, Draft>)
    requires forall i :: 0 <= i < |ps| ==> UpdateFor(ps[i], drafts).None?
    ensures BuildUpdates(ps, drafts) == []
    decreases |ps|
  {
    if |ps| > 0 {
      NoChangesNoUpdates(ps[1..], drafts);
    }
  }

  /** The drafts after starting an edit and setting the paid flag of the
      participant at `i`. */
  function PaidEdit(ps: seq<Participant>, i: nat, paid: bool): map<string, Draft>
    requires i < |ps|
  {
    UpdateDraft(StartEditing(ps), ps[i].id, Patch(Some(paid), None, None))
  }

  /** One edit of one participant, saved: exactly one payload, for that
      participant, carrying the edited field. */
  lemma SingleEditSendsOneUpdate(ps: seq<Participant>, i: nat, paid: bool)
    requires forall a, b :: 0 <= a < b < |ps| ==> ps[a].id != ps[b].id
    requires i < |ps| && paid != ps[i].isPaid
    ensures BuildUpdates(ps, PaidEdit(ps, i, paid)) == [Update(ps[i].id, Set(paid), Omitted, Omitted)]
  {
    var drafts := PaidEdit(ps, i, paid);
    forall j | 0 <= j < |ps| && j != i ensures UpdateFor(ps[j], drafts).None? {
      UneditedNoUpdate(ps, i, paid, j);
    }
    EditedUpdate(ps, i, paid);
    OneUpdate(ps, drafts, i);
  }

  lemma EditedUpdate(ps: seq<Participant>, i: nat, paid: bool)
    requires forall a, b :: 0 <= a < b < |ps| ==> ps[a].id != ps[b].id
    requires i < |ps| && paid != ps[i].isPaid
    ensures UpdateFor(ps[i], PaidEdit(ps, i, paid)) == Some(Update(ps[i].id, Set(paid), Omitted, Omitted))
  {
    StartEditingDrafts(ps, i);
  }

  /** When only the participant at `i` yields a payload, the save sends
      that payload alone. */
  lemma OneUpdate(ps: seq<Participant>, drafts: map<string, Draft>, i: nat)
    requires i < |ps| && UpdateFor(ps[i], drafts).Some?
    requires forall j :: 0 <= j < |ps| && j != i ==> UpdateFor(ps[j], drafts).None?
    ensures BuildUpdates(ps, drafts) == [UpdateFor(ps[i], drafts).value]
  {
    var pre, post := ps[..i], ps[i + 1..];
    forall k | 0 <= k < |pre| ensures UpdateFor(pre[k], drafts).None? {
      assert pre[k] == ps[k];
    }
    NoChangesNoUpdates(pre, drafts);
    forall k | 0 <= k < |post| ensures UpdateFor(post[k], drafts).None? {
      assert post[k] == ps[i + 1 + k];
    }
    NoChangesNoUpdates(post, drafts);
    assert ps == pre + [ps[i]] + post;
    BuildUpdatesAppend(pre + [ps[i]], post, drafts);
    BuildUpdatesAppend(pre, [ps[i]], drafts);
  }

  /** The participants other than the edited one yield no payload. */
  lemma UneditedNoUpdate(ps: seq<Participant>, i: nat, paid: bool, j: nat)
    requires forall a, b :: 0 <= a < b < |ps| ==> ps[a].id != ps[b].id
    requires i < |ps| && j < |ps| && j != i
    ensures UpdateFor(ps[j], PaidEdit(ps, i, paid)).None?
  {
    StartEditingDrafts(ps, j);
  }
}

=== FILE: problem_table_editor.dfy ===
/** The problem-schedule editor of a season
    (src/components/admin/ProblemTableEditor.tsx): the default kind and
    title of each day of a two-week season, the table the editor starts
    from, and the edit of one cell. Dates are day indices; the start date
    is a parameter. */
module ProblemTableEditor {
  import opened Wrappers
  import opened Domain

  /** A season lasts two weeks. */
  const TotalDays: nat := 14

  /** One row of the editor's table. */
  datatype ProblemRow = ProblemRow(
    dayNumber: int,
    title: string,
    url: string,
    assignedDay: Day,
    problemType: ProblemType,
    isPractice: bool)

  /** Days 6 and 13 are free-choice days, days 7 and 14 rest days, the
      others regular. */
  function DefaultProblemType(dayNumber: int): ProblemType {
    if dayNumber == 6 || dayNumber == 13 then Free
    else if dayNumber == 7 || dayNumber == 14 then Rest
    else Regular
  }

  /** The default title of a day. */
  function DefaultTitle(dayNumber: int): string {
    if dayNumber == 6 || dayNumber == 13 then "자율 문제"
    else if dayNumber == 7 || dayNumber == 14 then "휴식일"
    else ""
  }

  /** The title each kind of day starts with. */
  function KindTitle(t: ProblemType): string {
    match t
    case Free => "자율 문제"
    case Rest => "휴식일"
    case Regular => ""
  }

  /** The last of `existing` on day `dayNumber`, if any (a later problem on
      the same day replaces an earlier one). */
  function LastOnDay(existing: seq<Problem>, dayNumber: int): (r: Option<Problem>)
    ensures r.None? <==> forall i :: 0 <= i < |existing| ==> existing[i].dayNumber != dayNumber
    ensures r.Some? ==> exists i :: (0 <= i < |existing| && existing[i] == r.value
                                     && r.value.dayNumber == dayNumber
                                     && forall j :: i < j < |existing| ==> existing[j].dayNumber != dayNumber)
    decreases |existing|
  {
    if |existing| == 0 then None
    else
      var last := existing[|existing| - 1];
      if last.dayNumber == dayNumber then Some(last)
      else LastOnDay(existing[..|existing| - 1], dayNumber)
  }

  /** The row of day `dayNumber`: dated `dayNumber - 1` days after the
      start; the existing problem's fields when there is one (a missing URL
      shown as empty), the day's defaults otherwise, practice being day 1
      only. */
  function InitialRow(existing: seq<Problem>, startDay: Day, dayNumber: int): ProblemRow {
    var dated := startDay + dayNumber - 1;
    match LastOnDay(existing, dayNumber)
    case Some(p) => ProblemRow(dayNumber, p.title, p.url.GetOr(""), dated, p.problemType, p.isPractice)
    case None => ProblemRow(dayNumber, DefaultTitle(dayNumber), "", dated, DefaultProblemType(dayNumber), dayNumber == 1)
  }

  /** The table the editor opens with: one row per day of the season. */
  function InitialRows(existing: seq<Problem>, startDay: Day): (rows: seq<ProblemRow>)
    ensures |rows| == TotalDays
    ensures forall i :: 0 <= i < |rows| ==> rows[i].dayNumber == i + 1 && rows[i].assignedDay == startDay + i
  {
    seq(TotalDays, i requires 0 <= i < TotalDays => InitialRow(existing, startDay, i + 1))
  }

  /** A new value for one field of a row. */
  datatype FieldUpdate =
    | SetTitle(title: string)
    | SetUrl(url: string)
    | SetAssignedDay(day: Day)
    | SetProblemType(problemType: ProblemType)
    | SetPractice(isPractice: bool)

  function Apply(row: ProblemRow, u: FieldUpdate): ProblemRow {
    match u
    case SetTitle(t) => row.(title := t)
    case SetUrl(v) => row.(url := v)
    case SetAssignedDay(d) => row.(assignedDay := d)
    case SetProblemType(t) => row.(problemType := t)
    case SetPractice(b) => row.(isPractice := b)
  }

  /** Whether two updates write the same field. */
  predicate SameField(u: FieldUpdate, v: FieldUpdate) {
    (u.SetTitle? && v.SetTitle?) || (u.SetUrl? && v.SetUrl?) || (u.SetAssignedDay? && v.SetAssignedDay?)
    || (u.SetProblemType? && v.SetProblemType?) || (u.SetPractice? && v.SetPractice?)
  }

  /** The table with one field of the rows of day `dayNumber` changed;
      length, order, every other row and every other field stay. */
  function UpdateProblem(rows: seq<ProblemRow>, dayNumber: int, u: FieldUpdate): (r: seq<ProblemRow>)
    ensures |r| == |rows|
    ensures forall i :: 0 <= i < |rows| && rows[i].dayNumber != dayNumber ==> r[i] == rows[i]
    ensures forall i :: 0 <= i < |rows| ==> r[i].dayNumber == rows[i].dayNumber
  {
    seq(|rows|, i requires 0 <= i < |rows| => if rows[i].dayNumber == dayNumber then Apply(rows[i], u) else rows[i])
  }

  /** The default title is the title of the default kind. */
  lemma DefaultTitleMatchesType(dayNumber: int)
    ensures DefaultTitle(dayNumber) == KindTitle(DefaultProblemType(dayNumber))
  {
  }

  /** Both weeks follow the same pattern, with the free day and then the
      rest day closing each week. */
  lemma DefaultWeeklyPattern(d: int)
    requires 1 <= d <= 7
    ensures DefaultProblemType(d + 7) == DefaultProblemType(d)
    ensures DefaultProblemType(d) == Rest <==> d == 7
    ensures DefaultProblemType(d) == Free <==> d == 6
  {
  }

  /** A day with an existing problem shows that problem's title, URL, kind
      and practice flag, taken from the last such problem. */
  lemma ExistingRowKept(existing: seq<Problem>, startDay: Day, i: nat, k: nat)
    requires i < TotalDays && k < |existing| && existing[k].dayNumber == i + 1
    requires forall j :: k < j < |existing| ==> existing[j].dayNumber != i + 1
    ensures var row := InitialRows(existing, startDay)[i];
      && row.title == existing[k].title
      && row.url == existing[k].url.GetOr("")
      && row.problemType == existing[k].problemType
      && row.isPractice == existing[k].isPractice
  {
    LastOnDayIsLast(existing, i + 1, k);
  }

  /** The last problem on a day is the one found. */
  lemma {:induction false} LastOnDayIsLast(existing: seq<Problem>, dayNumber: int, k: nat)
    requires k < |existing| && existing[k].dayNumber == dayNumber
    requires forall j :: k < j < |existing| ==> existing[j].dayNumber != dayNumber
    ensures LastOnDay(existing, dayNumber) == Some(existing[k])
    decreases |existing|
  {
    if k < |existing| - 1 {
      LastOnDayIsLast(existing[..|existing| - 1], dayNumber, k);
    }
  }

  /** A day without an existing problem shows its defaults, with no URL,
      and only day 1 is a practice day. */
  lemma DefaultRow(existing: seq<Problem>, startDay: Day, i: nat)
    requires i < TotalDays
    requires forall j :: 0 <= j < |existing| ==> existing[j].dayNumber != i + 1
    ensures var row := InitialRows(existing, startDay)[i];
      && row.title == KindTitle(row.problemType)
      && row.problemType == DefaultProblemType(i + 1)
      && row.url == ""
      && (row.isPractice <==> i == 0)
  {
  }

  /** Writing the same field twice keeps the second value. */
  lemma UpdateLastWins(rows: seq<ProblemRow>, dayNumber: int, u: FieldUpdate, v: FieldUpdate)
    requires SameField(u, v)
    ensures UpdateProblem(UpdateProblem(rows, dayNumber, u), dayNumber, v) == UpdateProblem(rows, dayNumber, v)
  {
  }

  /** Applying the same update twice is applying it once. */
  lemma UpdateIdempotent(rows: seq<ProblemRow>, dayNumber: int, u: FieldUpdate)
    ensures UpdateProblem(UpdateProblem(rows, dayNumber, u), dayNumber, u) == UpdateProblem(rows, dayNumber, u)
  {
    UpdateLastWins(rows, dayNumber, u, u);
  }

  /** Edits of different days, or of different fields, do not interfere. */
  lemma UpdatesCommute(rows: seq<ProblemRow>, d1: int, u: FieldUpdate, d2: int, v: FieldUpdate)
    requires d1 != d2 || !SameField(u, v)
    ensures UpdateProblem(UpdateProblem(rows, d1, u), d2, v) == UpdateProblem(UpdateProblem(rows, d2, v), d1, u)
  {
  }

  /** The edited rows differ from the originals in the updated field
      only. */
  lemma UpdateChangesOneField(rows: seq<ProblemRow>, dayNumber: int, u: FieldUpdate, i: nat)
    requires i < |rows| && rows[i].dayNumber == dayNumber
    ensures var r := UpdateProblem(rows, dayNumber, u)[i];
      && r.dayNumber == rows[i].dayNumber
      && r.title == (if u.SetTitle? then u.title else rows[i].title)
      && r.url == (if u.SetUrl? then u.url else rows[i].url)
      && r.assignedDay == (if u.SetAssignedDay? then u.day else rows[i].assignedDay)
      && r.problemType == (if u.SetProblemType? then u.problemType else rows[i].problemType)
      && r.isPractice == (if u.SetPractice? then u.isPractice else rows[i].isPractice)
  {
  }
}

=== FILE: proxy.dfy ===
/** The route guard (src/proxy.ts): which signed-in tokens may open which
    paths. The guard reads its own administrator variable, normalised the
    same way as the administrator check's; the variable is a parameter. */
module Proxy {
  import opened Wrappers
  import opened Strings
  import opened AdminAuth

  /** The part of a session token the guard reads. */
  datatype Token = Token(email: Option<string>)

  /** Whether a request for `path` carrying `token` may proceed: a token is
      required; admin paths further need a non-empty e-mail whose
      lower-cased form (not trimmed) is listed. */
  function Authorized(token: Option<Token>, path: string, adminEmails: Option<string>): bool {
    match token
    case None => false
    case Some(t) =>
      if StartsWith(path, "/admin") then
        t.email.Some? && |t.email.value| > 0 && ToLower(t.email.value) in NormalizeList(adminEmails)
      else
        true
  }

  /** Without a token nothing is authorised. */
  lemma NoTokenNoAccess(path: string, adminEmails: Option<string>)
    ensures !Authorized(None, path, adminEmails)
  {
  }

  /** Any token may open a path outside `/admin`. */
  lemma OtherPathsOpen(t: Token, path: string, adminEmails: Option<string>)
    requires !StartsWith(path, "/admin")
    ensures Authorized(Some(t), path, adminEmails)
  {
  }

  /** On an admin path a token passes exactly when its e-mail, lower-cased,
      is listed; the non-emptiness test is implied. */
  lemma AdminPathRule(t: Token, path: string, adminEmails: Option<string>)
    requires StartsWith(path, "/admin")
    ensures Authorized(Some(t), path, adminEmails) <==>
      t.email.Some? && ToLower(t.email.value) in NormalizeList(adminEmails)
  {
  }

  /** Unlike the administrator check, the guard does not trim: an
      administrator's e-mail with whitespace in front passes the check but
      not the guard. */
  lemma PaddedEmailContrast(x: string, w: string, path: string)
    requires IsNormalEntry(x) && |w| > 0 && AllSpace(w)
    requires StartsWith(path, "/admin")
    ensures IsAdminUser(Some(w + x), Some(x))
    ensures !Authorized(Some(Token(Some(w + x))), path, Some(x))
  {
    assert Join([x], ',') == x;
    NormalizeListOfJoin([x]);
    assert IsAdminUser(Some(x), Some(x)) by {
      TrimTrimmed(x);
    }
    assert w + x == w + x + "";
    AdminIgnoresPadding(w, x, "", Some(x));
    assert |ToLower(w + x)| != |x|;
  }
}

=== FILE: refund.dfy ===
/** The refund engine (src/lib/utils/refund.ts:20-145): from the paid
    participants, the season's problems, the entry fee and the current day,
    the refund table of a season and the label of a rank. */
module Refund {
  import opened Wrappers
  import opened Seqs
  import opened Strings
  import opened Domain
  import opened RefundTypes
  import opened RefundEligibility
  import opened RefundRanking
  import opened RefundPool

  /** Every paid participant's unranked result, in input order. */
  function Evaluated(participants: seq<ParticipantInput>, problems: seq<DueProblem>, today: Day): (rs: seq<RefundResult>)
    ensures |rs| == |Filter(IsPaid, participants)|
    ensures forall i :: 0 <= i < |rs| ==> Unpaid(rs[i]) && rs[i].totalProblems == |problems|
    ensures forall i :: 0 <= i < |rs| ==>
      rs[i] == Evaluate(Filter(IsPaid, participants)[i], |problems|, PastProblems(problems, today))
  {
    EvaluateAll(Filter(IsPaid, participants), |problems|, PastProblems(problems, today))
  }

  /** The results that stay in the challenge. */
  function ActiveResults(evaluated: seq<RefundResult>): seq<RefundResult> {
    Filter(IsActiveResult, evaluated)
  }

  /** The results that dropped out. */
  function DroppedResults(evaluated: seq<RefundResult>): seq<RefundResult> {
    Filter(IsDroppedResult, evaluated)
  }

  /** The active results in order of misses, each with its rank. */
  function Ranked(evaluated: seq<RefundResult>): seq<RefundResult> {
    AssignRanks(SortByMissed(ActiveResults(evaluated)))
  }

  /** The ranked active results with their share of the dropped pool and
      the entry fee back. */
  function Payouts(evaluated: seq<RefundResult>, droppedPool: int, entryFee: int): seq<RefundResult> {
    AddEntryFee(Distribute(Ranked(evaluated), droppedPool), entryFee)
  }

  /** The refund table: the pool of all paid fees, the pool of the dropped
      participants' fees, and the active results (ranked, best first)
      followed by the dropped ones. Only paid participants take part. */
  function CalculateRefund(participants: seq<ParticipantInput>, problems: seq<DueProblem>, entryFee: int, today: Day): (c: RefundCalculation)
    ensures c.totalPool == |Filter(IsPaid, participants)| * entryFee
    ensures |c.results| == |Filter(IsPaid, participants)|
  {
    var evaluated := Evaluated(participants, problems, today);
    var dropped := DroppedResults(evaluated);
    var droppedPool := |dropped| * entryFee;
    FilterPartition(IsActiveResult, IsDroppedResult, evaluated);
    RefundCalculation(
      |Filter(IsPaid, participants)| * entryFee,
      droppedPool,
      Payouts(evaluated, droppedPool, entryFee) + dropped)
  }

  /** The label shown for a rank: dropped participants are marked as such,
      the first three ranks also say how many misses they stand for. */
  function RankLabel(rank: Option<nat>): (text: string)
    ensures |text| > 0
    ensures rank.Some? ==> StartsWith(text, NatToString(rank.value) + "등")
    ensures rank.None? <==> !IsDigit(text[0])
    ensures rank.Some? && !(1 <= rank.value <= 3) ==> text == NatToString(rank.value) + "등"
  {
    match rank
    case None => "중도포기"
    case Some(r) =>
      if r == 1 then assert NatToString(1) + "등" == "1등"; "1등 (0회 미인증)"
      else if r == 2 then assert NatToString(2) + "등" == "2등"; "2등 (1회 미인증)"
      else if r == 3 then assert NatToString(3) + "등" == "3등"; "3등 (2회 미인증)"
      else NatToString(r) + "등"
  }

  /** The labels of ranks 1 to 3 follow one pattern: a rank `r` stands for
      `r - 1` misses. */
  lemma RankLabelPodium(r: nat)
    requires 1 <= r <= 3
    ensures RankLabel(Some(r)) == NatToString(r) + "등 (" + NatToString(r - 1) + "회 미인증)"
  {
    assert NatToString(r) == [DigitChar(r)];
    assert NatToString(r - 1) == [DigitChar(r - 1)];
    if r == 1 {
      assert "1" + "등 (" + "0" + "회 미인증)" == "1등 (0회 미인증)";
    } else if r == 2 {
      assert "2" + "등 (" + "1" + "회 미인증)" == "2등 (1회 미인증)";
    } else {
      assert "3" + "등 (" + "2" + "회 미인증)" == "3등 (2회 미인증)";
    }
  }

  /** A podium label ends with its closing parenthesis, any other rank's
      label with the rank suffix `등`. */
  lemma RankLabelLast(r: nat)
    ensures var x := RankLabel(Some(r)); x[|x| - 1] == if 1 <= r <= 3 then ')' else '등'
  {
    if !(1 <= r <= 3) {
      var d := NatToString(r);
      assert (d + "등")[|d|] == '등';
    } else {
      RankLabelPodium(r);
      var p := NatToString(r) + "등 (" + NatToString(r - 1);
      assert (p + "회 미인증)")[|p| + 5] == ')';
    }
  }

  /** Different ranks get different labels. */
  lemma RankLabelInjective(a: Option<nat>, b: Option<nat>)
    requires RankLabel(a) == RankLabel(b)
    ensures a == b
  {
    if a.Some? && b.Some? {
      var x, y := RankLabel(a), RankLabel(b);
      RankLabelLast(a.value);
      RankLabelLast(b.value);
      if !(1 <= a.value <= 3) && !(1 <= b.value <= 3) {
        assert NatToString(a.value) == x[..|x| - 1];
        assert NatToString(b.value) == y[..|y| - 1];
        NatToStringInjective(a.value, b.value);
      }
    }
  }
}

=== FILE: refund_eligibility.dfy ===
/** The first two stages of the refund calculation
    (src/lib/utils/refund.ts:35-71): which problems are past due, how many of
    them each participant missed, and whether the participant is dropped. */
module RefundEligibility {
  import opened Wrappers
  import opened Domain
  import opened Seqs
  import opened RefundTypes

  /** Missing this many past-due problems drops an `ACTIVE` participant. */
  const DropThreshold: nat := 3

  /** A problem is past due when it was assigned strictly before the day
      that `today` starts. */
  function IsPast(today: Day): DueProblem -> bool {
    (p: DueProblem) => p.assignedDay < today
  }

  function NotSubmitted(submitted: seq<string>): DueProblem -> bool {
    (p: DueProblem) => p.id !in submitted
  }

  /** The past-due problems, in their original order. */
  function PastProblems(problems: seq<DueProblem>, today: Day): (past: seq<DueProblem>)
    ensures |past| <= |problems|
    ensures forall i :: 0 <= i < |past| ==> past[i] in problems && past[i].assignedDay < today
    ensures forall i :: 0 <= i < |problems| && problems[i].assignedDay < today ==> problems[i] in past
  {
    Filter(IsPast(today), problems)
  }

  /** The number of `past` problems whose id is not among `submitted`. */
  function MissedCount(past: seq<DueProblem>, submitted: seq<string>): (n: nat)
    ensures n <= |past|
  {
    |Filter(NotSubmitted(submitted), past)|
  }

  /** The drop rule: `DROPPED` participants are dropped, and so are `ACTIVE`
      participants with at least three misses; `COMPLETED` participants
      never are. */
  predicate IsDropped(status: ParticipantStatus, missed: nat) {
    status == Dropped || (status == Active && missed >= DropThreshold)
  }

  /** A participant's unranked result: counts, drop decision, and no refund
      yet. */
  function Evaluate(p: ParticipantInput, totalProblems: nat, past: seq<DueProblem>): (r: RefundResult)
    ensures r.githubUsername == p.githubUsername
    ensures r.totalProblems == totalProblems
    ensures r.submittedCount == |p.submittedProblemIds|
    ensures r.missedCount == MissedCount(past, p.submittedProblemIds)
    ensures r.missedCount <= |past|
    ensures p.status == Completed ==> !r.isDropped
    ensures p.status == Dropped ==> r.isDropped
    ensures p.status == Active ==> (r.isDropped <==> r.missedCount >= 3)
    ensures Unpaid(r)
  {
    var missed := MissedCount(past, p.submittedProblemIds);
    RefundResult(
      githubUsername := p.githubUsername,
      totalProblems := totalProblems,
      submittedCount := |p.submittedProblemIds|,
      missedCount := missed,
      rank := None,
      refundPercentage := 0.0,
      refundAmount := 0,
      isDropped := IsDropped(p.status, missed))
  }

  /** `Evaluate` applied to every participant, in order. */
  function EvaluateAll(ps: seq<ParticipantInput>, totalProblems: nat, past: seq<DueProblem>): (rs: seq<RefundResult>)
    ensures |rs| == |ps|
    ensures forall i :: 0 <= i < |ps| ==> rs[i] == Evaluate(ps[i], totalProblems, past)
  {
    seq(|ps|, i requires 0 <= i < |ps| => Evaluate(ps[i], totalProblems, past))
  }

  /** A participant never misses more problems than the season has. */
  lemma MissedAtMostTotal(problems: seq<DueProblem>, today: Day, submitted: seq<string>)
    ensures MissedCount(PastProblems(problems, today), submitted) <= |problems|
  {
  }

  /** A problem assigned today or later is never counted as missed: adding
      one to the season leaves every missed count unchanged. */
  lemma FutureProblemNeverMissed(problems: seq<DueProblem>, q: DueProblem, today: Day, submitted: seq<string>)
    requires q.assignedDay >= today
    ensures MissedCount(PastProblems(problems + [q], today), submitted)
         == MissedCount(PastProblems(problems, today), submitted)
  {
    assert !IsPast(today)(q);
    FilterSnoc(IsPast(today), problems, q);
    assert PastProblems(problems + [q], today) == PastProblems(problems, today);
  }

  /** A past-due problem that was not submitted counts once more. */
  lemma PastUnsubmittedProblemMissed(problems: seq<DueProblem>, q: DueProblem, today: Day, submitted: seq<string>)
    requires q.assignedDay < today && q.id !in submitted
    ensures MissedCount(PastProblems(problems + [q], today), submitted)
         == MissedCount(PastProblems(problems, today), submitted) + 1
  {
    FilterSnoc(IsPast(today), problems, q);
    FilterSnoc(NotSubmitted(submitted), PastProblems(problems, today), q);
  }

  /** A past-due problem that was submitted adds no miss. */
  lemma PastSubmittedProblemNotMissed(problems: seq<DueProblem>, q: DueProblem, today: Day, submitted: seq<string>)
    requires q.assignedDay < today && q.id in submitted
    ensures MissedCount(PastProblems(problems + [q], today), submitted)
         == MissedCount(PastProblems(problems, today), submitted)
  {
    FilterSnoc(IsPast(today), problems, q);
    FilterSnoc(NotSubmitted(submitted), PastProblems(problems, today), q);
  }

  /** A season without problems has no misses; with the three lemmas above
      on appending one problem, this fixes every missed count. */
  lemma NoProblemsNoMisses(today: Day, submitted: seq<string>)
    ensures MissedCount(PastProblems([], today), submitted) == 0
  {
  }

  /** Submitting more never increases the number of misses. */
  lemma MoreSubmissionsFewerMisses(past: seq<DueProblem>, fewer: seq<string>, more: seq<string>)
    requires forall id :: id in fewer ==> id in more
    ensures MissedCount(past, more) <= MissedCount(past, fewer)
  {
    FilterMonotone(NotSubmitted(more), NotSubmitted(fewer), past);
  }

  /** A participant who submitted every past-due problem missed none, and
      one who submitted none of them missed them all. */
  lemma MissedExtremes(past: seq<DueProblem>, submitted: seq<string>)
    ensures (forall i :: 0 <= i < |past| ==> past[i].id in submitted) ==> MissedCount(past, submitted) == 0
    ensures (forall i :: 0 <= i < |past| ==> past[i].id !in submitted) ==> MissedCount(past, submitted) == |past|
  {
    if forall i :: 0 <= i < |past| ==> past[i].id in submitted {
      FilterNone(NotSubmitted(submitted), past);
    }
    if forall i :: 0 <= i < |past| ==> past[i].id !in submitted {
      FilterAll(NotSubmitted(submitted), past);
    }
  }

  /** For an `ACTIVE` participant, more misses never un-drop. */
  lemma DropMonotone(status: ParticipantStatus, m1: nat, m2: nat)
    requires m1 <= m2 && IsDropped(status, m1)
    ensures IsDropped(status, m2)
  {
  }
}

=== FILE: refund_pool.dfy ===
/** The pool split of the refund calculation (src/lib/utils/refund.ts:88-130):
    the dropped participants' fees are shared out over the ranked active
    participants by a fixed 70/20/10 table, a tie group taking the table
    entries of every rank it spans, split evenly and floored to whole won;
    then every active participant gets the entry fee back. */
module RefundPool {
  import opened Wrappers
  import opened Seqs
  import opened RefundTypes
  import opened RefundRanking

  /** The share of the dropped pool, in percent, of ranks 1, 2 and 3. */
  const Distribution: map<int, nat> := map[1 := 70, 2 := 20, 3 := 10]

  /** The last rank the table pays. */
  const LastPaidRank: int := 3

  /** A rank's table entry; ranks missing from the table have none. */
  function TablePercentage(rank: int): nat {
    if rank in Distribution then Distribution[rank] else 0
  }

  function Min(a: int, b: int): int {
    if a <= b then a else b
  }

  /** The table entries of the ranks `from..to`, inclusive; nothing when the
      window is empty. */
  function WindowSum(from: int, to: int): nat
    decreases to - from + 1
  {
    if from > to then 0 else TablePercentage(from) + WindowSum(from + 1, to)
  }

  /** What a tie group of `size` results at rank `rank` receives in all:
      the table entries of the ranks it spans, capped at rank 3, and
      nothing when it starts below rank 3. */
  function GroupPercentage(rank: int, size: nat): (g: nat)
    ensures rank > LastPaidRank ==> g == 0
  {
    var total := WindowSum(rank, Min(rank + size - 1, LastPaidRank));
    if rank > LastPaidRank then 0 else total
  }

  /** The share of the first `n` ranks together. */
  function Cumulative(n: int): nat {
    WindowSum(1, Min(n, LastPaidRank))
  }

  /** Each member's percentage in a group of `size` sharing `g` percent. */
  function MemberPercentage(g: nat, size: nat): (p: real)
    ensures p >= 0.0
    ensures g == 0 ==> p == 0.0
  {
    if size == 0 then 0.0 else g as real / size as real
  }

  /** Each member's bonus: `pool * g / (100 * size)` won, rounded down
      (see `MemberAmountIsFloor`). */
  function MemberAmount(pool: int, g: nat, size: nat): (a: int)
    ensures g == 0 ==> a == 0
    ensures pool >= 0 ==> a >= 0
  {
    if size == 0 then 0
    else
      var m := 100 * size;
      var x := pool * g;
      FloorDiv(x, m);
      assert pool >= 0 ==> x >= 0;
      x / m
  }

  /** A member's bonus is the floor of `pool` times the member's percentage
      over 100: the largest whole number of won not above it. */
  lemma MemberAmountIsFloor(pool: int, g: nat, size: nat)
    requires size > 0
    ensures var a := MemberAmount(pool, g, size);
      100 * size * a <= pool * g < 100 * size * (a + 1)
  {
    FloorDiv(pool * g, 100 * size);
  }

  /** Integer division by a positive divisor rounds down. */
  lemma FloorDiv(x: int, m: int)
    requires m > 0
    ensures m * (x / m) <= x < m * (x / m + 1)
    ensures x >= 0 ==> x / m >= 0
    ensures x == 0 ==> x / m == 0
  {
    var q, r := x / m, x % m;
    assert x == m * q + r && 0 <= r < m;
    assert m * (q + 1) == m * q + m;
  }

  function HasRank(rank: nat): RefundResult -> bool {
    (r: RefundResult) => r.rank == Some(rank)
  }

  /** The size of the group of results with rank `rank`. */
  function GroupSize(s: seq<RefundResult>, rank: nat): nat {
    |Filter(HasRank(rank), s)|
  }

  /** The percentage of every member of the group of rank `rank`. */
  function RankPercentage(s: seq<RefundResult>, rank: nat): real {
    MemberPercentage(GroupPercentage(rank, GroupSize(s, rank)), GroupSize(s, rank))
  }

  /** The bonus of every member of the group of rank `rank`. */
  function RankAmount(s: seq<RefundResult>, rank: nat, pool: int): int {
    MemberAmount(pool, GroupPercentage(rank, GroupSize(s, rank)), GroupSize(s, rank))
  }

  /** The result at position `i` with its group's percentage and bonus;
      an unranked result is left as it is. */
  function PayoutAt(s: seq<RefundResult>, i: nat, pool: int): RefundResult
    requires i < |s|
  {
    match s[i].rank
    case None => s[i]
    case Some(rank) =>
      s[i].(refundPercentage := RankPercentage(s, rank), refundAmount := RankAmount(s, rank, pool))
  }

  /** Every ranked result with its group's share of `pool`. */
  function Distribute(s: seq<RefundResult>, pool: int): (r: seq<RefundResult>)
    ensures |r| == |s|
  {
    DistributeFrom(s, 0, pool)
  }

  /** The results from position `i` on, each with its group's share. */
  function DistributeFrom(s: seq<RefundResult>, i: nat, pool: int): (r: seq<RefundResult>)
    requires i <= |s|
    ensures |r| == |s| - i
    decreases |s| - i
  {
    if i == |s| then [] else [PayoutAt(s, i, pool)] + DistributeFrom(s, i + 1, pool)
  }

  lemma {:induction false} DistributeFromAt(s: seq<RefundResult>, i: nat, pool: int, j: nat)
    requires i <= j < |s|
    ensures DistributeFrom(s, i, pool)[j - i] == PayoutAt(s, j, pool)
    decreases j - i
  {
    if i < j {
      DistributeFromAt(s, i + 1, pool, j);
    }
  }

  /** Position `j` of the split is the result at `j` with its share. */
  lemma DistributeAt(s: seq<RefundResult>, pool: int, j: nat)
    requires j < |s|
    ensures Distribute(s, pool)[j] == PayoutAt(s, j, pool)
  {
    DistributeFromAt(s, 0, pool, j);
  }

  /** What the split does to each result: only the two payout fields
      change; unranked results are untouched; results with the same rank
      get the same percentage and the same amount; ranks past 3 get
      nothing, and with a non-negative pool no share is negative. */
  lemma DistributeShares(s: seq<RefundResult>, pool: int)
    ensures var r := Distribute(s, pool);
      && (forall i :: 0 <= i < |s| ==>
            r[i] == s[i].(refundPercentage := r[i].refundPercentage, refundAmount := r[i].refundAmount))
      && (forall i :: 0 <= i < |s| && s[i].rank.None? ==> r[i] == s[i])
      && (forall i, j :: 0 <= i < |s| && 0 <= j < |s| && s[i].rank.Some? && s[i].rank == s[j].rank ==>
            r[i].refundPercentage == r[j].refundPercentage && r[i].refundAmount == r[j].refundAmount)
      && (forall i :: 0 <= i < |s| && s[i].rank.Some? && s[i].rank.value > LastPaidRank ==>
            r[i].refundPercentage == 0.0 && r[i].refundAmount == 0)
      && (pool >= 0 ==> forall i :: 0 <= i < |s| && s[i].rank.Some? ==>
            r[i].refundPercentage >= 0.0 && r[i].refundAmount >= 0)
  {
    forall j | 0 <= j < |s| ensures Distribute(s, pool)[j] == PayoutAt(s, j, pool) {
      DistributeAt(s, pool, j);
    }
  }

  /** The entry fee added back to every amount. */
  function AddEntryFee(s: seq<RefundResult>, fee: int): (r: seq<RefundResult>)
    ensures |r| == |s|
    ensures forall i :: 0 <= i < |s| ==>
      r[i] == s[i].(refundAmount := r[i].refundAmount) && r[i].refundAmount - fee == s[i].refundAmount
  {
    seq(|s|, i requires 0 <= i < |s| => s[i].(refundAmount := s[i].refundAmount + fee))
  }

  /** Adding the fee back to `n` results adds `n` fees to the total. */
  lemma {:induction false} AddEntryFeeSum(s: seq<RefundResult>, fee: int)
    ensures SumAmount(AddEntryFee(s, fee)) == SumAmount(s) + |s| * fee
    ensures SumPercentage(AddEntryFee(s, fee)) == SumPercentage(s)
    decreases |s|
  {
    if |s| > 0 {
      AddEntryFeeSum(s[1..], fee);
      assert AddEntryFee(s, fee)[1..] == AddEntryFee(s[1..], fee);
    }
  }

  /** Splitting a window at `m`. */
  lemma {:induction false} WindowSumSplit(a: int, m: int, b: int)
    requires a <= m + 1 <= b + 1
    ensures WindowSum(a, b) == WindowSum(a, m) + WindowSum(m + 1, b)
    decreases m - a + 1
  {
    if a <= m {
      WindowSumSplit(a + 1, m, b);
    }
  }

  /** The whole table sums to 100. */
  lemma CumulativeBounds(n: int)
    ensures Cumulative(n) <= 100
    ensures n >= LastPaidRank ==> Cumulative(n) == 100
    ensures n <= 0 ==> Cumulative(n) == 0
  {
    assert WindowSum(1, 3) == 100 by {
      assert WindowSum(4, 3) == 0;
      assert WindowSum(3, 3) == 10;
      assert WindowSum(2, 3) == 30;
    }
    if n == 1 {
      assert WindowSum(2, 1) == 0;
    } else if n == 2 {
      assert WindowSum(3, 2) == 0;
      assert WindowSum(2, 2) == 20;
    }
  }

  /** Cumulative shares never decrease. */
  lemma CumulativeMonotone(m: int, n: int)
    requires m <= n
    ensures Cumulative(m) <= Cumulative(n)
  {
    if m >= 0 {
      WindowSumSplit(1, Min(m, LastPaidRank), Min(n, LastPaidRank));
    } else {
      CumulativeBounds(m);
    }
  }

  /** The rank windows of consecutive groups telescope: a group of `size`
      at rank `rank` receives exactly what the first `rank + size - 1`
      ranks receive beyond what the first `rank - 1` do. So the windows of
      distinct groups do not overlap. */
  lemma GroupPercentageTelescopes(rank: int, size: nat)
    requires rank >= 1 && size >= 1
    ensures GroupPercentage(rank, size) == Cumulative(rank + size - 1) - Cumulative(rank - 1)
  {
    if rank > LastPaidRank {
      CumulativeBounds(rank - 1);
      CumulativeBounds(rank + size - 1);
    } else {
      WindowSumSplit(1, rank - 1, Min(rank + size - 1, LastPaidRank));
    }
  }

  /** A two-way tie at rank 1 takes ranks 1 and 2, 90 percent, 45 each. */
  lemma TwoWayTieAtFirst(a: RefundResult, b: RefundResult, pool: int)
    requires a.rank == Some(1) && b.rank == Some(1)
    ensures Distribute([a, b], pool)[0].refundPercentage == 45.0
    ensures Distribute([a, b], pool)[1].refundPercentage == 45.0
    ensures Distribute([a, b], pool)[0].refundAmount == (pool * 90) / 200
  {
    var s := [a, b];
    assert Filter(HasRank(1), s) == s by {
      assert s == [a] + [b];
      FilterAppend(HasRank(1), [a], [b]);
      FilterSingleton(HasRank(1), a);
      FilterSingleton(HasRank(1), b);
    }
    DistributeAt(s, pool, 0);
    DistributeAt(s, pool, 1);
    assert GroupPercentage(1, 2) == 90 by {
      assert WindowSum(3, 2) == 0;
      assert WindowSum(2, 2) == 20;
    }
  }

  /** The position where the run of equal missed counts starting at `i`
      ends. */
  function RunEnd(s: seq<RefundResult>, i: nat): (e: nat)
    requires i < |s|
    ensures i < e <= |s|
    ensures forall j :: i <= j < e ==> s[j].missedCount == s[i].missedCount
    ensures e < |s| ==> s[e].missedCount != s[e - 1].missedCount
    decreases |s| - i
  {
    if i + 1 < |s| && s[i + 1].missedCount == s[i].missedCount then RunEnd(s, i + 1) else i + 1
  }

  /** In a competition-ranked sequence the run starting at `i` is exactly
      the group of rank `i + 1`. */
  lemma RunIsGroup(s: seq<RefundResult>, i: nat)
    requires CompetitionRanked(s)
    requires i < |s|
    requires i == 0 || s[i - 1].missedCount < s[i].missedCount
    ensures forall j :: i <= j < RunEnd(s, i) ==> s[j].rank == Some(i + 1)
    ensures GroupSize(s, i + 1) == RunEnd(s, i) - i
  {
    var e := RunEnd(s, i);
    forall j | 0 <= j < |s|
      ensures HasRank(i + 1)(s[j]) <==> i <= j < e
    {
      RunMember(s, i, j);
    }
    FilterRange(HasRank(i + 1), s, i, e);
  }

  /** One position's side of `RunIsGroup`. */
  lemma RunMember(s: seq<RefundResult>, i: nat, j: nat)
    requires CompetitionRanked(s)
    requires i < |s| && j < |s|
    requires i == 0 || s[i - 1].missedCount < s[i].missedCount
    ensures s[j].rank == Some(i + 1) <==> i <= j < RunEnd(s, i)
  {
    var e := RunEnd(s, i);
    RankAtRunStart(s, i);
    RankOrder(s, i, j);
    if j < i {
      assert s[j].missedCount <= s[i - 1].missedCount;
    } else if j >= e {
      assert s[e - 1].missedCount <= s[e].missedCount <= s[j].missedCount;
    }
  }

  /** `r` is `s` with every ranked result given its group's share of
      `pool`, position by position. */
  ghost predicate IsDistribution(s: seq<RefundResult>, r: seq<RefundResult>, pool: int) {
    |r| == |s| && forall j :: 0 <= j < |s| ==> r[j] == PayoutAt(s, j, pool)
  }

  lemma DistributeIsDistribution(s: seq<RefundResult>, pool: int)
    ensures IsDistribution(s, Distribute(s, pool), pool)
  {
    forall j | 0 <= j < |s| ensures Distribute(s, pool)[j] == PayoutAt(s, j, pool) {
      DistributeAt(s, pool, j);
    }
  }

  /** A run of one rank gets that rank's share, every member alike. */
  lemma RunPayout(s: seq<RefundResult>, r: seq<RefundResult>, pool: int, i: nat, e: nat)
    requires IsDistribution(s, r, pool)
    requires i < e <= |s|
    requires forall j :: i <= j < e ==> s[j].rank == Some(i + 1)
    ensures forall j :: i <= j < e ==>
      r[j].refundPercentage == RankPercentage(s, i + 1) && r[j].refundAmount == RankAmount(s, i + 1, pool)
  {
  }

  /** The share of a rank whose group has `size` members. */
  lemma RankShare(s: seq<RefundResult>, pool: int, rank: nat, size: nat)
    requires GroupSize(s, rank) == size
    ensures RankPercentage(s, rank) == MemberPercentage(GroupPercentage(rank, size), size)
    ensures RankAmount(s, rank, pool) == MemberAmount(pool, GroupPercentage(rank, size), size)
  {
  }

  lemma RealShare(g: nat, k: nat)
    requires k > 0
    ensures k as real * MemberPercentage(g, k) == g as real
  {
  }

  /** `k` members with the same floored bonus `a` together get the floor
      bound times `k`. */
  lemma ScaledFloor(pool: int, g: nat, k: nat, a: int)
    requires 100 * k * a <= pool * g < 100 * k * (a + 1)
    ensures 100 * (k * a) <= pool * g <= 100 * (k * a) + 100 * k
  {
    assert 100 * k * a == 100 * (k * a);
    assert 100 * k * (a + 1) == 100 * (k * a + k);
  }

  /** Results `i` to `e` that each carry the percentage of a member of an
      `(e - i)`-member group with `g` percent together carry `g` percent. */
  lemma PercentageRun(r: seq<RefundResult>, i: nat, e: nat, g: nat, v: real)
    requires i < e <= |r|
    requires v == MemberPercentage(g, e - i)
    requires forall j :: i <= j < e ==> r[j].refundPercentage == v
    ensures SumPercentage(r[i..e]) == g as real
  {
    forall j | 0 <= j < e - i ensures r[i..e][j].refundPercentage == v {
      assert r[i..e][j] == r[i + j];
    }
    SumPercentageConstant(r[i..e], v);
    RealShare(g, e - i);
  }

  /** Results `i` to `e` that each carry the floored bonus of a member of
      an `(e - i)`-member group with `g` percent of `pool` together stay
      within the group's share. */
  lemma AmountRun(r: seq<RefundResult>, i: nat, e: nat, pool: int, g: nat, v: int)
    requires i < e <= |r|
    requires v == MemberAmount(pool, g, e - i)
    requires forall j :: i <= j < e ==> r[j].refundAmount == v
    ensures WithinShare(SumAmount(r[i..e]), pool, g, e - i)
  {
    forall j | 0 <= j < e - i ensures r[i..e][j].refundAmount == v {
      assert r[i..e][j] == r[i + j];
    }
    SumAmountConstant(r[i..e], v);
    MemberAmountIsFloor(pool, g, e - i);
    ScaledFloor(pool, g, e - i, v);
  }

  /** A whole run of rank `i + 1` together receives its group's percentage
      and, times 100, the group's share of the pool less under 100 per
      member. */
  lemma RunSums(s: seq<RefundResult>, r: seq<RefundResult>, pool: int, i: nat, e: nat)
    requires IsDistribution(s, r, pool)
    requires i < e <= |s|
    requires forall j :: i <= j < e ==> s[j].rank == Some(i + 1)
    requires GroupSize(s, i + 1) == e - i
    ensures var g := GroupPercentage(i + 1, e - i);
      && SumPercentage(r[i..e]) == g as real
      && WithinShare(SumAmount(r[i..e]), pool, g, e - i)
  {
    RunPayout(s, r, pool, i, e);
    RankShare(s, pool, i + 1, e - i);
    PercentageRun(r, i, e, GroupPercentage(i + 1, e - i), RankPercentage(s, i + 1));
    AmountRun(r, i, e, pool, GroupPercentage(i + 1, e - i), RankAmount(s, i + 1, pool));
  }

  lemma SliceSplit<T>(r: seq<T>, i: nat, e: nat)
    requires i <= e <= |r|
    ensures r[i..] == r[i..e] + r[e..]
  {
  }

  /** `amount` won is the share `g` percent of `pool` for `k` results,
      floored per result: 100 times it is at most `pool * g` and falls
      short by at most 100 per result. */
  predicate WithinShare(amount: int, pool: int, g: int, k: int) {
    100 * amount <= pool * g <= 100 * amount + 100 * k
  }

  /** Adding the bounds of two consecutive stretches of results. */
  lemma AmountStep(pool: int, g: int, rest: int, a: int, b: int, k: int, n: int)
    requires WithinShare(a, pool, g, k) && WithinShare(b, pool, rest, n)
    ensures WithinShare(a + b, pool, g + rest, k + n)
  {
    assert pool * (g + rest) == pool * g + pool * rest;
  }

  lemma ZeroShare(pool: int, x: int)
    requires x == 0
    ensures WithinShare(0, pool, x, 0)
  {
  }

  /** Position `i` starts a run of equal missed counts. */
  predicate IsRunStart(s: seq<RefundResult>, i: nat) {
    i < |s| && (i == 0 || s[i - 1].missedCount < s[i].missedCount)
  }

  /** In a sorted sequence a run ends where the next one starts. */
  lemma NextRunStart(s: seq<RefundResult>, i: nat)
    requires SortedByMissed(s) && IsRunStart(s, i)
    requires RunEnd(s, i) < |s|
    ensures IsRunStart(s, RunEnd(s, i))
  {
  }

  /** What the run starting at `i` of `s` carries in `r`: its group's
      percentage, and its group's share of `pool`, floored per member. */
  ghost predicate RunBound(s: seq<RefundResult>, r: seq<RefundResult>, pool: int, i: nat)
    requires IsRunStart(s, i) && |r| == |s|
  {
    var e := RunEnd(s, i);
    var g := GroupPercentage(i + 1, e - i);
    && SumPercentage(r[i..e]) == g as real
    && WithinShare(SumAmount(r[i..e]), pool, g, e - i)
  }

  ghost predicate RunsBounded(s: seq<RefundResult>, r: seq<RefundResult>, pool: int) {
    && SortedByMissed(s)
    && |r| == |s|
    && forall i: nat {:trigger RunBound(s, r, pool, i)} :: IsRunStart(s, i) ==> RunBound(s, r, pool, i)
  }

  /** On competition-ranked results every run is a whole tie group, so the
      split pays each run its group's share. */
  lemma DistributeRunsBounded(s: seq<RefundResult>, pool: int)
    requires CompetitionRanked(s)
    ensures RunsBounded(s, Distribute(s, pool), pool)
  {
    DistributeIsDistribution(s, pool);
    DistributionRunsBounded(s, Distribute(s, pool), pool);
  }

  lemma DistributionRunsBounded(s: seq<RefundResult>, r: seq<RefundResult>, pool: int)
    requires CompetitionRanked(s) && IsDistribution(s, r, pool)
    ensures RunsBounded(s, r, pool)
  {
    forall i: nat | IsRunStart(s, i)
      ensures RunBound(s, r, pool, i)
    {
      RunIsGroup(s, i);
      RunSums(s, r, pool, i, RunEnd(s, i));
    }
  }

  /** From a run start on, the percentages add up to what the remaining
      ranks' windows hold. */
  lemma {:induction false} PercentageSumFrom(s: seq<RefundResult>, r: seq<RefundResult>, pool: int, i: nat)
    requires RunsBounded(s, r, pool)
    requires i == |s| || IsRunStart(s, i)
    ensures SumPercentage(r[i..]) == (Cumulative(|s|) - Cumulative(i)) as real
    decreases |s| - i
  {
    if i < |s| {
      var e := RunEnd(s, i);
      assert RunBound(s, r, pool, i);
      GroupPercentageTelescopes(i + 1, e - i);
      SliceSplit(r, i, e);
      SumPercentageAppend(r[i..e], r[e..]);
      if e < |s| {
        NextRunStart(s, i);
      }
      PercentageSumFrom(s, r, pool, e);
    }
  }

  /** From a run start on, 100 times the bonuses add up to at most the
      remaining windows' share of the pool, and fall short of it by at most
      100 per result (under one won each). */
  lemma {:induction false} AmountSumFrom(s: seq<RefundResult>, r: seq<RefundResult>, pool: int, i: nat)
    requires RunsBounded(s, r, pool)
    requires i == |s| || IsRunStart(s, i)
    ensures WithinShare(SumAmount(r[i..]), pool, Cumulative(|s|) - Cumulative(i), |s| - i)
    decreases |s| - i
  {
    if i < |s| {
      var e := RunEnd(s, i);
      RunStartFacts(s, r, pool, i);
      AmountSumFrom(s, r, pool, e);
      RunThenRest(r, pool, i, e, Cumulative(e) - Cumulative(i), Cumulative(|s|) - Cumulative(e));
    } else {
      assert r[i..] == [];
      ZeroShare(pool, Cumulative(|s|) - Cumulative(i));
    }
  }

  /** What a run start contributes: the next run start, and the run's
      bound with its group percentage written as a difference of
      cumulative shares. */
  lemma RunStartFacts(s: seq<RefundResult>, r: seq<RefundResult>, pool: int, i: nat)
    requires RunsBounded(s, r, pool) && IsRunStart(s, i)
    ensures var e := RunEnd(s, i);
      && (e == |s| || IsRunStart(s, e))
      && WithinShare(SumAmount(r[i..e]), pool, Cumulative(e) - Cumulative(i), e - i)
  {
    var e := RunEnd(s, i);
    if e < |s| {
      NextRunStart(s, i);
    }
    assert RunBound(s, r, pool, i);
    GroupPercentageTelescopes(i + 1, e - i);
  }

  /** The bound for the results from `i` on follows from the bound for
      `i` up to `e` and the bound for the results after `e`. */
  lemma RunThenRest(r: seq<RefundResult>, pool: int, i: nat, e: nat, g: int, rest: int)
    requires i <= e <= |r|
    requires WithinShare(SumAmount(r[i..e]), pool, g, e - i)
    requires WithinShare(SumAmount(r[e..]), pool, rest, |r| - e)
    ensures WithinShare(SumAmount(r[i..]), pool, g + rest, |r| - i)
  {
    AmountStep(pool, g, rest, SumAmount(r[i..e]), SumAmount(r[e..]), e - i, |r| - e);
    SliceSplit(r, i, e);
    SumAmountAppend(r[i..e], r[e..]);
  }

  /** The whole split, in percent: the percentages add up to the share of
      the first `|s|` ranks — 70 for one active participant, 90 for two,
      100 for three or more — so never to more than 100. */
  lemma DistributePercentageTotal(s: seq<RefundResult>, pool: int)
    requires CompetitionRanked(s)
    ensures SumPercentage(Distribute(s, pool)) == Cumulative(|s|) as real
    ensures SumPercentage(Distribute(s, pool)) <= 100.0
    ensures |s| >= LastPaidRank ==> SumPercentage(Distribute(s, pool)) == 100.0
  {
    var r := Distribute(s, pool);
    assert r[0..] == r;
    CumulativeBounds(0);
    CumulativeBounds(|s|);
    DistributeRunsBounded(s, pool);
    PercentageSumFrom(s, r, pool, 0);
  }

  /** The whole split, in won: with a non-negative pool the bonuses add up
      to at most the pool, and to no less than the tabled share of it minus
      one won per result. */
  lemma DistributeAmountTotal(s: seq<RefundResult>, pool: int)
    requires CompetitionRanked(s)
    requires pool >= 0
    ensures 0 <= SumAmount(Distribute(s, pool)) <= pool
    ensures pool * Cumulative(|s|) <= 100 * SumAmount(Distribute(s, pool)) + 100 * |s|
  {
    var r := Distribute(s, pool);
    assert SumAmount(r) >= 0 by {
      DistributeShares(s, pool);
      SumAmountNonNegative(r);
    }
    DistributeRunsBounded(s, pool);
    AmountTotal(s, r, pool);
  }

  /** The total of any split whose runs keep their bounds. */
  lemma AmountTotal(s: seq<RefundResult>, r: seq<RefundResult>, pool: int)
    requires RunsBounded(s, r, pool) && pool >= 0
    ensures SumAmount(r) <= pool
    ensures pool * Cumulative(|s|) <= 100 * SumAmount(r) + 100 * |s|
  {
    AmountSumFrom(s, r, pool, 0);
    WholeShare(r, |s|, pool);
  }

  /** The bound of the whole split, from the bound of its stretch from
      position 0 on. */
  lemma WholeShare(r: seq<RefundResult>, n: nat, pool: int)
    requires pool >= 0 && |r| == n
    requires WithinShare(SumAmount(r[0..]), pool, Cumulative(n) - Cumulative(0), n - 0)
    ensures SumAmount(r) <= pool
    ensures pool * Cumulative(n) <= 100 * SumAmount(r) + 100 * n
  {
    assert r[0..] == r;
    CumulativeBounds(0);
    CumulativeBounds(n);
    ShareAtMostPool(SumAmount(r), pool, Cumulative(n));
  }

  lemma ShareAtMostPool(x: int, pool: int, c: int)
    requires pool >= 0 && c <= 100 && 100 * x <= pool * c
    ensures x <= pool
  {
    assert pool * c <= pool * 100;
  }

  lemma {:induction false} SumAmountNonNegative(rs: seq<RefundResult>)
    requires forall i :: 0 <= i < |rs| ==> rs[i].refundAmount >= 0
    ensures SumAmount(rs) >= 0
    decreases |rs|
  {
    if |rs| > 0 {
      SumAmountNonNegative(rs[1..]);
    }
  }

  /** A ranked result is a member of its own rank's group. */
  lemma GroupSizePositive(s: seq<RefundResult>, i: nat)
    requires i < |s| && s[i].rank.Some?
    ensures GroupSize(s, s[i].rank.value) >= 1
  {
    var f := Filter(HasRank(s[i].rank.value), s);
    assert HasRank(s[i].rank.value)(s[i]);
    assert s[i] in f;
  }

  /** Real-number form of the floor: `a` is the whole part of `pool` times
      `g / k` percent. */
  lemma RealFloor(pool: int, g: nat, k: nat, a: int)
    requires k > 0
    requires 100 * k * a <= pool * g < 100 * k * (a + 1)
    ensures a as real <= pool as real * MemberPercentage(g, k) / 100.0 < a as real + 1.0
  {
    var d := (100 * k) as real;
    var x := (pool * g) as real;
    assert pool as real * MemberPercentage(g, k) / 100.0 == x / d by {
      RealScale(pool as real, g as real, k as real);
    }
    CastProduct(100 * k, a);
    CastProduct(100 * k, a + 1);
    RealDivBounds(x, d, a as real);
  }

  /** Converting a product to a real multiplies the converted factors. */
  lemma CastProduct(m: int, n: int)
    ensures (m * n) as real == m as real * n as real
  {
  }

  lemma RealScale(p: real, g: real, k: real)
    requires k > 0.0
    ensures p * (g / k) / 100.0 == (p * g) / (100.0 * k)
  {
  }

  lemma RealDivBounds(x: real, d: real, a: real)
    requires d > 0.0 && d * a <= x < d * (a + 1.0)
    ensures a <= x / d < a + 1.0
  {
    var b := a + 1.0;
    DivDifference(x, d, a);
    DivDifference(x, d, b);
    Quotient(x - d * a, d);
    Quotient(d * b - x, d);
  }

  lemma DivDifference(x: real, d: real, a: real)
    requires d > 0.0
    ensures x / d - a == (x - d * a) / d
    ensures a - x / d == (d * a - x) / d
  {
  }

  lemma Quotient(y: real, d: real)
    requires d > 0.0 && y >= 0.0
    ensures y / d >= 0.0
    ensures y > 0.0 ==> y / d > 0.0
  {
  }

  /** `amount` is `pool * percentage / 100` rounded down to whole won. */
  predicate IsFloorShare(amount: int, pool: int, percentage: real) {
    amount as real <= pool as real * percentage / 100.0 < amount as real + 1.0
  }

  /** Each ranked result of the split carries its group's exact percentage
      and, as amount, the floor of `pool` times that percentage over 100. */
  lemma RankedShareIsFloor(s: seq<RefundResult>, pool: int, i: nat)
    requires i < |s| && s[i].rank.Some?
    ensures var r := Distribute(s, pool)[i];
      IsFloorShare(r.refundAmount, pool, r.refundPercentage)
  {
    var rank := s[i].rank.value;
    var k := GroupSize(s, rank);
    var g := GroupPercentage(rank, k);
    DistributeAt(s, pool, i);
    GroupSizePositive(s, i);
    MemberAmountIsFloor(pool, g, k);
    RealFloor(pool, g, k, MemberAmount(pool, g, k));
  }
}

=== FILE: refund_properties.dfy ===
/** What the refund table promises (src/lib/utils/refund.ts:20-145): who
    appears in it, in what order, with what rank, and how the pools and
    the percentages add up. */
module RefundProperties {
  import opened Wrappers
  import opened Seqs
  import opened Strings
  import opened Domain
  import opened RefundTypes
  import opened RefundEligibility
  import opened RefundRanking
  import opened RefundPool
  import opened Refund

  /** The number of active results: the table's first `ActiveCount` lines
      are theirs. */
  function ActiveCount(participants: seq<ParticipantInput>, problems: seq<DueProblem>, today: Day): nat {
    |ActiveResults(Evaluated(participants, problems, today))|
  }

  /** One payout line: the sorted active result at that position with its
      rank, its share and the fee added back. */
  lemma PayoutEntry(evaluated: seq<RefundResult>, pool: int, fee: int, i: nat)
    requires forall j :: 0 <= j < |evaluated| ==> Unpaid(evaluated[j])
    requires i < |ActiveResults(evaluated)|
    ensures var s := SortByMissed(ActiveResults(evaluated));
      var r := Ranked(evaluated);
      var d := Distribute(r, pool);
      var a := Payouts(evaluated, pool, fee);
      && |a| == |s| == |d| == |r|
      && !s[i].isDropped && Unpaid(s[i]) && r[i].rank.Some?
      && a[i] == s[i].(rank := r[i].rank, refundPercentage := d[i].refundPercentage,
                       refundAmount := d[i].refundAmount + fee)
  {
    var act := ActiveResults(evaluated);
    var s := SortByMissed(act);
    assert s[i] in multiset(act);
    assert s[i] in act;
    DistributeAt(Ranked(evaluated), pool, i);
  }

  /** Every payout line, position by position. */
  lemma PayoutEntries(evaluated: seq<RefundResult>, pool: int, fee: int)
    requires forall i :: 0 <= i < |evaluated| ==> Unpaid(evaluated[i])
    ensures var s := SortByMissed(ActiveResults(evaluated));
      var r := Ranked(evaluated);
      var d := Distribute(r, pool);
      var a := Payouts(evaluated, pool, fee);
      && |a| == |s| == |d| == |r|
      && forall i :: 0 <= i < |a| ==>
           && !s[i].isDropped && Unpaid(s[i]) && r[i].rank.Some?
           && a[i] == s[i].(rank := r[i].rank, refundPercentage := d[i].refundPercentage,
                            refundAmount := d[i].refundAmount + fee)
  {
    forall i | 0 <= i < |ActiveResults(evaluated)| {
      PayoutEntry(evaluated, pool, fee, i);
    }
  }

  /** The table splits into the payout lines and the dropped lines, and the
      dropped pool is one fee per dropped line. */
  lemma TableShape(participants: seq<ParticipantInput>, problems: seq<DueProblem>, fee: int, today: Day)
    ensures var c := CalculateRefund(participants, problems, fee, today);
      var ev := Evaluated(participants, problems, today);
      var n := ActiveCount(participants, problems, today);
      && n <= |c.results|
      && c.droppedPool == |DroppedResults(ev)| * fee
      && c.results[..n] == Payouts(ev, c.droppedPool, fee)
      && c.results[n..] == DroppedResults(ev)
  {
  }

  /** The payout lines are competition-ranked: sorted by misses, each
      ranked one more than the number of lines with fewer misses. */
  lemma PayoutsRanked(evaluated: seq<RefundResult>, pool: int, fee: int)
    requires forall i :: 0 <= i < |evaluated| ==> Unpaid(evaluated[i])
    ensures CompetitionRanked(Payouts(evaluated, pool, fee))
  {
    var s := SortByMissed(ActiveResults(evaluated));
    var r := Ranked(evaluated);
    AssignRanksCorrect(s);
    PayoutEntries(evaluated, pool, fee);
    CompetitionRankedTransfer(r, Payouts(evaluated, pool, fee));
  }

  /** Two payout lines with the same rank carry the same percentage and the
      same amount. */
  lemma PayoutTies(evaluated: seq<RefundResult>, pool: int, fee: int, i: nat, j: nat)
    requires forall k :: 0 <= k < |evaluated| ==> Unpaid(evaluated[k])
    requires i < |ActiveResults(evaluated)| && j < |ActiveResults(evaluated)|
    requires Payouts(evaluated, pool, fee)[i].rank == Payouts(evaluated, pool, fee)[j].rank
    ensures var a := Payouts(evaluated, pool, fee);
      a[i].refundPercentage == a[j].refundPercentage && a[i].refundAmount == a[j].refundAmount
  {
    var r := Ranked(evaluated);
    var d := Distribute(r, pool);
    PayoutEntry(evaluated, pool, fee, i);
    PayoutEntry(evaluated, pool, fee, j);
    assert d[i].refundPercentage == d[j].refundPercentage && d[i].refundAmount == d[j].refundAmount by {
      assert r[i].rank == r[j].rank;
      DistributeAt(r, pool, i);
      DistributeAt(r, pool, j);
    }
  }

  /** A payout line's amount is the entry fee plus the floor of its share
      of the pool; past rank 3 it is the fee alone. */
  lemma PayoutAmount(evaluated: seq<RefundResult>, pool: int, fee: int, i: nat)
    requires forall k :: 0 <= k < |evaluated| ==> Unpaid(evaluated[k])
    requires i < |ActiveResults(evaluated)|
    ensures var a := Payouts(evaluated, pool, fee)[i];
      && a.rank.Some?
      && IsFloorShare(a.refundAmount - fee, pool, a.refundPercentage)
      && (pool >= 0 ==> a.refundPercentage >= 0.0 && a.refundAmount >= fee)
      && (a.rank.Some? && a.rank.value > LastPaidRank ==> a.refundPercentage == 0.0 && a.refundAmount == fee)
  {
    var r := Ranked(evaluated);
    var d := Distribute(r, pool)[i];
    var a := Payouts(evaluated, pool, fee)[i];
    PayoutEntry(evaluated, pool, fee, i);
    assert a.rank == r[i].rank && a.refundPercentage == d.refundPercentage && a.refundAmount - fee == d.refundAmount;
    assert IsFloorShare(d.refundAmount, pool, d.refundPercentage) by {
      RankedShareIsFloor(r, pool, i);
    }
    assert d == PayoutAt(r, i, pool) by {
      DistributeAt(r, pool, i);
    }
  }

  /** The payout lines' percentages add up to the table entries of as many
      ranks as there are lines (100 from three lines on); their bonuses
      add up to at most the pool, and lose less than one won per line to
      rounding. */
  lemma PayoutTotals(evaluated: seq<RefundResult>, pool: int, fee: int)
    requires forall i :: 0 <= i < |evaluated| ==> Unpaid(evaluated[i])
    ensures var a := Payouts(evaluated, pool, fee);
      && SumPercentage(a) == Cumulative(|a|) as real
      && (pool >= 0 ==> |a| * fee <= SumAmount(a) <= pool + |a| * fee)
      && (pool >= 0 ==> pool * Cumulative(|a|) <= 100 * (SumAmount(a) - |a| * fee) + 100 * |a|)
  {
    var s := SortByMissed(ActiveResults(evaluated));
    var r := Ranked(evaluated);
    AssignRanksCorrect(s);
    AddEntryFeeSum(Distribute(r, pool), fee);
    DistributePercentageTotal(r, pool);
    if pool >= 0 {
      DistributeAmountTotal(r, pool);
    }
  }

  /** The table holds exactly the paid participants' results: with the
      ranking and payout fields reset, its lines are a permutation of the
      evaluated paid participants, and every line counts all problems. */
  lemma ResultsArePaidParticipants(participants: seq<ParticipantInput>, problems: seq<DueProblem>, fee: int, today: Day)
    ensures var c := CalculateRefund(participants, problems, fee, today);
      && multiset(Map(Strip, c.results)) == multiset(Evaluated(participants, problems, today))
      && forall i :: 0 <= i < |c.results| ==> c.results[i].totalProblems == |problems|
  {
    var c := CalculateRefund(participants, problems, fee, today);
    var ev := Evaluated(participants, problems, today);
    var n := ActiveCount(participants, problems, today);
    var s := SortByMissed(ActiveResults(ev));
    var dropped := DroppedResults(ev);
    TableShape(participants, problems, fee, today);
    assert Map(Strip, c.results[..n]) == s by {
      PayoutEntries(ev, c.droppedPool, fee);
    }
    assert multiset(s) + multiset(dropped) == multiset(ev) by {
      FilterPartition(IsActiveResult, IsDroppedResult, ev);
    }
    StripPermutation(c.results, n, s, dropped, ev);
    PermutationKeepsTotals(c.results, ev, |problems|);
  }

  /** Results whose first `n` lines strip to `s` and whose other lines strip
      to `dropped` strip to a permutation of `ev` when `s` and `dropped`
      together are one. */
  lemma StripPermutation(rs: seq<RefundResult>, n: nat, s: seq<RefundResult>, dropped: seq<RefundResult>, ev: seq<RefundResult>)
    requires n <= |rs|
    requires Map(Strip, rs[..n]) == s && Map(Strip, rs[n..]) == dropped
    requires multiset(s) + multiset(dropped) == multiset(ev)
    ensures multiset(Map(Strip, rs)) == multiset(ev)
  {
    assert rs == rs[..n] + rs[n..];
    MapAppend(Strip, rs[..n], rs[n..]);
  }

  /** Stripping keeps the problem count, so lines that strip to a
      permutation of `ev` all carry the count `ev` carries. */
  lemma PermutationKeepsTotals(rs: seq<RefundResult>, ev: seq<RefundResult>, t: nat)
    requires multiset(Map(Strip, rs)) == multiset(ev)
    requires forall i :: 0 <= i < |ev| ==> ev[i].totalProblems == t
    ensures forall i :: 0 <= i < |rs| ==> rs[i].totalProblems == t
  {
    forall i | 0 <= i < |rs| ensures rs[i].totalProblems == t {
      assert Map(Strip, rs)[i] in multiset(ev);
    }
  }

  /** The active participants come first, each ranked; the dropped ones
      follow, unranked with nothing refunded. */
  lemma ActiveBeforeDropped(participants: seq<ParticipantInput>, problems: seq<DueProblem>, fee: int, today: Day)
    ensures var c := CalculateRefund(participants, problems, fee, today);
      var n := ActiveCount(participants, problems, today);
      && n <= |c.results|
      && (forall i :: 0 <= i < n ==> !c.results[i].isDropped && c.results[i].rank.Some?)
      && (forall i :: n <= i < |c.results| ==> c.results[i].isDropped && Unpaid(c.results[i]))
  {
    var c := CalculateRefund(participants, problems, fee, today);
    var ev := Evaluated(participants, problems, today);
    TableShape(participants, problems, fee, today);
    PayoutLinesActive(ev, c.droppedPool, fee);
    DroppedLinesUnpaid(ev);
    SplitLines(c.results, ActiveCount(participants, problems, today));
  }

  /** Every payout line is active and ranked. */
  lemma PayoutLinesActive(evaluated: seq<RefundResult>, pool: int, fee: int)
    requires forall i :: 0 <= i < |evaluated| ==> Unpaid(evaluated[i])
    ensures var a := Payouts(evaluated, pool, fee);
      forall i :: 0 <= i < |a| ==> !a[i].isDropped && a[i].rank.Some?
  {
    PayoutEntries(evaluated, pool, fee);
  }

  /** Every dropped line is dropped and unpaid. */
  lemma DroppedLinesUnpaid(evaluated: seq<RefundResult>)
    requires forall i :: 0 <= i < |evaluated| ==> Unpaid(evaluated[i])
    ensures var d := DroppedResults(evaluated);
      forall i :: 0 <= i < |d| ==> d[i].isDropped && Unpaid(d[i])
  {
  }

  /** A table whose first `n` lines are active and ranked and whose other
      lines are dropped and unpaid, position by position. */
  lemma SplitLines(rs: seq<RefundResult>, n: nat)
    requires n <= |rs|
    requires forall i :: 0 <= i < |rs[..n]| ==> !rs[..n][i].isDropped && rs[..n][i].rank.Some?
    requires forall i :: 0 <= i < |rs[n..]| ==> rs[n..][i].isDropped && Unpaid(rs[n..][i])
    ensures forall i :: 0 <= i < n ==> !rs[i].isDropped && rs[i].rank.Some?
    ensures forall i :: n <= i < |rs| ==> rs[i].isDropped && Unpaid(rs[i])
  {
    forall i | 0 <= i < n ensures !rs[i].isDropped && rs[i].rank.Some? {
      assert rs[i] == rs[..n][i];
    }
    forall i | n <= i < |rs| ensures rs[i].isDropped && Unpaid(rs[i]) {
      assert rs[i] == rs[n..][i - n];
    }
  }

  /** A line is dropped exactly when it has no rank. */
  lemma DroppedIffUnranked(participants: seq<ParticipantInput>, problems: seq<DueProblem>, fee: int, today: Day)
    ensures var c := CalculateRefund(participants, problems, fee, today);
      forall i :: 0 <= i < |c.results| ==> (c.results[i].isDropped <==> c.results[i].rank.None?)
  {
    ActiveBeforeDropped(participants, problems, fee, today);
  }

  /** The active lines are competition-ranked: in ascending order of
      misses, each ranked one more than the number of lines with fewer
      misses (so the first is rank 1, ties share a rank, and the rank
      after a tie skips the tie's size). */
  lemma ActiveLinesRanked(participants: seq<ParticipantInput>, problems: seq<DueProblem>, fee: int, today: Day)
    ensures var c := CalculateRefund(participants, problems, fee, today);
      CompetitionRanked(c.results[..ActiveCount(participants, problems, today)])
  {
    var c := CalculateRefund(participants, problems, fee, today);
    TableShape(participants, problems, fee, today);
    PayoutsRanked(Evaluated(participants, problems, today), c.droppedPool, fee);
  }

  /** Among the active lines, equal misses mean equal rank and equal rank
      means equal misses, percentage and amount; earlier lines never have
      more misses or a larger rank. */
  lemma TiedLinesShareRefund(participants: seq<ParticipantInput>, problems: seq<DueProblem>, fee: int, today: Day, i: nat, j: nat)
    requires i < ActiveCount(participants, problems, today) && j < ActiveCount(participants, problems, today)
    ensures var c := CalculateRefund(participants, problems, fee, today);
      var x := c.results[i];
      var y := c.results[j];
      && (x.missedCount == y.missedCount <==> x.rank == y.rank)
      && (x.rank == y.rank ==> x.refundPercentage == y.refundPercentage && x.refundAmount == y.refundAmount)
      && (i <= j ==> x.missedCount <= y.missedCount && x.rank.Some? && y.rank.Some? && x.rank.value <= y.rank.value)
  {
    var c := CalculateRefund(participants, problems, fee, today);
    var ev := Evaluated(participants, problems, today);
    var n := ActiveCount(participants, problems, today);
    var a := c.results[..n];
    TableShape(participants, problems, fee, today);
    assert c.results[i] == a[i] && c.results[j] == a[j];
    ActiveLinesRanked(participants, problems, fee, today);
    RankOrder(a, i, j);
    if a[i].rank == a[j].rank {
      PayoutTies(ev, c.droppedPool, fee, i, j);
    }
  }

  /** An active line gets the entry fee back plus the floor of its share of
      the dropped pool; from rank 4 on it gets the fee alone. */
  lemma ActiveLineRefund(participants: seq<ParticipantInput>, problems: seq<DueProblem>, fee: int, today: Day, i: nat)
    requires i < ActiveCount(participants, problems, today)
    ensures var c := CalculateRefund(participants, problems, fee, today);
      var x := c.results[i];
      && x.rank.Some?
      && IsFloorShare(x.refundAmount - fee, c.droppedPool, x.refundPercentage)
      && (fee >= 0 ==> x.refundPercentage >= 0.0 && x.refundAmount >= fee)
      && (x.rank.Some? && x.rank.value > LastPaidRank ==> x.refundPercentage == 0.0 && x.refundAmount == fee)
  {
    var c := CalculateRefund(participants, problems, fee, today);
    var ev := Evaluated(participants, problems, today);
    var n := ActiveCount(participants, problems, today);
    TableShape(participants, problems, fee, today);
    assert c.results[i] == c.results[..n][i];
    FeeProducts(|c.results| - n, n, fee);
    PayoutAmount(ev, c.droppedPool, fee, i);
  }

  /** The pools: every paid participant paid one fee into the total pool,
      every dropped one into the dropped pool, so with a non-negative fee
      the dropped pool is part of the total. */
  lemma PoolBounds(participants: seq<ParticipantInput>, problems: seq<DueProblem>, fee: int, today: Day)
    ensures var c := CalculateRefund(participants, problems, fee, today);
      var n := ActiveCount(participants, problems, today);
      && c.totalPool == c.droppedPool + n * fee
      && c.droppedPool == (|c.results| - n) * fee
      && (fee >= 0 ==> 0 <= c.droppedPool <= c.totalPool)
  {
    var c := CalculateRefund(participants, problems, fee, today);
    var ev := Evaluated(participants, problems, today);
    var n := ActiveCount(participants, problems, today);
    TableShape(participants, problems, fee, today);
    FilterPartition(IsActiveResult, IsDroppedResult, ev);
    FeeProducts(|c.results| - n, n, fee);
  }

  /** `d + n` fees split into `d` fees and `n` fees. */
  lemma FeeProducts(d: nat, n: nat, fee: int)
    ensures (d + n) * fee == d * fee + n * fee
    ensures fee >= 0 ==> 0 <= d * fee <= (d + n) * fee
  {
  }

  /** The percentages of the table add up to the table entries of as many
      ranks as there are active lines: 100 from three active lines on,
      never more. With a non-negative fee the refunds never exceed the
      total pool, every active line gets at least its fee, and rounding
      loses less than one won per active line. */
  lemma RefundTotals(participants: seq<ParticipantInput>, problems: seq<DueProblem>, fee: int, today: Day)
    ensures var c := CalculateRefund(participants, problems, fee, today);
      var n := ActiveCount(participants, problems, today);
      && SumPercentage(c.results) == Cumulative(n) as real
      && SumPercentage(c.results) <= 100.0
      && (n >= LastPaidRank ==> SumPercentage(c.results) == 100.0)
      && (fee >= 0 ==> n * fee <= SumAmount(c.results) <= c.totalPool)
      && (fee >= 0 ==> c.droppedPool * Cumulative(n) <= 100 * (SumAmount(c.results) - n * fee) + 100 * n)
  {
    var c := CalculateRefund(participants, problems, fee, today);
    var ev := Evaluated(participants, problems, today);
    var n := ActiveCount(participants, problems, today);
    var dropped := DroppedResults(ev);
    TableShape(participants, problems, fee, today);
    PoolBounds(participants, problems, fee, today);
    assert c.results == c.results[..n] + dropped;
    SumPercentageAppend(c.results[..n], dropped);
    SumAmountAppend(c.results[..n], dropped);
    SumPercentageZero(dropped);
    SumAmountConstant(dropped, 0);
    PayoutTotals(ev, c.droppedPool, fee);
    CumulativeBounds(n);
  }
}

=== FILE: refund_ranking.dfy ===
/** The ranker of the refund calculation (src/lib/utils/refund.ts:78-86):
    the active results are sorted by missed count, fewest first, with a
    stable sort, and then given standard competition ranks — tied results
    share a rank and the next rank skips past the tie. */
module RefundRanking {
  import opened Wrappers
  import opened Seqs
  import opened RefundTypes

  predicate SortedByMissed(s: seq<RefundResult>) {
    forall i, j :: 0 <= i < j < |s| ==> s[i].missedCount <= s[j].missedCount
  }

  /** `x` placed before the first element with at least as many misses. */
  function InsertByMissed(x: RefundResult, s: seq<RefundResult>): (r: seq<RefundResult>)
    requires SortedByMissed(s)
    ensures SortedByMissed(r)
    ensures |r| == |s| + 1
    ensures multiset(r) == multiset(s) + multiset{x}
    ensures r[0] == x || (|s| > 0 && r[0] == s[0])
    decreases |s|
  {
    if |s| == 0 || x.missedCount <= s[0].missedCount then [x] + s
    else
      var rest := InsertByMissed(x, s[1..]);
      assert multiset(s) == multiset{s[0]} + multiset(s[1..]) by {
        assert s == [s[0]] + s[1..];
      }
      assert s[0].missedCount <= rest[0].missedCount;
      [s[0]] + rest
  }

  /** A stable insertion sort on the missed count (the source's
      `Array.prototype.sort`, which is stable): a permutation of `s` with
      fewest misses first. */
  function SortByMissed(s: seq<RefundResult>): (r: seq<RefundResult>)
    ensures SortedByMissed(r)
    ensures |r| == |s|
    ensures multiset(r) == multiset(s)
    decreases |s|
  {
    if |s| == 0 then []
    else
      assert multiset(s) == multiset(s[1..]) + multiset{s[0]} by {
        assert s == [s[0]] + s[1..];
      }
      InsertByMissed(s[0], SortByMissed(s[1..]))
  }

  function WithMissed(k: nat): RefundResult -> bool {
    (r: RefundResult) => r.missedCount == k
  }

  lemma {:induction false} InsertStable(x: RefundResult, s: seq<RefundResult>, k: nat)
    requires SortedByMissed(s)
    ensures Filter(WithMissed(k), InsertByMissed(x, s))
         == (if x.missedCount == k then [x] else []) + Filter(WithMissed(k), s)
    decreases |s|
  {
    var f := WithMissed(k);
    if |s| == 0 || x.missedCount <= s[0].missedCount {
      assert InsertByMissed(x, s) == [x] + s;
      FilterAppend(f, [x], s);
      FilterSingleton(f, x);
    } else {
      var rest := InsertByMissed(x, s[1..]);
      InsertStable(x, s[1..], k);
      assert InsertByMissed(x, s) == [s[0]] + rest;
      InsertStableStep(x, s, rest, k);
    }
  }

  /** The recursive case of `InsertStable`: `x` goes behind `s[0]`, which
      has fewer misses. */
  lemma InsertStableStep(x: RefundResult, s: seq<RefundResult>, rest: seq<RefundResult>, k: nat)
    requires |s| > 0 && s[0].missedCount < x.missedCount
    requires Filter(WithMissed(k), rest) == (if x.missedCount == k then [x] else []) + Filter(WithMissed(k), s[1..])
    ensures Filter(WithMissed(k), [s[0]] + rest)
         == (if x.missedCount == k then [x] else []) + Filter(WithMissed(k), s)
  {
    var f := WithMissed(k);
    var head: seq<RefundResult> := if x.missedCount == k then [x] else [];
    var first := Filter(f, [s[0]]);
    FilterSingleton(f, s[0]);
    assert first == [] || head == [];
    FilterAppend(f, [s[0]], rest);
    assert s == [s[0]] + s[1..];
    FilterAppend(f, [s[0]], s[1..]);
    SwapEmpty(first, head, Filter(f, s[1..]));
  }

  /** Two sequences one of which is empty can trade places. */
  lemma SwapEmpty<T>(a: seq<T>, b: seq<T>, c: seq<T>)
    requires a == [] || b == []
    ensures a + (b + c) == b + (a + c)
  {
    if a == [] {
      assert a + (b + c) == b + c;
    } else {
      assert b + (a + c) == a + c;
    }
  }

  /** The sort is stable: results with the same missed count keep their
      input order. */
  lemma {:induction false} SortStable(s: seq<RefundResult>, k: nat)
    ensures Filter(WithMissed(k), SortByMissed(s)) == Filter(WithMissed(k), s)
    decreases |s|
  {
    if |s| > 0 {
      var f := WithMissed(k);
      var sortedRest := SortByMissed(s[1..]);
      assert SortByMissed(s) == InsertByMissed(s[0], sortedRest);
      SortStable(s[1..], k);
      InsertStable(s[0], sortedRest, k);
      assert s == [s[0]] + s[1..];
      FilterAppend(f, [s[0]], s[1..]);
      FilterSingleton(f, s[0]);
    }
  }

  /** The number of results in `s` with fewer than `k` misses. */
  function CountFewer(s: seq<RefundResult>, k: nat): (n: nat)
    ensures n <= |s|
    decreases |s|
  {
    if |s| == 0 then 0
    else (if s[0].missedCount < k then 1 else 0) + CountFewer(s[1..], k)
  }

  /** The standard competition rank of a result with `k` misses among `s`:
      one more than the number of results strictly ahead of it. */
  function CompetitionRank(s: seq<RefundResult>, k: nat): nat {
    1 + CountFewer(s, k)
  }

  /** The ranking loop from position `i` on, `current` being the rank the
      loop carries: each result keeps the current rank unless it has more
      misses than its predecessor, in which case the rank becomes its
      one-based position. */
  function RankFrom(s: seq<RefundResult>, i: nat, current: nat): (r: seq<RefundResult>)
    requires i <= |s|
    ensures |r| == |s| - i
    ensures forall j :: 0 <= j < |r| ==> r[j].rank.Some? && r[j] == s[i + j].(rank := r[j].rank)
    decreases |s| - i
  {
    if i == |s| then []
    else
      var rank := if i > 0 && s[i].missedCount > s[i - 1].missedCount then i + 1 else current;
      [s[i].(rank := Some(rank))] + RankFrom(s, i + 1, rank)
  }

  /** The ranking loop over the whole sequence, starting at rank 1. */
  function AssignRanks(s: seq<RefundResult>): (r: seq<RefundResult>)
    ensures |r| == |s|
    ensures forall j :: 0 <= j < |r| ==> r[j].rank.Some? && r[j] == s[j].(rank := r[j].rank)
  {
    RankFrom(s, 0, 1)
  }

  /** Counting the results below `k` when exactly the first `p` are below. */
  lemma {:induction false} CountFewerSplit(s: seq<RefundResult>, k: nat, p: nat)
    requires p <= |s|
    requires forall j :: 0 <= j < p ==> s[j].missedCount < k
    requires forall j :: p <= j < |s| ==> s[j].missedCount >= k
    ensures CountFewer(s, k) == p
    decreases |s|
  {
    if |s| > 0 {
      if p == 0 {
        CountFewerSplit(s[1..], k, 0);
      } else {
        CountFewerSplit(s[1..], k, p - 1);
      }
    }
  }

  /** When everything from position `p` on has at least `k` misses, at most
      `p` results have fewer. */
  lemma {:induction false} CountFewerAtMost(s: seq<RefundResult>, k: nat, p: nat)
    requires p <= |s|
    requires forall j :: p <= j < |s| ==> s[j].missedCount >= k
    ensures CountFewer(s, k) <= p
    decreases |s|
  {
    if |s| > 0 {
      if p == 0 {
        CountFewerSplit(s, k, 0);
      } else {
        CountFewerAtMost(s[1..], k, p - 1);
      }
    }
  }

  lemma {:induction false} CountFewerMonotone(s: seq<RefundResult>, k1: nat, k2: nat)
    requires k1 <= k2
    ensures CountFewer(s, k1) <= CountFewer(s, k2)
    decreases |s|
  {
    if |s| > 0 {
      CountFewerMonotone(s[1..], k1, k2);
    }
  }

  /** A result with `k1 <= misses < k2` separates the two counts. */
  lemma {:induction false} CountFewerStrict(s: seq<RefundResult>, k1: nat, k2: nat, w: nat)
    requires w < |s| && k1 <= s[w].missedCount < k2
    ensures CountFewer(s, k1) < CountFewer(s, k2)
    decreases |s|
  {
    if w == 0 {
      CountFewerMonotone(s[1..], k1, k2);
    } else {
      CountFewerStrict(s[1..], k1, k2, w - 1);
    }
  }

  /** Results with the same missed counts, position by position, have the
      same counts below every bound. */
  lemma {:induction false} CountFewerSameMisses(s: seq<RefundResult>, t: seq<RefundResult>, k: nat)
    requires |s| == |t|
    requires forall j :: 0 <= j < |s| ==> s[j].missedCount == t[j].missedCount
    ensures CountFewer(s, k) == CountFewer(t, k)
    decreases |s|
  {
    if |s| > 0 {
      CountFewerSameMisses(s[1..], t[1..], k);
    }
  }

  /** In a sorted sequence, a result that starts a run of equal missed
      counts at position `i` has exactly `i` results ahead of it. */
  lemma RunStartCount(s: seq<RefundResult>, i: nat)
    requires SortedByMissed(s)
    requires i < |s|
    requires i == 0 || s[i - 1].missedCount < s[i].missedCount
    ensures CountFewer(s, s[i].missedCount) == i
  {
    CountFewerSplit(s, s[i].missedCount, i);
  }

  /** `r` holds the competition ranks of the results of `s` from position
      `i` on. */
  ghost predicate RanksFrom(s: seq<RefundResult>, i: nat, r: seq<RefundResult>) {
    |r| + i == |s| && forall j :: 0 <= j < |r| ==> r[j].rank == Some(CompetitionRank(s, s[i + j].missedCount))
  }

  /** The ranking loop computes competition ranks on sorted input, given the
      loop's invariant on the rank it carries. */
  lemma {:induction false} RankFromIsCompetitionRank(s: seq<RefundResult>, i: nat, current: nat)
    requires SortedByMissed(s)
    requires i <= |s|
    requires i == 0 ==> current == 1
    requires i > 0 ==> current == CompetitionRank(s, s[i - 1].missedCount)
    ensures RanksFrom(s, i, RankFrom(s, i, current))
    decreases |s| - i
  {
    if i < |s| {
      var rank := if i > 0 && s[i].missedCount > s[i - 1].missedCount then i + 1 else current;
      var t := RankFrom(s, i + 1, rank);
      RankStep(s, i, current);
      RankFromIsCompetitionRank(s, i + 1, rank);
      assert RankFrom(s, i, current) == [s[i].(rank := Some(rank))] + t;
      PrependRank(s, i, s[i].(rank := Some(rank)), t);
    }
  }

  /** A result carrying the competition rank of position `i`, put in front
      of results carrying the competition ranks from position `i + 1` on. */
  lemma PrependRank(s: seq<RefundResult>, i: nat, x: RefundResult, t: seq<RefundResult>)
    requires i < |s|
    requires x.rank == Some(CompetitionRank(s, s[i].missedCount))
    requires RanksFrom(s, i + 1, t)
    ensures RanksFrom(s, i, [x] + t)
  {
    forall j | 0 < j < |s| - i
      ensures ([x] + t)[j].rank == Some(CompetitionRank(s, s[i + j].missedCount))
    {
      assert ([x] + t)[j] == t[j - 1];
    }
  }

  /** One step of the ranking loop: a new missed count starts its rank at
      the one-based position, an equal one keeps the carried rank, and
      either way that is the competition rank. */
  lemma RankStep(s: seq<RefundResult>, i: nat, current: nat)
    requires SortedByMissed(s)
    requires i < |s|
    requires i == 0 ==> current == 1
    requires i > 0 ==> current == CompetitionRank(s, s[i - 1].missedCount)
    ensures (if i > 0 && s[i].missedCount > s[i - 1].missedCount then i + 1 else current)
         == CompetitionRank(s, s[i].missedCount)
  {
    if i == 0 || s[i].missedCount > s[i - 1].missedCount {
      RunStartCount(s, i);
    }
  }

  /** A sorted sequence whose ranks are its competition ranks. */
  ghost predicate CompetitionRanked(s: seq<RefundResult>) {
    && SortedByMissed(s)
    && forall i :: 0 <= i < |s| ==> s[i].rank == Some(CompetitionRank(s, s[i].missedCount))
  }

  /** Ranking a sorted sequence gives every result its competition rank:
      equal missed counts get equal ranks, the first rank is 1, and a tie of
      `k` at rank `r` is followed by rank `r + k`. */
  lemma AssignRanksCorrect(s: seq<RefundResult>)
    requires SortedByMissed(s)
    ensures CompetitionRanked(AssignRanks(s))
  {
    var r := AssignRanks(s);
    RankFromIsCompetitionRank(s, 0, 1);
    assert RanksFrom(s, 0, r);
    RanksFromStart(s, r);
  }

  /** Ranks computed against `s` are the competition ranks of any
      sequence with the same missed counts. */
  lemma RanksFromStart(s: seq<RefundResult>, r: seq<RefundResult>)
    requires SortedByMissed(s) && RanksFrom(s, 0, r)
    requires forall j :: 0 <= j < |r| ==> r[j].missedCount == s[j].missedCount
    ensures CompetitionRanked(r)
  {
    forall k: nat ensures CountFewer(r, k) == CountFewer(s, k) {
      CountFewerSameMisses(r, s, k);
    }
    forall i | 0 <= i < |r| ensures r[i].rank == Some(CompetitionRank(r, r[i].missedCount)) {
      assert r[i].rank == Some(CompetitionRank(s, s[0 + i].missedCount));
    }
  }

  /** In a competition-ranked sequence the rank at the start of a run of
      equal missed counts is the run's one-based position. */
  lemma RankAtRunStart(s: seq<RefundResult>, i: nat)
    requires CompetitionRanked(s)
    requires i < |s|
    requires i == 0 || s[i - 1].missedCount < s[i].missedCount
    ensures s[i].rank == Some(i + 1)
  {
    RunStartCount(s, i);
  }

  /** In a competition-ranked sequence no rank exceeds the one-based
      position. */
  lemma RankAtMostPosition(s: seq<RefundResult>, i: nat)
    requires CompetitionRanked(s)
    requires i < |s|
    ensures s[i].rank.value <= i + 1
  {
    CountFewerAtMost(s, s[i].missedCount, i);
  }

  /** In a competition-ranked sequence ranks never decrease, and two results
      share a rank exactly when they share a missed count. */
  lemma RankOrder(s: seq<RefundResult>, i: nat, j: nat)
    requires CompetitionRanked(s)
    requires i < |s| && j < |s|
    ensures i <= j ==> s[i].rank.value <= s[j].rank.value
    ensures s[i].rank == s[j].rank <==> s[i].missedCount == s[j].missedCount
  {
    if s[i].missedCount < s[j].missedCount {
      CountFewerStrict(s, s[i].missedCount, s[j].missedCount, i);
    } else if s[j].missedCount < s[i].missedCount {
      CountFewerStrict(s, s[j].missedCount, s[i].missedCount, j);
    }
  }

  /** Competition ranking depends only on the ranks and missed counts:
      changing any other field keeps a sequence competition-ranked. */
  lemma CompetitionRankedTransfer(s: seq<RefundResult>, t: seq<RefundResult>)
    requires CompetitionRanked(s) && |s| == |t|
    requires forall j :: 0 <= j < |s| ==> t[j].rank == s[j].rank && t[j].missedCount == s[j].missedCount
    ensures CompetitionRanked(t)
  {
    forall k: nat ensures CountFewer(t, k) == CountFewer(s, k) {
      CountFewerSameMisses(t, s, k);
    }
  }
}

=== FILE: refund_types.dfy ===
/** The records the refund calculation consumes and produces
    (src/lib/utils/refund.ts). */
module RefundTypes {
  import opened Wrappers
  import opened Domain

  /** A problem that counts toward completion: its id and the day it is
      assigned to. */
  datatype DueProblem = DueProblem(id: string, assignedDay: Day)

  /** A participant as the engine receives it. */
  datatype ParticipantInput = ParticipantInput(
    githubUsername: string,
    isPaid: bool,
    status: ParticipantStatus,
    submittedProblemIds: seq<string>)

  /** One participant's line of the refund table. `rank` is `None` for a
      dropped participant; `refundPercentage` is the exact share of the
      dropped pool in percent. */
  datatype RefundResult = RefundResult(
    githubUsername: string,
    totalProblems: nat,
    submittedCount: nat,
    missedCount: nat,
    rank: Option<nat>,
    refundPercentage: real,
    refundAmount: int,
    isDropped: bool)

  datatype RefundCalculation = RefundCalculation(
    totalPool: int,
    droppedPool: int,
    results: seq<RefundResult>)

  /** A result as first built: no rank, no share, nothing refunded. */
  predicate Unpaid(r: RefundResult) {
    r.rank.None? && r.refundPercentage == 0.0 && r.refundAmount == 0
  }

  /** A result with its ranking and payout fields reset. */
  function Strip(r: RefundResult): RefundResult {
    r.(rank := None, refundPercentage := 0.0, refundAmount := 0)
  }

  predicate IsPaid(p: ParticipantInput) {
    p.isPaid
  }

  predicate IsDroppedResult(r: RefundResult) {
    r.isDropped
  }

  predicate IsActiveResult(r: RefundResult) {
    !r.isDropped
  }

  /** The sum of the refund percentages of `rs`. */
  function SumPercentage(rs: seq<RefundResult>): real
    decreases |rs|
  {
    if |rs| == 0 then 0.0 else rs[0].refundPercentage + SumPercentage(rs[1..])
  }

  /** The sum of the refund amounts of `rs`. */
  function SumAmount(rs: seq<RefundResult>): int
    decreases |rs|
  {
    if |rs| == 0 then 0 else rs[0].refundAmount + SumAmount(rs[1..])
  }

  lemma {:induction false} SumPercentageAppend(a: seq<RefundResult>, b: seq<RefundResult>)
    ensures SumPercentage(a + b) == SumPercentage(a) + SumPercentage(b)
    decreases |a|
  {
    if |a| > 0 {
      assert (a + b)[1..] == a[1..] + b;
      SumPercentageAppend(a[1..], b);
    } else {
      assert a + b == b;
    }
  }

  lemma {:induction false} SumAmountAppend(a: seq<RefundResult>, b: seq<RefundResult>)
    ensures SumAmount(a + b) == SumAmount(a) + SumAmount(b)
    decreases |a|
  {
    if |a| > 0 {
      assert (a + b)[1..] == a[1..] + b;
      SumAmountAppend(a[1..], b);
    } else {
      assert a + b == b;
    }
  }

  /** Results that all carry the same percentage `v` sum to `|rs| * v`. */
  lemma {:induction false} SumPercentageConstant(rs: seq<RefundResult>, v: real)
    requires forall i :: 0 <= i < |rs| ==> rs[i].refundPercentage == v
    ensures SumPercentage(rs) == |rs| as real * v
    decreases |rs|
  {
    if |rs| > 0 {
      SumPercentageConstant(rs[1..], v);
    }
  }

  /** Results that all carry the same amount `v` sum to `|rs| * v`. */
  lemma {:induction false} SumAmountConstant(rs: seq<RefundResult>, v: int)
    requires forall i :: 0 <= i < |rs| ==> rs[i].refundAmount == v
    ensures SumAmount(rs) == |rs| * v
    decreases |rs|
  {
    if |rs| > 0 {
      SumAmountConstant(rs[1..], v);
    }
  }

  /** Results that carry no percentage sum to zero. */
  lemma {:induction false} SumPercentageZero(rs: seq<RefundResult>)
    requires forall i :: 0 <= i < |rs| ==> rs[i].refundPercentage == 0.0
    ensures SumPercentage(rs) == 0.0
    decreases |rs|
  {
    if |rs| > 0 {
      SumPercentageZero(rs[1..]);
    }
  }
}

=== FILE: season.dfy ===
/** How a season's status is shown (src/lib/utils/season.ts): the stored
    status and the legacy `isActive` flag resolve to one of three keys,
    and the key alone decides the label and the badge. */
module Season {
  import opened Wrappers

  datatype StatusKey = Upcoming | Active | Completed

  /** The two status fields of a season; `None` stands for a missing or
      null value. */
  datatype SeasonFlags = SeasonFlags(status: Option<StatusKey>, isActive: Option<bool>)

  /** Whether the legacy flag is set (`null` and missing count as unset). */
  predicate FlagSet(isActive: Option<bool>) {
    isActive == Some(true)
  }

  /** The resolved status: a completed season is completed whatever its
      flag says; otherwise the flag or an active status make it active; else
      it is upcoming. */
  function ResolveStatus(season: SeasonFlags): (k: StatusKey)
    ensures k == Completed <==> season.status == Some(Completed)
    ensures k == Upcoming ==> season.status != Some(Active) && !FlagSet(season.isActive)
  {
    if season.status == Some(Completed) then Completed
    else if FlagSet(season.isActive) || season.status == Some(Active) then Active
    else Upcoming
  }

  /** The label of each key. */
  function KeyLabel(k: StatusKey): string {
    match k
    case Upcoming => "예정"
    case Active => "진행중"
    case Completed => "종료"
  }

  /** The badge style of each key. */
  function KeyBadgeClass(k: StatusKey): string {
    match k
    case Upcoming => "bg-blue-100 text-blue-800"
    case Active => "bg-green-100 text-green-800"
    case Completed => "bg-gray-100 text-gray-800"
  }

  function StatusLabel(season: SeasonFlags): string {
    KeyLabel(ResolveStatus(season))
  }

  function StatusBadgeClass(season: SeasonFlags): string {
    KeyBadgeClass(ResolveStatus(season))
  }

  datatype StatusOption = StatusOption(value: StatusKey, text: string)

  /** The choices offered when editing a season, in display order. */
  function StatusOptions(): (options: seq<StatusOption>)
    ensures |options| == 3
    ensures forall i :: 0 <= i < |options| ==> options[i].text == KeyLabel(options[i].value)
  {
    [StatusOption(Upcoming, KeyLabel(Upcoming)),
     StatusOption(Active, KeyLabel(Active)),
     StatusOption(Completed, KeyLabel(Completed))]
  }

  /** A completed status wins over the flag, whatever the flag holds. */
  lemma CompletedWins(isActive: Option<bool>)
    ensures ResolveStatus(SeasonFlags(Some(Completed), isActive)) == Completed
  {
  }

  /** The three cases of the resolution, each stated both ways. */
  lemma ResolveStatusCases(season: SeasonFlags)
    ensures ResolveStatus(season) == Completed <==> season.status == Some(Completed)
    ensures ResolveStatus(season) == Active <==>
      season.status != Some(Completed) && (FlagSet(season.isActive) || season.status == Some(Active))
    ensures ResolveStatus(season) == Upcoming <==>
      season.status != Some(Completed) && season.status != Some(Active) && !FlagSet(season.isActive)
  {
  }

  /** A season with no status and no set flag is upcoming. */
  lemma MissingFieldsUpcoming(isActive: Option<bool>)
    requires !FlagSet(isActive)
    ensures ResolveStatus(SeasonFlags(None, isActive)) == Upcoming
  {
  }

  /** Storing the resolved key as the status, with the same flag, resolves
      to the same key. */
  lemma ResolveIdempotent(season: SeasonFlags)
    ensures ResolveStatus(season.(status := Some(ResolveStatus(season)))) == ResolveStatus(season)
  {
  }

  /** Label and badge depend on the resolved key only, and tell the keys
      apart: two seasons show the same label exactly when they resolve to
      the same key, and likewise for the badge. */
  lemma LabelAndBadgeFollowKey(a: SeasonFlags, b: SeasonFlags)
    ensures StatusLabel(a) == StatusLabel(b) <==> ResolveStatus(a) == ResolveStatus(b)
    ensures StatusBadgeClass(a) == StatusBadgeClass(b) <==> ResolveStatus(a) == ResolveStatus(b)
  {
    var ka, kb := ResolveStatus(a), ResolveStatus(b);
    if ka != kb {
      assert KeyLabel(ka)[0] != KeyLabel(kb)[0];
      assert KeyBadgeClass(ka)[5] != KeyBadgeClass(kb)[5];
    }
  }

  /** The options list every key exactly once, in the order upcoming,
      active, completed. */
  lemma StatusOptionsCoverKeys(k: StatusKey)
    ensures exists i :: 0 <= i < 3 && StatusOptions()[i].value == k
    ensures StatusOptions()[0].value == Upcoming && StatusOptions()[1].value == Active
      && StatusOptions()[2].value == Completed
  {
    var o := StatusOptions();
    match k
    case Upcoming => assert o[0].value == k;
    case Active => assert o[1].value == k;
    case Completed => assert o[2].value == k;
  }
}

=== FILE: seed_seasons.dfy ===
/** The season seeding script (scripts/seed-seasons.js): its command-line
    options, which seed files it reads, which seasons it seeds, and how it
    validates a season and its problems and fills in defaults. Reading the
    directory, loading the files and writing to the database are not
    modelled; `Number(text)` is a parameter. */
module SeedSeasons {
  import opened Wrappers
  import opened Seqs
  import opened Strings
  import opened Domain

  /** `Number(text)` as the script uses it: `None` stands for `NaN`. */
  type NumberParser = string -> Option<int>

  // ---------------------------------------------------------------------
  // Command-line options
  // ---------------------------------------------------------------------

  /** The selected season numbers and the dry-run switch. */
  datatype CliOptions = CliOptions(selected: set<int>, dryRun: bool)

  const NoOptions: CliOptions := CliOptions({}, false)

  const SeasonPrefix: string := "--season="

  /** The two spellings of the season option that take the next argument. */
  predicate IsSeasonFlag(arg: string) {
    arg == "--season" || arg == "-s"
  }

  /** The number after the first `=` of `--season=N`, up to any second
      `=`. */
  function InlineSeasonValue(arg: string, toNumber: NumberParser): Option<int> {
    var pieces := Split(arg, '=');
    if |pieces| > 1 then toNumber(pieces[1]) else None
  }

  function AddNumber(selected: set<int>, value: Option<int>): set<int> {
    if value.Some? then selected + {value.value} else selected
  }

  /** The options of an argument list, read left to right: the season flag
      always consumes the argument after it (a missing one reads as `NaN`),
      numbers that do not parse are dropped, and unknown arguments are
      ignored. */
  function ParseArgs(args: seq<string>, toNumber: NumberParser): (o: CliOptions)
    ensures o.dryRun ==> "--dry-run" in args
    ensures args == [] ==> o == NoOptions
    decreases |args|
  {
    if |args| == 0 then NoOptions
    else if IsSeasonFlag(args[0]) then
      if |args| == 1 then NoOptions
      else
        var rest := ParseArgs(args[2..], toNumber);
        rest.(selected := AddNumber(rest.selected, toNumber(args[1])))
    else
      var rest := ParseArgs(args[1..], toNumber);
      if StartsWith(args[0], SeasonPrefix) then
        rest.(selected := AddNumber(rest.selected, InlineSeasonValue(args[0], toNumber)))
      else if args[0] == "--dry-run" then
        rest.(dryRun := true)
      else
        rest
  }

  /** Every selected number was read from some argument: the text after a
      season flag, or the value of an inline `--season=N`. */
  lemma {:induction false} SelectedComeFromArgs(args: seq<string>, toNumber: NumberParser, n: int)
    requires n in ParseArgs(args, toNumber).selected
    ensures exists i :: (0 <= i < |args|
                         && (toNumber(args[i]) == Some(n) || InlineSeasonValue(args[i], toNumber) == Some(n)))
    decreases |args|
  {
    if IsSeasonFlag(args[0]) {
      if toNumber(args[1]) == Some(n) {
        assert toNumber(args[1]) == Some(n);
      } else {
        SelectedComeFromArgs(args[2..], toNumber, n);
        var i :| 0 <= i < |args[2..]|
          && (toNumber(args[2..][i]) == Some(n) || InlineSeasonValue(args[2..][i], toNumber) == Some(n));
        assert args[i + 2] == args[2..][i];
      }
    } else if StartsWith(args[0], SeasonPrefix) && InlineSeasonValue(args[0], toNumber) == Some(n) {
      assert InlineSeasonValue(args[0], toNumber) == Some(n);
    } else {
      SelectedComeFromArgs(args[1..], toNumber, n);
      var i :| 0 <= i < |args[1..]|
        && (toNumber(args[1..][i]) == Some(n) || InlineSeasonValue(args[1..][i], toNumber) == Some(n));
      assert args[i + 1] == args[1..][i];
    }
  }

  /** One command-line option as a user writes it. */
  datatype Arg =
    | Season(value: string)
    | ShortSeason(value: string)
    | InlineSeason(value: string)
    | DryRun
    | Ignored(text: string)

  /** The arguments an option is written as. */
  function RenderArg(a: Arg): seq<string> {
    match a
    case Season(v) => ["--season", v]
    case ShortSeason(v) => ["-s", v]
    case InlineSeason(v) => [SeasonPrefix + v]
    case DryRun => ["--dry-run"]
    case Ignored(t) => [t]
  }

  function Render(opts: seq<Arg>): seq<string>
    decreases |opts|
  {
    if |opts| == 0 then [] else RenderArg(opts[0]) + Render(opts[1..])
  }

  /** An option that reads back as itself: an inline value holds no `=`,
      and an ignored argument is not one of the recognised options. */
  predicate WellFormedArg(a: Arg) {
    match a
    case InlineSeason(v) => '=' !in v
    case Ignored(t) => !IsSeasonFlag(t) && !StartsWith(t, SeasonPrefix) && t != "--dry-run"
    case _ => true
  }

  /** What a list of options means: the numbers of all season options that
      parse, and dry run when it is asked for anywhere. */
  function Meaning(opts: seq<Arg>, toNumber: NumberParser): CliOptions
    decreases |opts|
  {
    if |opts| == 0 then NoOptions
    else
      var rest := Meaning(opts[1..], toNumber);
      match opts[0]
      case Season(v) => rest.(selected := AddNumber(rest.selected, toNumber(v)))
      case ShortSeason(v) => rest.(selected := AddNumber(rest.selected, toNumber(v)))
      case InlineSeason(v) => rest.(selected := AddNumber(rest.selected, toNumber(v)))
      case DryRun => rest.(dryRun := true)
      case Ignored(_) => rest
  }

  /** The inline form reads the text after the `=`. */
  lemma InlineSeasonValueOf(v: string, toNumber: NumberParser)
    requires '=' !in v
    ensures InlineSeasonValue(SeasonPrefix + v, toNumber) == toNumber(v)
  {
    var pieces := ["--season", v];
    assert Join(pieces[1..], '=') == v;
    assert Join(pieces, '=') == SeasonPrefix + v;
    SplitJoin(pieces, '=');
  }

  /** A season flag reads the argument after it, whatever it is. */
  lemma ParseSeasonFlag(flag: string, v: string, tail: seq<string>, toNumber: NumberParser)
    requires IsSeasonFlag(flag)
    ensures var rest := ParseArgs(tail, toNumber);
      ParseArgs([flag, v] + tail, toNumber) == rest.(selected := AddNumber(rest.selected, toNumber(v)))
  {
    assert ([flag, v] + tail)[2..] == tail;
  }

  /** An inline season option reads the text after its `=`. */
  lemma ParseInlineSeason(v: string, tail: seq<string>, toNumber: NumberParser)
    requires '=' !in v
    ensures var rest := ParseArgs(tail, toNumber);
      ParseArgs([SeasonPrefix + v] + tail, toNumber) == rest.(selected := AddNumber(rest.selected, toNumber(v)))
  {
    var args := [SeasonPrefix + v] + tail;
    assert args[1..] == tail;
    assert args[0][..|SeasonPrefix|] == SeasonPrefix;
    assert !IsSeasonFlag(args[0]) by {
      assert |args[0]| >= |SeasonPrefix|;
    }
    InlineSeasonValueOf(v, toNumber);
  }

  /** Any other single argument: the dry-run switch sets dry run, an
      ignored argument changes nothing. */
  lemma ParseSingle(a: Arg, tail: seq<string>, toNumber: NumberParser)
    requires a.DryRun? || (a.Ignored? && WellFormedArg(a))
    ensures var rest := ParseArgs(tail, toNumber);
      ParseArgs(RenderArg(a) + tail, toNumber) == if a.DryRun? then rest.(dryRun := true) else rest
  {
    var args := RenderArg(a) + tail;
    assert args[1..] == tail;
    if a.DryRun? {
      assert !StartsWith(args[0], SeasonPrefix) by {
        assert args[0][2] != SeasonPrefix[2];
      }
    }
  }

  /** Written-out options parse back to their meaning; in particular the
      value after a season flag is consumed even when it looks like an
      option itself. */
  lemma {:induction false} ParseRendered(opts: seq<Arg>, toNumber: NumberParser)
    requires forall k :: 0 <= k < |opts| ==> WellFormedArg(opts[k])
    ensures ParseArgs(Render(opts), toNumber) == Meaning(opts, toNumber)
    decreases |opts|
  {
    if |opts| > 0 {
      var tail := Render(opts[1..]);
      assert Render(opts) == RenderArg(opts[0]) + tail;
      ParseRendered(opts[1..], toNumber);
      match opts[0]
      case Season(v) => ParseSeasonFlag("--season", v, tail, toNumber);
      case ShortSeason(v) => ParseSeasonFlag("-s", v, tail, toNumber);
      case InlineSeason(v) => ParseInlineSeason(v, tail, toNumber);
      case DryRun => ParseSingle(opts[0], tail, toNumber);
      case Ignored(t) => ParseSingle(opts[0], tail, toNumber);
    }
  }

  /** A season flag in last position selects nothing. */
  lemma DanglingSeasonFlag(flag: string, toNumber: NumberParser)
    requires IsSeasonFlag(flag)
    ensures ParseArgs([flag], toNumber) == NoOptions
  {
  }

  // ---------------------------------------------------------------------
  // Seed files and season selection
  // ---------------------------------------------------------------------

  /** A seed file is read when it is a `.js` file, its name does not start
      with `_`, and it does not mention "template" in any case. */
  predicate KeepSeedFile(file: string) {
    EndsWith(file, ".js") && !StartsWith(file, "_") && !Contains(ToLower(file), "template")
  }

  /** The seed files read, in directory order. */
  function SeedFiles(files: seq<string>): (r: seq<string>)
    ensures forall i :: 0 <= i < |r| ==> r[i] in files && KeepSeedFile(r[i])
    ensures forall i :: 0 <= i < |files| && KeepSeedFile(files[i]) ==> files[i] in r
  {
    Filter(KeepSeedFile, files)
  }

  /** The kept files stay in directory order. */
  lemma SeedFilesAppend(a: seq<string>, b: seq<string>)
    ensures SeedFiles(a + b) == SeedFiles(a) + SeedFiles(b)
  {
    FilterAppend(KeepSeedFile, a, b);
  }

  /** One file is read, once, exactly when it passes all three tests. */
  lemma SeedFileSingle(file: string)
    ensures SeedFiles([file]) == if KeepSeedFile(file) then [file] else []
  {
    FilterSingleton(KeepSeedFile, file);
  }

  /** A file that mentions "template", in any mix of cases, is skipped. */
  lemma TemplateFilesSkipped(before: string, word: string, after: string)
    requires ToLower(word) == "template"
    ensures !KeepSeedFile(before + word + after)
  {
    ToLowerAppend(before + word, after);
    ToLowerAppend(before, word);
    ContainsMiddle(ToLower(before), "template", ToLower(after));
  }

  /** The fields of a season seed file the script reads. A missing field is
      `None`; `problems` that is not an array is the empty sequence. */
  datatype SeedSeason = SeedSeason(
    file: string,
    seasonNumber: Option<int>,
    name: Option<string>,
    startDate: Option<string>,
    endDate: Option<string>,
    entryFee: Option<int>,
    status: Option<string>,
    isActive: Option<bool>,
    problems: seq<SeedProblem>)

  /** The fields of one problem of a seed file. */
  datatype SeedProblem = SeedProblem(
    dayNumber: Option<int>,
    title: Option<string>,
    url: Option<string>,
    assignedDate: Option<string>,
    problemType: Option<string>,
    isPractice: Option<bool>)

  function IsSelected(selected: set<int>): SeedSeason -> bool {
    (s: SeedSeason) => s.seasonNumber.Some? && s.seasonNumber.value in selected
  }

  /** The seasons to seed: all of them when none was selected, otherwise
      those whose number was selected, in order. */
  function SelectSeasons(selected: set<int>, seasons: seq<SeedSeason>): (r: seq<SeedSeason>)
    ensures selected == {} ==> r == seasons
    ensures selected != {} ==> forall i :: 0 <= i < |r| ==>
      r[i] in seasons && r[i].seasonNumber.Some? && r[i].seasonNumber.value in selected
    ensures selected != {} ==> forall i :: 0 <= i < |seasons| ==>
      (seasons[i].seasonNumber.Some? && seasons[i].seasonNumber.value in selected ==> seasons[i] in r)
  {
    if selected == {} then seasons else Filter(IsSelected(selected), seasons)
  }

  /** The kept seasons stay in the order of the season list. */
  lemma SelectSeasonsAppend(selected: set<int>, a: seq<SeedSeason>, b: seq<SeedSeason>)
    ensures SelectSeasons(selected, a + b) == SelectSeasons(selected, a) + SelectSeasons(selected, b)
  {
    if selected != {} {
      FilterAppend(IsSelected(selected), a, b);
    }
  }

  /** One season is kept, once, exactly when nothing was selected or its
      number was. */
  lemma SelectSeasonSingle(selected: set<int>, s: SeedSeason)
    ensures SelectSeasons(selected, [s])
         == if selected == {} || (s.seasonNumber.Some? && s.seasonNumber.value in selected) then [s] else []
  {
    if selected != {} {
      FilterSingleton(IsSelected(selected), s);
    }
  }

  /** Selecting more numbers never seeds fewer seasons. */
  lemma SelectionMonotone(fewer: set<int>, more: set<int>, seasons: seq<SeedSeason>)
    requires fewer != {} && fewer <= more
    ensures |SelectSeasons(fewer, seasons)| <= |SelectSeasons(more, seasons)|
  {
    FilterMonotone(IsSelected(fewer), IsSelected(more), seasons);
  }

  /** Selecting the number of every season seeds them all. */
  lemma SelectingAllKeepsAll(selected: set<int>, seasons: seq<SeedSeason>)
    requires forall i :: 0 <= i < |seasons| ==> seasons[i].seasonNumber.Some? && seasons[i].seasonNumber.value in selected
    ensures SelectSeasons(selected, seasons) == seasons
  {
    if selected != {} {
      FilterAll(IsSelected(selected), seasons);
    }
  }

  // ---------------------------------------------------------------------
  // Problem types
  // ---------------------------------------------------------------------

  /** The database name of a problem type. */
  function TypeName(t: ProblemType): string {
    match t
    case Regular => "REGULAR"
    case Free => "FREE"
    case Rest => "REST"
  }

  /** A seed file's problem type: its upper-cased name when that is one of
      the three types, and `REGULAR` when it is missing, empty or
      unknown. */
  function NormalizeProblemType(value: Option<string>): (t: ProblemType)
    ensures value.None? ==> t == Regular
    ensures value.Some? && t != Regular ==> ToUpper(value.value) == TypeName(t)
  {
    if !value.Some? || |value.value| == 0 then Regular
    else
      var upper := ToUpper(value.value);
      if upper == "FREE" then Free
      else if upper == "REST" then Rest
      else Regular
  }

  /** Each type's name reads back as that type, in any case. */
  lemma NormalizeTypeName(t: ProblemType)
    ensures NormalizeProblemType(Some(TypeName(t))) == t
    ensures NormalizeProblemType(Some(ToLower(TypeName(t)))) == t
  {
    var name := TypeName(t);
    assert forall i :: 0 <= i < |name| ==> 'A' <= name[i] <= 'Z';
    UpperOfUpperCase(name);
    UpperOfLower(name);
    assert "REGULAR" != "FREE" && "REGULAR" != "REST";
  }

  /** Upper-casing leaves an upper-case word unchanged. */
  lemma UpperOfUpperCase(s: string)
    requires forall i :: 0 <= i < |s| ==> 'A' <= s[i] <= 'Z'
    ensures ToUpper(s) == s
  {
  }

  /** The type is `FREE` or `REST` exactly when the upper-cased text names
      it; everything else is `REGULAR`. */
  lemma NormalizeProblemTypeIff(s: string)
    ensures NormalizeProblemType(Some(s)) == Free <==> ToUpper(s) == "FREE"
    ensures NormalizeProblemType(Some(s)) == Rest <==> ToUpper(s) == "REST"
    ensures NormalizeProblemType(Some(s)) == Regular <==> ToUpper(s) != "FREE" && ToUpper(s) != "REST"
  {
  }

  // ---------------------------------------------------------------------
  // Validation and defaults
  // ---------------------------------------------------------------------

  /** The entry fee of a season whose seed file gives none. */
  const DefaultEntryFee: int := 20000

  /** The season fields written to the database; `status` and `isActive`
      are written only when present. */
  datatype SeasonData = SeasonData(
    name: string,
    startDate: string,
    endDate: string,
    entryFee: int,
    status: Option<string>,
    isActive: Option<bool>)

  predicate TruthyText(value: Option<string>) {
    value.Some? && |value.value| > 0
  }

  predicate TruthyNumber(value: Option<int>) {
    value.Some? && value.value != 0
  }

  /** All four required fields of a season are present and truthy. */
  predicate HasRequiredSeasonFields(s: SeedSeason) {
    TruthyNumber(s.seasonNumber) && TruthyText(s.name) && TruthyText(s.startDate) && TruthyText(s.endDate)
  }

  /** The season fields to write, or the error naming the file when a
      required field is missing. */
  function SeasonFields(s: SeedSeason): (r: Result<SeasonData, string>)
    ensures r.Failure? <==> !HasRequiredSeasonFields(s)
    ensures r.Failure? ==> r.error == "Missing required season fields in " + s.file
    ensures r.Success? ==> r.value.name == s.name.value && r.value.startDate == s.startDate.value
                           && r.value.endDate == s.endDate.value
    ensures r.Success? ==> r.value.entryFee == s.entryFee.GetOr(DefaultEntryFee)
    ensures r.Success? ==> (r.value.status.Some? <==> TruthyText(s.status))
    ensures r.Success? && TruthyText(s.status) ==> r.value.status == s.status
    ensures r.Success? ==> r.value.isActive == s.isActive
  {
    if !HasRequiredSeasonFields(s) then Failure("Missing required season fields in " + s.file)
    else
      Success(SeasonData(
        name := s.name.value,
        startDate := s.startDate.value,
        endDate := s.endDate.value,
        entryFee := s.entryFee.GetOr(DefaultEntryFee),
        status := if TruthyText(s.status) then s.status else None,
        isActive := s.isActive))
  }

  /** The default fee applies only to a missing fee: a fee of zero is
      kept. */
  lemma ZeroEntryFeeKept(s: SeedSeason)
    requires HasRequiredSeasonFields(s) && s.entryFee == Some(0)
    ensures SeasonFields(s).value.entryFee == 0
  {
  }

  /** A season numbered 0 is refused like a missing number. */
  lemma SeasonZeroRefused(s: SeedSeason)
    requires s.seasonNumber == Some(0)
    ensures SeasonFields(s).Failure?
  {
  }

  /** The problem fields written to the database. */
  datatype ProblemData = ProblemData(
    title: string,
    url: Option<string>,
    assignedDate: string,
    dayNumber: int,
    problemType: ProblemType,
    isPractice: bool)

  predicate HasRequiredProblemFields(p: SeedProblem) {
    TruthyNumber(p.dayNumber) && TruthyText(p.title) && TruthyText(p.assignedDate)
  }

  /** One problem's fields: an empty URL becomes `null`, the type is
      normalised, and a missing practice flag is false. */
  function ProblemFields(p: SeedProblem): (d: ProblemData)
    requires HasRequiredProblemFields(p)
    ensures d.title == p.title.value && d.dayNumber == p.dayNumber.value && d.assignedDate == p.assignedDate.value
    ensures d.url.Some? <==> TruthyText(p.url)
    ensures d.url.Some? ==> d.url == p.url
    ensures d.isPractice <==> p.isPractice == Some(true)
    ensures d.problemType == NormalizeProblemType(p.problemType)
  {
    ProblemData(
      title := p.title.value,
      url := if TruthyText(p.url) then p.url else None,
      assignedDate := p.assignedDate.value,
      dayNumber := p.dayNumber.value,
      problemType := NormalizeProblemType(p.problemType),
      isPractice := p.isPractice.GetOr(false))
  }

  /** The problems of a season, in order, or the error for the first
      problem with a missing required field. */
  function ProblemsFields(seasonNumber: int, file: string, ps: seq<SeedProblem>): (r: Result<seq<ProblemData>, string>)
    ensures r.Failure? <==> exists i :: 0 <= i < |ps| && !HasRequiredProblemFields(ps[i])
    ensures r.Failure? ==> r.error == "Missing required problem fields in season " + IntToText(seasonNumber) + " (" + file + ")"
    ensures r.Success? ==> |r.value| == |ps|
    ensures r.Success? ==> forall i :: 0 <= i < |ps| ==> r.value[i] == ProblemFields(ps[i])
    decreases |ps|
  {
    if |ps| == 0 then Success([])
    else if !HasRequiredProblemFields(ps[0]) then
      Failure("Missing required problem fields in season " + IntToText(seasonNumber) + " (" + file + ")")
    else
      match ProblemsFields(seasonNumber, file, ps[1..])
      case Failure(e) =>
        var i :| 0 <= i < |ps[1..]| && !HasRequiredProblemFields(ps[1..][i]);
        assert !HasRequiredProblemFields(ps[i + 1]);
        Failure(e)
      case Success(rest) =>
        assert forall i :: 0 < i < |ps| ==> ps[i] == ps[1..][i - 1];
        Success([ProblemFields(ps[0])] + rest)
  }

  /** The decimal text of an integer, as a template literal prints it. */
  function IntToText(n: int): string {
    if n < 0 then "-" + NatToString(-n) else NatToString(n)
  }

  predicate AllProblemsComplete(s: SeedSeason) {
    forall i :: 0 <= i < |s.problems| ==> HasRequiredProblemFields(s.problems[i])
  }

  /** What seeding a season writes: the season's fields and its problems'
      fields, or the first error. A dry run stops after the season's fields,
      so it neither checks nor writes any problem. */
  function SeedSeasonData(s: SeedSeason, dryRun: bool): (r: Result<(SeasonData, seq<ProblemData>), string>)
    ensures r.Success? ==> HasRequiredSeasonFields(s)
    ensures r.Success? && dryRun ==> r.value.1 == []
    ensures r.Success? && !dryRun ==> |r.value.1| == |s.problems|
    ensures r.Success? && !dryRun ==> forall i :: 0 <= i < |s.problems| ==> HasRequiredProblemFields(s.problems[i])
    ensures dryRun ==> (r.Success? <==> HasRequiredSeasonFields(s))
    ensures !dryRun ==> (r.Success? <==> HasRequiredSeasonFields(s) && AllProblemsComplete(s))
    ensures !HasRequiredSeasonFields(s) ==> r == Failure("Missing required season fields in " + s.file)
    ensures r.Success? ==> r.value.0 == SeasonFields(s).value
    ensures r.Success? && !dryRun ==> forall i :: 0 <= i < |s.problems| ==> r.value.1[i] == ProblemFields(s.problems[i])
    ensures !dryRun && HasRequiredSeasonFields(s) && !AllProblemsComplete(s) ==>
      r == Failure("Missing required problem fields in season " + IntToText(s.seasonNumber.value) + " (" + s.file + ")")
  {
    match SeasonFields(s)
    case Failure(e) => Failure(e)
    case Success(data) =>
      if dryRun then Success((data, []))
      else
        match ProblemsFields(s.seasonNumber.value, s.file, s.problems)
        case Failure(e) => Failure(e)
        case Success(problems) => Success((data, problems))
  }

  /** Every problem type a seeded season writes is one of the three, and a
      problem whose type was written in any case keeps that type. */
  lemma SeededProblemTypes(s: SeedSeason, i: nat, t: ProblemType)
    requires SeedSeasonData(s, false).Success? && i < |s.problems|
    requires s.problems[i].problemType == Some(ToLower(TypeName(t)))
    ensures SeedSeasonData(s, false).value.1[i].problemType == t
  {
    NormalizeTypeName(t);
  }
}

=== FILE: seqs.dfy ===
/** Order-preserving filtering and mapping over sequences, the two array
    operations (`Array.prototype.filter` and `Array.prototype.map`) the
    modelled code is built from. */
module Seqs {

  /** The elements of `s` that satisfy `f`, in their original order. */
  function Filter<T>(f: T -> bool, s: seq<T>): (r: seq<T>)
    ensures |r| <= |s|
    ensures forall i :: 0 <= i < |r| ==> r[i] in s && f(r[i])
    ensures forall i :: 0 <= i < |s| && f(s[i]) ==> s[i] in r
    decreases |s|
  {
    if |s| == 0 then []
    else
      var rest := Filter(f, s[1..]);
      assert s == [s[0]] + s[1..];
      if f(s[0]) then [s[0]] + rest else rest
  }

  /** `f` applied to every element of `s`, in order. */
  function Map<T, U>(f: T -> U, s: seq<T>): (r: seq<U>)
    ensures |r| == |s|
    ensures forall i :: 0 <= i < |s| ==> r[i] == f(s[i])
  {
    seq(|s|, i requires 0 <= i < |s| => f(s[i]))
  }

  /** The position of the first element of `s` that satisfies `f`, or `|s|`
      when there is none (`Array.prototype.find` and `findIndex`). */
  function FindIndex<T>(f: T -> bool, s: seq<T>): (i: nat)
    ensures i <= |s|
    ensures i < |s| ==> f(s[i])
    ensures forall j :: 0 <= j < i ==> !f(s[j])
    decreases |s|
  {
    if |s| == 0 then 0
    else if f(s[0]) then 0
    else 1 + FindIndex(f, s[1..])
  }

  /** Filtering distributes over concatenation. */
  lemma {:induction false} FilterAppend<T>(f: T -> bool, a: seq<T>, b: seq<T>)
    ensures Filter(f, a + b) == Filter(f, a) + Filter(f, b)
    decreases |a|
  {
    if |a| == 0 {
      assert a + b == b;
    } else {
      assert (a + b)[1..] == a[1..] + b;
      FilterAppend(f, a[1..], b);
    }
  }

  /** Filtering a single element keeps it exactly when it satisfies `f`. */
  lemma FilterSingleton<T>(f: T -> bool, x: T)
    ensures Filter(f, [x]) == if f(x) then [x] else []
  {
    assert [x][1..] == [];
  }

  /** Filtering appended to a single element. */
  lemma FilterSnoc<T>(f: T -> bool, s: seq<T>, x: T)
    ensures Filter(f, s + [x]) == Filter(f, s) + (if f(x) then [x] else [])
  {
    FilterAppend(f, s, [x]);
    FilterSingleton(f, x);
  }

  /** Two filters with complementary predicates split `s` without loss:
      together they hold exactly the elements of `s`. */
  lemma {:induction false} FilterPartition<T>(f: T -> bool, g: T -> bool, s: seq<T>)
    requires forall x :: x in s ==> (g(x) <==> !f(x))
    ensures multiset(Filter(f, s)) + multiset(Filter(g, s)) == multiset(s)
    ensures |Filter(f, s)| + |Filter(g, s)| == |s|
    decreases |s|
  {
    if |s| > 0 {
      assert s == [s[0]] + s[1..];
      FilterPartition(f, g, s[1..]);
    }
  }

  /** Two filters whose predicates never hold together select at most `|s|`
      elements between them. */
  lemma {:induction false} FilterDisjointCount<T>(f: T -> bool, g: T -> bool, s: seq<T>)
    requires forall x :: x in s ==> !(f(x) && g(x))
    ensures |Filter(f, s)| + |Filter(g, s)| <= |s|
    decreases |s|
  {
    if |s| > 0 {
      FilterDisjointCount(f, g, s[1..]);
    }
  }

  /** A filter whose predicate is implied by another's selects at most as many
      elements. */
  lemma {:induction false} FilterMonotone<T>(f: T -> bool, g: T -> bool, s: seq<T>)
    requires forall x :: x in s && f(x) ==> g(x)
    ensures |Filter(f, s)| <= |Filter(g, s)|
    decreases |s|
  {
    if |s| > 0 {
      FilterMonotone(f, g, s[1..]);
    }
  }

  /** Filtering with a predicate that agrees with another on `s` gives the same
      result. */
  lemma {:induction false} FilterCongruent<T>(f: T -> bool, g: T -> bool, s: seq<T>)
    requires forall x :: x in s ==> (f(x) <==> g(x))
    ensures Filter(f, s) == Filter(g, s)
    decreases |s|
  {
    if |s| > 0 {
      FilterCongruent(f, g, s[1..]);
    }
  }

  /** Filtering twice is filtering once with both predicates. */
  lemma {:induction false} FilterFilter<T>(f: T -> bool, g: T -> bool, h: T -> bool, s: seq<T>)
    requires forall x :: x in s ==> (h(x) <==> f(x) && g(x))
    ensures Filter(f, Filter(g, s)) == Filter(h, s)
    decreases |s|
  {
    if |s| > 0 {
      FilterFilter(f, g, h, s[1..]);
    }
  }

  /** Filtering with a predicate that every element meets changes nothing. */
  lemma {:induction false} FilterAll<T>(f: T -> bool, s: seq<T>)
    requires forall x :: x in s ==> f(x)
    ensures Filter(f, s) == s
    decreases |s|
  {
    if |s| > 0 {
      FilterAll(f, s[1..]);
    }
  }

  /** Filtering with a predicate that no element meets leaves nothing. */
  lemma {:induction false} FilterNone<T>(f: T -> bool, s: seq<T>)
    requires forall x :: x in s ==> !f(x)
    ensures Filter(f, s) == []
    decreases |s|
  {
    if |s| > 0 {
      FilterNone(f, s[1..]);
    }
  }

  /** Filtering with a predicate that holds exactly on the positions
      `lo..hi` keeps `hi - lo` elements. */
  lemma {:induction false} FilterRange<T>(f: T -> bool, s: seq<T>, lo: nat, hi: nat)
    requires lo <= hi <= |s|
    requires forall j :: 0 <= j < |s| ==> (f(s[j]) <==> lo <= j < hi)
    ensures |Filter(f, s)| == hi - lo
    decreases |s|
  {
    if |s| > 0 {
      assert f(s[0]) <==> lo == 0 < hi;
      if lo > 0 {
        FilterRange(f, s[1..], lo - 1, hi - 1);
      } else if hi > 0 {
        FilterRange(f, s[1..], 0, hi - 1);
      } else {
        FilterRange(f, s[1..], 0, 0);
      }
    }
  }

  lemma MapAppend<T, U>(f: T -> U, a: seq<T>, b: seq<T>)
    ensures Map(f, a + b) == Map(f, a) + Map(f, b)
  {
  }
}

=== FILE: strings.dfy ===
/** The JavaScript string operations the modelled code uses (`trim`,
    `toLowerCase`, `toUpperCase`, `split`, `startsWith`, `endsWith`,
    `includes`, number-to-text), restricted to ASCII whitespace and ASCII
    letters. */
module Strings {

  /** ASCII whitespace as `String.prototype.trim` removes it: space, tab,
      line feed, vertical tab, form feed, carriage return. */
  predicate IsSpace(c: char) {
    c == ' ' || '\t' <= c <= '\r'
  }

  function LowerChar(c: char): char {
    if 'A' <= c <= 'Z' then (c as int + 32) as char else c
  }

  function UpperChar(c: char): char {
    if 'a' <= c <= 'z' then (c as int - 32) as char else c
  }

  function ToLower(s: string): (r: string)
    ensures |r| == |s|
    ensures forall i :: 0 <= i < |s| ==> r[i] == LowerChar(s[i])
  {
    seq(|s|, i requires 0 <= i < |s| => LowerChar(s[i]))
  }

  function ToUpper(s: string): (r: string)
    ensures |r| == |s|
    ensures forall i :: 0 <= i < |s| ==> r[i] == UpperChar(s[i])
  {
    seq(|s|, i requires 0 <= i < |s| => UpperChar(s[i]))
  }

  /** No leading and no trailing whitespace. */
  predicate IsTrimmed(s: string) {
    |s| == 0 || (!IsSpace(s[0]) && !IsSpace(s[|s| - 1]))
  }

  predicate AllSpace(s: string) {
    forall i :: 0 <= i < |s| ==> IsSpace(s[i])
  }

  function TrimStart(s: string): (r: string)
    ensures |r| <= |s|
    ensures |r| == 0 || !IsSpace(r[0])
    decreases |s|
  {
    if |s| > 0 && IsSpace(s[0]) then TrimStart(s[1..]) else s
  }

  /** What `TrimStart` keeps is a suffix of `s`, and all it cuts off is
      whitespace. */
  lemma {:induction false} TrimStartSuffix(s: string)
    ensures var r := TrimStart(s);
      r == s[|s| - |r|..] && AllSpace(s[..|s| - |r|])
    decreases |s|
  {
    if |s| > 0 && IsSpace(s[0]) {
      var r := TrimStart(s[1..]);
      TrimStartSuffix(s[1..]);
      assert s[..|s| - |r|] == [s[0]] + s[1..][..|s| - 1 - |r|];
    }
  }

  function TrimEnd(s: string): (r: string)
    ensures |r| <= |s| && r == s[..|r|] && AllSpace(s[|r|..])
    ensures |r| == 0 || !IsSpace(r[|r| - 1])
    decreases |s|
  {
    if |s| > 0 && IsSpace(s[|s| - 1]) then
      var p := s[..|s| - 1];
      var r := TrimEnd(p);
      assert p[..|r|] == s[..|r|];
      assert s[|r|..] == p[|r|..] + [s[|s| - 1]];
      AllSpaceSnoc(p[|r|..], s[|s| - 1]);
      r
    else
      s
  }

  lemma AllSpaceSnoc(t: string, c: char)
    requires AllSpace(t) && IsSpace(c)
    ensures AllSpace(t + [c])
  {
    assert forall i :: 0 <= i < |t| ==> (t + [c])[i] == t[i];
  }

  /** `String.prototype.trim`: `s` without its leading and trailing
      whitespace. */
  function Trim(s: string): (r: string)
    ensures IsTrimmed(r)
    ensures |r| <= |s|
  {
    var b := TrimEnd(TrimStart(s));
    assert |b| > 0 ==> b[0] == TrimStart(s)[0];
    b
  }

  /** What trimming keeps is a slice of `s`, and all it cuts off is
      whitespace. */
  lemma TrimSlice(s: string)
    ensures exists i :: (0 <= i <= |s| - |Trim(s)|
                         && Trim(s) == s[i..i + |Trim(s)|]
                         && AllSpace(s[..i]) && AllSpace(s[i + |Trim(s)|..]))
  {
    var a := TrimStart(s);
    TrimStartSuffix(s);
    var b := TrimEnd(a);
    assert Trim(s) == b;
    SliceOfSuffix(s, a, b);
  }

  /** A prefix `b` of a suffix `a` of `s` is a slice of `s`, with what lies
      around it made of the parts cut off each time. */
  lemma SliceOfSuffix(s: string, a: string, b: string)
    requires |a| <= |s| && a == s[|s| - |a|..] && AllSpace(s[..|s| - |a|])
    requires |b| <= |a| && b == a[..|b|] && AllSpace(a[|b|..])
    ensures var i := |s| - |a|;
      && i <= |s| - |b| && b == s[i..i + |b|]
      && AllSpace(s[..i]) && AllSpace(s[i + |b|..])
  {
    var i := |s| - |a|;
    assert a[..|b|] == s[i..i + |b|];
    assert s[i + |b|..] == a[|b|..];
  }

  /** Whether `s` begins with `prefix` (`String.prototype.startsWith`). */
  predicate StartsWith(s: string, prefix: string) {
    |prefix| <= |s| && s[..|prefix|] == prefix
  }

  /** Whether `s` ends with `suffix` (`String.prototype.endsWith`). */
  predicate EndsWith(s: string, suffix: string) {
    |suffix| <= |s| && s[|s| - |suffix|..] == suffix
  }

  /** Whether `sub` occurs in `s` (`String.prototype.includes`). */
  predicate Contains(s: string, sub: string)
    decreases |s|
  {
    StartsWith(s, sub) || (|s| > 0 && Contains(s[1..], sub))
  }

  /** The position of the first `c` in `s`. */
  function IndexOf(s: string, c: char): (i: nat)
    requires c in s
    ensures i < |s| && s[i] == c && c !in s[..i]
  {
    if s[0] == c then 0
    else
      var i := IndexOf(s[1..], c);
      assert s[..i + 1] == [s[0]] + s[1..][..i];
      i + 1
  }

  /** The pieces joined back together, `sep` between neighbours
      (`Array.prototype.join`). */
  function Join(pieces: seq<string>, sep: char): string
    decreases |pieces|
  {
    if |pieces| == 0 then ""
    else if |pieces| == 1 then pieces[0]
    else pieces[0] + [sep] + Join(pieces[1..], sep)
  }

  /** `String.prototype.split` on one separator character: the separator-free
      pieces of `s`, in order; there is always at least one piece, and
      joining them with `sep` gives `s` back. */
  function Split(s: string, sep: char): (r: seq<string>)
    ensures |r| >= 1
    ensures forall i :: 0 <= i < |r| ==> sep !in r[i]
    ensures Join(r, sep) == s
    decreases |s|
  {
    if sep in s then
      var i := IndexOf(s, sep);
      var rest := Split(s[i + 1..], sep);
      assert s == s[..i] + [sep] + s[i + 1..];
      [s[..i]] + rest
    else
      [s]
  }

  /** Splitting undoes joining when no piece holds the separator. */
  lemma {:induction false} SplitJoin(pieces: seq<string>, sep: char)
    requires |pieces| >= 1
    requires forall i :: 0 <= i < |pieces| ==> sep !in pieces[i]
    ensures Split(Join(pieces, sep), sep) == pieces
    decreases |pieces|
  {
    if |pieces| == 1 {
      assert Join(pieces, sep) == pieces[0];
    } else {
      var s := Join(pieces, sep);
      var tail := Join(pieces[1..], sep);
      assert s == pieces[0] + [sep] + tail;
      assert s[|pieces[0]|] == sep;
      assert s[..|pieces[0]|] == pieces[0];
      var i := IndexOf(s, sep);
      assert i == |pieces[0]|;
      assert s[i + 1..] == tail;
      SplitJoin(pieces[1..], sep);
    }
  }

  function DigitChar(d: nat): char
    requires d < 10
  {
    "0123456789"[d]
  }

  predicate IsDigit(c: char) {
    '0' <= c <= '9'
  }

  function DigitValue(c: char): nat
    requires IsDigit(c)
  {
    (c as int) - ('0' as int)
  }

  /** The decimal text of `n` (what a template literal prints for it). */
  function NatToString(n: nat): (r: string)
    ensures |r| >= 1
    ensures forall i :: 0 <= i < |r| ==> IsDigit(r[i])
  {
    if n < 10 then [DigitChar(n)] else NatToString(n / 10) + [DigitChar(n % 10)]
  }

  /** The value of a string of decimal digits. */
  function ParseNat(s: string): nat
    requires forall i :: 0 <= i < |s| ==> IsDigit(s[i])
    decreases |s|
  {
    if |s| == 0 then 0 else 10 * ParseNat(s[..|s| - 1]) + DigitValue(s[|s| - 1])
  }

  /** Reading the decimal text of `n` gives `n` back. */
  lemma {:induction false} ParseNatToString(n: nat)
    ensures ParseNat(NatToString(n)) == n
    decreases n
  {
    var s := NatToString(n);
    if n < 10 {
      assert s == [DigitChar(n)];
    } else {
      ParseNatToString(n / 10);
      assert s[..|s| - 1] == NatToString(n / 10);
      assert DigitValue(s[|s| - 1]) == n % 10;
    }
  }

  /** Two different numbers never print the same. */
  lemma NatToStringInjective(m: nat, n: nat)
    requires NatToString(m) == NatToString(n)
    ensures m == n
  {
    ParseNatToString(m);
    ParseNatToString(n);
  }

  /** Lower-casing keeps whitespace where it is. */
  lemma LowerKeepsSpace(c: char)
    ensures IsSpace(LowerChar(c)) <==> IsSpace(c)
  {
  }

  /** Lower-casing after upper-casing is lower-casing. */
  lemma LowerOfUpper(s: string)
    ensures ToLower(ToUpper(s)) == ToLower(s)
  {
  }

  /** Upper-casing after lower-casing is upper-casing. */
  lemma UpperOfLower(s: string)
    ensures ToUpper(ToLower(s)) == ToUpper(s)
  {
  }

  /** Lower-casing is idempotent. */
  lemma LowerIdempotent(s: string)
    ensures ToLower(ToLower(s)) == ToLower(s)
  {
  }

  lemma ToLowerAppend(a: string, b: string)
    ensures ToLower(a + b) == ToLower(a) + ToLower(b)
  {
  }

  /** Trimming a trimmed string changes nothing. */
  lemma {:induction false} TrimTrimmed(s: string)
    requires IsTrimmed(s)
    ensures Trim(s) == s
  {
    assert TrimStart(s) == s;
    assert TrimEnd(s) == s;
  }

  /** Trimming is idempotent. */
  lemma TrimIdempotent(s: string)
    ensures Trim(Trim(s)) == Trim(s)
  {
    TrimTrimmed(Trim(s));
  }

  lemma {:induction false} TrimStartPadded(w: string, s: string)
    requires AllSpace(w)
    ensures TrimStart(w + s) == TrimStart(s)
    decreases |w|
  {
    if |w| > 0 {
      assert (w + s)[1..] == w[1..] + s;
      TrimStartPadded(w[1..], s);
    } else {
      assert w + s == s;
    }
  }

  lemma {:induction false} TrimEndPadded(s: string, w: string)
    requires AllSpace(w)
    ensures TrimEnd(s + w) == TrimEnd(s)
    decreases |w|
  {
    if |w| > 0 {
      assert (s + w)[..|s + w| - 1] == s + w[..|w| - 1];
      TrimEndPadded(s, w[..|w| - 1]);
    } else {
      assert s + w == s;
    }
  }

  lemma {:induction false} TrimStartOfAllSpace(s: string)
    requires AllSpace(s)
    ensures TrimStart(s) == ""
    decreases |s|
  {
    if |s| > 0 {
      TrimStartOfAllSpace(s[1..]);
    }
  }

  /** `TrimStart(s + w)` for trailing whitespace `w`: either `s` had
      something that is not whitespace, and `w` stays behind it, or `s` was
      all whitespace and nothing is left. */
  lemma {:induction false} TrimStartBeforePadding(s: string, w: string)
    requires AllSpace(w)
    ensures TrimStart(s) != "" ==> TrimStart(s + w) == TrimStart(s) + w
    ensures TrimStart(s) == "" ==> TrimStart(s + w) == ""
    decreases |s|
  {
    if |s| == 0 {
      assert s + w == w;
      TrimStartOfAllSpace(w);
    } else if IsSpace(s[0]) {
      assert (s + w)[1..] == s[1..] + w;
      TrimStartBeforePadding(s[1..], w);
    } else {
      assert (s + w)[0] == s[0];
    }
  }

  /** Whitespace around a string makes no difference to its trimmed form. */
  lemma TrimPadded(w1: string, s: string, w2: string)
    requires AllSpace(w1) && AllSpace(w2)
    ensures Trim(w1 + s + w2) == Trim(s)
  {
    assert w1 + s + w2 == w1 + (s + w2);
    TrimStartPadded(w1, s + w2);
    TrimStartBeforePadding(s, w2);
    if TrimStart(s) != "" {
      TrimEndPadded(TrimStart(s), w2);
    }
  }

  /** Lower-casing and trimming commute (case mapping never touches
      whitespace). */
  lemma {:induction false} TrimToLower(s: string)
    ensures Trim(ToLower(s)) == ToLower(Trim(s))
  {
    TrimStartToLower(s);
    TrimEndToLower(TrimStart(s));
  }

  lemma {:induction false} TrimStartToLower(s: string)
    ensures TrimStart(ToLower(s)) == ToLower(TrimStart(s))
    decreases |s|
  {
    if |s| > 0 {
      var t := ToLower(s);
      assert t[0] == LowerChar(s[0]);
      assert IsSpace(t[0]) <==> IsSpace(s[0]);
      if IsSpace(s[0]) {
        assert TrimStart(t) == TrimStart(t[1..]);
        assert t[1..] == ToLower(s[1..]);
        TrimStartToLower(s[1..]);
      } else {
        assert TrimStart(t) == t;
        assert TrimStart(s) == s;
      }
    }
  }

  lemma {:induction false} TrimEndToLower(s: string)
    ensures TrimEnd(ToLower(s)) == ToLower(TrimEnd(s))
    decreases |s|
  {
    if |s| > 0 {
      assert ToLower(s)[..|s| - 1] == ToLower(s[..|s| - 1]);
      TrimEndToLower(s[..|s| - 1]);
    }
  }

  /** Upper-casing and trimming commute. */
  lemma {:induction false} TrimToUpper(s: string)
    ensures Trim(ToUpper(s)) == ToUpper(Trim(s))
  {
    TrimStartToUpper(s);
    TrimEndToUpper(TrimStart(s));
  }

  lemma {:induction false} TrimStartToUpper(s: string)
    ensures TrimStart(ToUpper(s)) == ToUpper(TrimStart(s))
    decreases |s|
  {
    if |s| > 0 {
      var t := ToUpper(s);
      assert t[0] == UpperChar(s[0]);
      assert IsSpace(t[0]) <==> IsSpace(s[0]);
      if IsSpace(s[0]) {
        assert TrimStart(t) == TrimStart(t[1..]);
        assert t[1..] == ToUpper(s[1..]);
        TrimStartToUpper(s[1..]);
      } else {
        assert TrimStart(t) == t;
        assert TrimStart(s) == s;
      }
    }
  }

  lemma {:induction false} TrimEndToUpper(s: string)
    ensures TrimEnd(ToUpper(s)) == ToUpper(TrimEnd(s))
    decreases |s|
  {
    if |s| > 0 {
      assert ToUpper(s)[..|s| - 1] == ToUpper(s[..|s| - 1]);
      TrimEndToUpper(s[..|s| - 1]);
    }
  }

  /** A string occurs in any string that has it as a slice. */
  lemma {:induction false} ContainsMiddle(a: string, sub: string, b: string)
    ensures Contains(a + sub + b, sub)
    decreases |a|
  {
    if |a| == 0 {
      assert (a + sub + b)[..|sub|] == sub;
    } else {
      assert (a + sub + b)[1..] == a[1..] + sub + b;
      ContainsMiddle(a[1..], sub, b);
    }
  }
}

=== FILE: submission_grid.dfy ===
/** The dashboard's submission grid (src/components/dashboard/SubmissionGrid.tsx):
    per participant, how many of the season's submittable problems were
    submitted and how many are overdue, and the mark shown in each cell.
    The midnight that starts today is a parameter. */
module SubmissionGrid {
  import opened Seqs
  import opened Domain

  /** A date is past when it falls before today. */
  predicate IsDatePast(day: Day, today: Day) {
    day < today
  }

  function IsSubmittedBy(submitted: seq<string>): Problem -> bool {
    (p: Problem) => p.id in submitted
  }

  function IsOverdueFor(submitted: seq<string>, today: Day): Problem -> bool {
    (p: Problem) => IsDatePast(p.assignedDay, today) && p.id !in submitted
  }

  /** The number of submittable problems the participant submitted; rest
      days do not count, even when their id was submitted. */
  function SubmittedCount(problems: seq<Problem>, submitted: seq<string>): (n: nat)
    ensures n <= |Submittable(problems)|
  {
    |Filter(IsSubmittedBy(submitted), Submittable(problems))|
  }

  /** The number of submittable problems dated before today that the
      participant did not submit. */
  function MissedCount(problems: seq<Problem>, submitted: seq<string>, today: Day): (n: nat)
    ensures n <= |Submittable(problems)|
  {
    |Filter(IsOverdueFor(submitted, today), Submittable(problems))|
  }

  /** What a cell shows: a rest day and a day still to come both show a
      dash (styled differently), a submission a circle, an overdue problem
      a cross. */
  datatype Cell = RestDay | Submitted | Overdue | Upcoming

  function CellMark(c: Cell): string {
    match c
    case RestDay => "-"
    case Submitted => "O"
    case Overdue => "X"
    case Upcoming => "-"
  }

  /** A cell's class: rest day first, then submission, then whether the
      date has passed. */
  function ClassifyCell(p: Problem, submitted: seq<string>, today: Day): Cell {
    if p.problemType == Rest then RestDay
    else if p.id in submitted then Submitted
    else if IsDatePast(p.assignedDay, today) then Overdue
    else Upcoming
  }

  function HasCell(submitted: seq<string>, today: Day, c: Cell): Problem -> bool {
    (p: Problem) => ClassifyCell(p, submitted, today) == c
  }

  /** The number of cells of class `c` in a participant's row. */
  function CellCount(problems: seq<Problem>, submitted: seq<string>, today: Day, c: Cell): nat {
    |Filter(HasCell(submitted, today, c), problems)|
  }

  /** The colour of the overdue count: red from the drop threshold on,
      yellow for one or two, grey for none. */
  datatype Tone = Alarm | Warning | Calm

  function MissedTone(missed: nat): Tone {
    if missed >= 3 then Alarm else if missed > 0 then Warning else Calm
  }

  /** The two counts never overlap: together they are at most the number of
      submittable problems. */
  lemma CountsDisjoint(problems: seq<Problem>, submitted: seq<string>, today: Day)
    ensures SubmittedCount(problems, submitted) + MissedCount(problems, submitted, today) <= |Submittable(problems)|
  {
    FilterDisjointCount(IsSubmittedBy(submitted), IsOverdueFor(submitted, today), Submittable(problems));
  }

  /** The counts agree with the row: the submitted count is the number of
      circles, the missed count the number of crosses. */
  lemma CountsMatchCells(problems: seq<Problem>, submitted: seq<string>, today: Day)
    ensures SubmittedCount(problems, submitted) == CellCount(problems, submitted, today, Submitted)
    ensures MissedCount(problems, submitted, today) == CellCount(problems, submitted, today, Overdue)
  {
    FilterFilter(IsSubmittedBy(submitted), IsSubmittable, HasCell(submitted, today, Submitted), problems);
    FilterFilter(IsOverdueFor(submitted, today), IsSubmittable, HasCell(submitted, today, Overdue), problems);
  }

  /** Every cell of a row is in exactly one class, so the four counts add
      up to the number of problems. */
  lemma {:induction false} CellCountsPartition(problems: seq<Problem>, submitted: seq<string>, today: Day)
    ensures CellCount(problems, submitted, today, RestDay) + CellCount(problems, submitted, today, Submitted)
      + CellCount(problems, submitted, today, Overdue) + CellCount(problems, submitted, today, Upcoming)
      == |problems|
    decreases |problems|
  {
    if |problems| > 0 {
      CellCountsPartition(problems[1..], submitted, today);
    }
  }

  /** As days pass the missed count never goes down. */
  lemma MissedGrowsWithTime(problems: seq<Problem>, submitted: seq<string>, today: Day, later: Day)
    requires today <= later
    ensures MissedCount(problems, submitted, today) <= MissedCount(problems, submitted, later)
  {
    FilterMonotone(IsOverdueFor(submitted, today), IsOverdueFor(submitted, later), Submittable(problems));
  }

  /** Only a cell in the grid's cross class is overdue: a submitted problem
      is never overdue, and neither is a rest day. */
  lemma OverdueCells(p: Problem, submitted: seq<string>, today: Day)
    ensures ClassifyCell(p, submitted, today) == Overdue <==>
      IsSubmittable(p) && IsOverdueFor(submitted, today)(p)
  {
  }

  /** A rest day adds nothing to either count, even when its id is among the
      submissions (the refund table, in contrast, counts every submitted
      id). */
  lemma RestDayIgnored(problems: seq<Problem>, q: Problem, submitted: seq<string>, today: Day)
    requires q.problemType == Rest
    ensures SubmittedCount(problems + [q], submitted) == SubmittedCount(problems, submitted)
    ensures MissedCount(problems + [q], submitted, today) == MissedCount(problems, submitted, today)
  {
    FilterSnoc(IsSubmittable, problems, q);
    assert Submittable(problems + [q]) == Submittable(problems);
  }
}

=== FILE: submit_form.dfy ===
/** The selection rules of the solution submit form
    (src/components/submit/SubmitForm.tsx): which participant records belong
    to the signed-in user, which seasons and problems the form offers, which
    season it opens on, the default markdown template, and when the submit
    button is disabled. The session, the editor and the network are not
    modelled; their values arrive as parameters. */
module SubmitForm {
  import opened Wrappers
  import opened Seqs
  import opened Strings
  import opened Domain
  import AdminAuth

  /** A participant of a season as the form receives it. */
  datatype SeasonParticipant = SeasonParticipant(githubUsername: Option<string>, email: Option<string>)

  datatype SeasonSummary = SeasonSummary(
    id: string,
    seasonNumber: int,
    name: string,
    problems: seq<Problem>,
    participants: seq<SeasonParticipant>)

  /** The signed-in user's e-mail and GitHub user name, normalised. */
  datatype Identity = Identity(email: string, githubUsername: string)

  /** An optional string used as a condition: present and non-empty. */
  predicate Truthy(value: Option<string>) {
    value.Some? && |value.value| > 0
  }

  // ---------------------------------------------------------------------
  // Who the user is
  // ---------------------------------------------------------------------

  /** An identifier of the signed-in user as compared: trimmed, then
      lower-cased (the same normalisation the administrator list uses); a
      missing one is empty. */
  function NormalizeIdentifier(value: Option<string>): (r: string)
    ensures IsTrimmed(r) && ToLower(r) == r
    ensures value.None? ==> r == ""
    ensures value.Some? && AllSpace(value.value) ==> r == ""
    ensures value.Some? ==> r == ToLower(Trim(value.value))
  {
    match value
    case None => ""
    case Some(v) =>
      var t := Trim(v);
      AdminAuth.LowerKeepsTrimmed(t);
      LowerIdempotent(t);
      assert AllSpace(v) ==> t == "" by {
        if AllSpace(v) {
          TrimStartOfAllSpace(v);
        }
      }
      ToLower(t)
  }

  /** The user's identifier `mine` against a stored one: `mine` is
      non-empty, the stored one is present and non-empty, and lower-cased
      it equals `mine`. The stored value is not trimmed. */
  predicate SameIdentifier(mine: string, stored: Option<string>) {
    |mine| > 0 && Truthy(stored) && ToLower(stored.value) == mine
  }

  /** Whether participant record `p` belongs to the user: by e-mail or by
      GitHub user name. */
  predicate MatchesCurrentUser(me: Identity, p: SeasonParticipant) {
    SameIdentifier(me.email, p.email) || SameIdentifier(me.githubUsername, p.githubUsername)
  }

  /** A user with neither identifier matches no record. */
  lemma BlankIdentityMatchesNobody(p: SeasonParticipant)
    ensures !MatchesCurrentUser(Identity("", ""), p)
  {
  }

  /** A record matches whatever the case of its stored identifiers. */
  lemma MatchIgnoresStoredCase(me: Identity, p: SeasonParticipant)
    ensures MatchesCurrentUser(me, p) <==> MatchesCurrentUser(me, SeasonParticipant(
      if p.githubUsername.Some? then Some(ToUpper(p.githubUsername.value)) else None,
      if p.email.Some? then Some(ToUpper(p.email.value)) else None))
  {
    if p.githubUsername.Some? {
      LowerOfUpper(p.githubUsername.value);
    }
    if p.email.Some? {
      LowerOfUpper(p.email.value);
    }
  }

  /** The user who signed in with a padded, differently-cased form of the
      e-mail stored on a record is matched to that record. */
  lemma SignedInEmailMatches(w1: string, e: string, w2: string, github: Option<string>, p: SeasonParticipant)
    requires AllSpace(w1) && AllSpace(w2)
    requires |e| > 0 && IsTrimmed(e)
    requires p.email == Some(ToUpper(e))
    ensures MatchesCurrentUser(Identity(NormalizeIdentifier(Some(w1 + e + w2)), NormalizeIdentifier(github)), p)
  {
    TrimPadded(w1, e, w2);
    TrimTrimmed(e);
    LowerOfUpper(e);
  }

  /** The stored e-mail is not trimmed: one that begins with whitespace
      never matches the user's e-mail, whatever it was. */
  lemma PaddedStoredEmailNeverMatches(value: Option<string>, e: string)
    requires |e| > 0 && IsSpace(e[0])
    ensures !SameIdentifier(NormalizeIdentifier(value), Some(e))
  {
    LowerKeepsSpace(e[0]);
    assert IsSpace(ToLower(e)[0]);
  }

  // ---------------------------------------------------------------------
  // Registered seasons and the season the form opens on
  // ---------------------------------------------------------------------

  /** Some participant of `s` is the user. */
  predicate HasMatch(me: Identity, s: SeasonSummary) {
    exists k :: 0 <= k < |s.participants| && MatchesCurrentUser(me, s.participants[k])
  }

  function IsRegisteredIn(me: Identity): SeasonSummary -> bool {
    (s: SeasonSummary) => HasMatch(me, s)
  }

  predicate IsBlank(me: Identity) {
    |me.email| == 0 && |me.githubUsername| == 0
  }

  /** The seasons the user takes part in, in their original order; none
      when the user has no identifier at all. */
  function RegisteredSeasons(me: Identity, seasons: seq<SeasonSummary>): (r: seq<SeasonSummary>)
    ensures IsBlank(me) ==> r == []
    ensures |r| <= |seasons|
    ensures forall i :: 0 <= i < |r| ==> r[i] in seasons && HasMatch(me, r[i])
    ensures forall i :: 0 <= i < |seasons| && HasMatch(me, seasons[i]) ==> seasons[i] in r
  {
    if IsBlank(me) then [] else Filter(IsRegisteredIn(me), seasons)
  }

  /** The registered seasons keep the input order: those of a
      concatenation are those of each part, concatenated. */
  lemma RegisteredSeasonsAppend(me: Identity, a: seq<SeasonSummary>, b: seq<SeasonSummary>)
    ensures RegisteredSeasons(me, a + b) == RegisteredSeasons(me, a) + RegisteredSeasons(me, b)
  {
    if !IsBlank(me) {
      FilterAppend(IsRegisteredIn(me), a, b);
    }
  }

  /** Whether `s` has a problem with id `problemId`. */
  predicate HasProblem(s: SeasonSummary, problemId: string) {
    exists k :: 0 <= k < |s.problems| && s.problems[k].id == problemId
  }

  function ContainsProblem(problemId: string): SeasonSummary -> bool {
    (s: SeasonSummary) => HasProblem(s, problemId)
  }

  /** The season a requested problem belongs to: the first season that has
      it, and none when no problem was requested or no season has it. */
  function SeasonForDefaultProblem(seasons: seq<SeasonSummary>, defaultProblemId: Option<string>): (r: Option<SeasonSummary>)
    ensures r.Some? ==> Truthy(defaultProblemId) && r.value in seasons && HasProblem(r.value, defaultProblemId.value)
    ensures r.None? && Truthy(defaultProblemId) ==>
      forall i :: 0 <= i < |seasons| ==> !HasProblem(seasons[i], defaultProblemId.value)
  {
    if !Truthy(defaultProblemId) then None
    else
      var i := FindIndex(ContainsProblem(defaultProblemId.value), seasons);
      if i < |seasons| then Some(seasons[i]) else None
  }

  /** Among several seasons holding the problem, the first one is chosen. */
  lemma SeasonForDefaultProblemIsFirst(seasons: seq<SeasonSummary>, problemId: string, i: nat)
    requires |problemId| > 0
    requires i < |seasons| && HasProblem(seasons[i], problemId)
    requires forall j :: 0 <= j < i ==> !HasProblem(seasons[j], problemId)
    ensures SeasonForDefaultProblem(seasons, Some(problemId)) == Some(seasons[i])
  {
    var f := FindIndex(ContainsProblem(problemId), seasons);
    assert ContainsProblem(problemId)(seasons[i]);
    assert f <= i;
    assert ContainsProblem(problemId)(seasons[f]);
  }

  /** Whether one of `registered` has id `id`. */
  predicate IsRegisteredId(registered: seq<SeasonSummary>, id: string) {
    exists k :: 0 <= k < |registered| && registered[k].id == id
  }

  /** The requested problem's season is one the user takes part in. */
  predicate ProblemSeasonRegistered(registered: seq<SeasonSummary>, forDefault: Option<SeasonSummary>) {
    forDefault.Some? && IsRegisteredId(registered, forDefault.value.id)
  }

  /** A season was requested and the user takes part in it. */
  predicate RequestedSeasonRegistered(registered: seq<SeasonSummary>, defaultSeasonId: Option<string>) {
    Truthy(defaultSeasonId) && IsRegisteredId(registered, defaultSeasonId.value)
  }

  /** The season the form first selects: empty when the user is in no
      season, otherwise always a registered one. */
  function GetPreferredSeasonId(registered: seq<SeasonSummary>, forDefault: Option<SeasonSummary>, defaultSeasonId: Option<string>): (r: string)
    ensures |registered| == 0 ==> r == ""
    ensures |registered| > 0 ==> IsRegisteredId(registered, r)
  {
    if |registered| == 0 then ""
    else if ProblemSeasonRegistered(registered, forDefault) then forDefault.value.id
    else if RequestedSeasonRegistered(registered, defaultSeasonId) then defaultSeasonId.value
    else registered[0].id
  }

  /** The preference order: the requested problem's season, then the
      requested season, then the first registered one, each only when the
      user is registered in it. */
  lemma PreferredSeasonOrder(registered: seq<SeasonSummary>, forDefault: Option<SeasonSummary>, defaultSeasonId: Option<string>)
    requires |registered| > 0
    ensures var r := GetPreferredSeasonId(registered, forDefault, defaultSeasonId);
      && (ProblemSeasonRegistered(registered, forDefault) ==> r == forDefault.value.id)
      && (!ProblemSeasonRegistered(registered, forDefault) && RequestedSeasonRegistered(registered, defaultSeasonId)
          ==> r == defaultSeasonId.value)
      && (!ProblemSeasonRegistered(registered, forDefault) && !RequestedSeasonRegistered(registered, defaultSeasonId)
          ==> r == registered[0].id)
  {
  }

  /** With non-empty season ids, the empty id means exactly that the user is
      registered nowhere. */
  lemma PreferredSeasonEmptyIff(registered: seq<SeasonSummary>, forDefault: Option<SeasonSummary>, defaultSeasonId: Option<string>)
    requires forall k :: 0 <= k < |registered| ==> |registered[k].id| > 0
    ensures GetPreferredSeasonId(registered, forDefault, defaultSeasonId) == "" <==> |registered| == 0
  {
  }

  /** The season the form opens on, from the user, the seasons and the
      requested season and problem. */
  function InitialSeasonId(me: Identity, seasons: seq<SeasonSummary>, defaultSeasonId: Option<string>, defaultProblemId: Option<string>): string {
    GetPreferredSeasonId(RegisteredSeasons(me, seasons), SeasonForDefaultProblem(seasons, defaultProblemId), defaultSeasonId)
  }

  /** The initial selection (the state's initial value, before any effect
      runs): when the user takes part in the first season holding the
      requested problem, it is that season, whatever season was
      requested. */
  lemma OpensOnDefaultProblemSeason(me: Identity, seasons: seq<SeasonSummary>, defaultSeasonId: Option<string>, problemId: string, i: nat)
    requires |problemId| > 0
    requires i < |seasons| && HasProblem(seasons[i], problemId) && HasMatch(me, seasons[i])
    requires forall j :: 0 <= j < i ==> !HasProblem(seasons[j], problemId)
    ensures InitialSeasonId(me, seasons, defaultSeasonId, Some(problemId)) == seasons[i].id
  {
    SeasonForDefaultProblemIsFirst(seasons, problemId, i);
    var registered := RegisteredSeasons(me, seasons);
    assert !IsBlank(me);
    assert seasons[i] in registered;
    var k :| 0 <= k < |registered| && registered[k] == seasons[i];
    assert IsRegisteredId(registered, seasons[i].id);
  }

  /** The season the form opens on is one the user takes part in. */
  lemma InitialSeasonIsTheUsers(me: Identity, seasons: seq<SeasonSummary>, defaultSeasonId: Option<string>, defaultProblemId: Option<string>)
    requires InitialSeasonId(me, seasons, defaultSeasonId, defaultProblemId) != ""
    ensures exists i :: 0 <= i < |seasons| && seasons[i].id == InitialSeasonId(me, seasons, defaultSeasonId, defaultProblemId)
                        && HasMatch(me, seasons[i])
  {
    var registered := RegisteredSeasons(me, seasons);
    var id := InitialSeasonId(me, seasons, defaultSeasonId, defaultProblemId);
    var k :| 0 <= k < |registered| && registered[k].id == id;
    var i :| 0 <= i < |seasons| && seasons[i] == registered[k];
  }

  // ---------------------------------------------------------------------
  // The selected season and its problems
  // ---------------------------------------------------------------------

  function HasId(id: string): SeasonSummary -> bool {
    (s: SeasonSummary) => s.id == id
  }

  /** The registered season with the selected id, falling back to the
      first registered season. */
  function SelectedSeason(registered: seq<SeasonSummary>, selectedId: string): (r: Option<SeasonSummary>)
    ensures r.None? <==> |registered| == 0
    ensures r.Some? ==> r.value in registered
    ensures r.Some? && IsRegisteredId(registered, selectedId) ==> r.value.id == selectedId
    ensures |registered| > 0 && !IsRegisteredId(registered, selectedId) ==> r == Some(registered[0])
  {
    var i := FindIndex(HasId(selectedId), registered);
    if i < |registered| then Some(registered[i])
    else if |registered| > 0 then Some(registered[0])
    else None
  }

  /** Whether the user is a participant of the selected season. */
  predicate IsRegistered(me: Identity, registered: seq<SeasonSummary>, selectedId: string) {
    var s := SelectedSeason(registered, selectedId);
    s.Some? && HasMatch(me, s.value)
  }

  /** Over the user's registered seasons, the form counts the user as
      registered exactly when it offers some season. */
  lemma RegisteredIffSeasonsOffered(me: Identity, seasons: seq<SeasonSummary>, selectedId: string)
    ensures IsRegistered(me, RegisteredSeasons(me, seasons), selectedId) <==> |RegisteredSeasons(me, seasons)| > 0
  {
  }

  /** The problems offered for submission: those of the selected season
      that are not rest days, in order; none without a selected season. */
  function ProblemOptions(registered: seq<SeasonSummary>, selectedId: string): (r: seq<Problem>)
    ensures |registered| == 0 ==> r == []
    ensures forall i :: 0 <= i < |r| ==> r[i].problemType != Rest
    ensures forall i :: 0 <= i < |r| ==> r[i] in SelectedSeason(registered, selectedId).value.problems
    ensures |registered| > 0 ==>
      (var ps := SelectedSeason(registered, selectedId).value.problems;
       forall i :: 0 <= i < |ps| && ps[i].problemType != Rest ==> ps[i] in r)
  {
    match SelectedSeason(registered, selectedId)
    case None => []
    case Some(s) => Submittable(s.problems)
  }

  /** The options keep the season's order: when the selected season's
      problems are `a` followed by `b`, the options are those of `a`
      followed by those of `b`. */
  lemma ProblemOptionsInOrder(registered: seq<SeasonSummary>, selectedId: string, a: seq<Problem>, b: seq<Problem>)
    requires |registered| > 0
    requires SelectedSeason(registered, selectedId).value.problems == a + b
    ensures ProblemOptions(registered, selectedId) == Submittable(a) + Submittable(b)
  {
    SubmittableAppend(a, b);
  }

  // ---------------------------------------------------------------------
  // The default markdown template
  // ---------------------------------------------------------------------

  /** The code-block language used when none is chosen. */
  const DefaultLanguage: string := "javascript"

  /** The comment prefix of each offered language. */
  const CommentPrefixByLanguage: map<string, string> := map[
    "javascript" := "//", "typescript" := "//", "python" := "#",
    "java" := "//", "cpp" := "//", "c" := "//", "go" := "//",
    "rust" := "//", "kotlin" := "//", "swift" := "//"]

  /** The comment prefix of `language`, `//` for a language not in the
      table. */
  function CommentPrefix(language: string): string {
    if language in CommentPrefixByLanguage && |CommentPrefixByLanguage[language]| > 0
    then CommentPrefixByLanguage[language]
    else "//"
  }

  /** `#` for Python and `//` for every other language, listed or not. */
  lemma CommentPrefixRule(language: string)
    ensures CommentPrefix(language) == if language == "python" then "#" else "//"
  {
  }

  /** The language written after the opening fence: the chosen one, or the
      default when none is chosen, lower-cased. */
  function TemplateLanguage(language: string): (r: string)
    ensures |r| > 0 && |r| >= |language|
    ensures ToLower(r) == r
    ensures |language| > 0 ==> r == ToLower(language)
    ensures |language| == 0 ==> r == DefaultLanguage
  {
    var chosen := if |language| == 0 then DefaultLanguage else language;
    LowerIdempotent(chosen);
    ToLower(chosen)
  }

  /** The template text up to the language of the opening fence. */
  const TemplateHead: string := "## 문제 풀이\n\n```"

  /** The template text after the comment prefix. */
  const TemplateTail: string := " 여기에 코드를 작성하세요\n```\n\n## 문법 정리\n\n"

  /** The template after its head: the language, the placeholder comment
      line and the closing fence, and the syntax-notes heading. */
  function TemplateBody(lang: string): string {
    lang + "\n" + CommentPrefix(lang) + TemplateTail
  }

  /** The editor's initial content: a solution heading, a code block in the
      language with a placeholder comment, and a syntax-notes heading. */
  function BuildDefaultMarkdown(language: string): (md: string)
    ensures StartsWith(md, TemplateHead)
    ensures md[|TemplateHead|..] == TemplateBody(TemplateLanguage(language))
  {
    var body := TemplateBody(TemplateLanguage(language));
    PrefixOf(TemplateHead, body);
    TemplateHead + body
  }

  /** A concatenation starts with its first part and continues with the
      second. */
  lemma PrefixOf(h: string, x: string)
    ensures StartsWith(h + x, h) && (h + x)[|h|..] == x
  {
    assert (h + x)[..|h|] == h;
  }

  /** The template for no language is the JavaScript one, and the choice of
      language is case-insensitive. */
  lemma DefaultMarkdownLanguage(language: string)
    ensures BuildDefaultMarkdown("") == BuildDefaultMarkdown(DefaultLanguage)
    ensures BuildDefaultMarkdown(ToUpper(language)) == BuildDefaultMarkdown(language)
  {
    LowerIdempotent(DefaultLanguage);
    LowerOfUpper(language);
  }

  /** The language named by a markdown text's opening fence: what follows
      the template head up to the end of that line. */
  function FenceLanguage(md: string): string {
    if StartsWith(md, TemplateHead) then
      var rest := md[|TemplateHead|..];
      if '\n' in rest then rest[..IndexOf(rest, '\n')] else rest
    else ""
  }

  /** Lower-casing never creates a line break. */
  lemma LowerKeepsNoNewline(s: string)
    requires '\n' !in s
    ensures '\n' !in ToLower(s)
  {
    forall i | 0 <= i < |s| ensures ToLower(s)[i] != '\n' {
      assert s[i] in s;
    }
  }

  /** The first `c` of `s` is at `k` when `s[k]` is one and none comes
      before it. */
  lemma {:induction false} IndexOfAt(s: string, c: char, k: nat)
    requires k < |s| && s[k] == c && c !in s[..k]
    ensures IndexOf(s, c) == k
    decreases k
  {
    if s[0] != c {
      assert s[1..][..k - 1] == s[..k][1..];
      IndexOfAt(s[1..], c, k - 1);
    }
  }

  /** The template records its language: reading the fence back gives the
      lower-cased language (the default one when none was chosen). */
  lemma FenceLanguageOfDefaultMarkdown(language: string)
    requires '\n' !in language
    ensures FenceLanguage(BuildDefaultMarkdown(language)) == TemplateLanguage(language)
  {
    var lang := TemplateLanguage(language);
    if |language| == 0 {
      assert '\n' !in DefaultLanguage;
      LowerKeepsNoNewline(DefaultLanguage);
    } else {
      LowerKeepsNoNewline(language);
    }
    var rest := TemplateBody(lang);
    assert rest[..|lang|] == lang;
    assert rest[|lang|] == '\n';
    IndexOfAt(rest, '\n', |lang|);
  }

  /** Templates for different languages differ. */
  lemma DefaultMarkdownInjective(a: string, b: string)
    requires '\n' !in a && '\n' !in b
    requires TemplateLanguage(a) != TemplateLanguage(b)
    ensures BuildDefaultMarkdown(a) != BuildDefaultMarkdown(b)
  {
    FenceLanguageOfDefaultMarkdown(a);
    FenceLanguageOfDefaultMarkdown(b);
  }

  /** The template is never blank. */
  lemma DefaultMarkdownNotBlank(language: string)
    ensures |Trim(BuildDefaultMarkdown(language))| > 0
  {
    var md := BuildDefaultMarkdown(language);
    assert md[0] == TemplateHead[0] == '#';
    assert TrimStart(md) == md;
    assert md[0..] == md;
    assert !AllSpace(md);
  }

  // ---------------------------------------------------------------------
  // The submit button
  // ---------------------------------------------------------------------

  /** What the submit button depends on: whether a request is in flight,
      whether the user is registered in the selected season, the selected
      problem's type, the free-choice title, the editor's markdown, the
      current and the previous code-block language, and whether an earlier
      submission is being edited. */
  datatype FormState = FormState(
    loading: bool,
    isRegistered: bool,
    selectedType: Option<ProblemType>,
    customTitle: string,
    code: string,
    language: string,
    previousLanguage: string,
    isEditMode: bool)

  predicate IsFreeChoice(s: FormState) {
    s.selectedType == Some(Free)
  }

  /** The markdown, trimmed, is the template for the current or the
      previous language, trimmed. */
  predicate IsDefaultMarkdown(code: string, language: string, previousLanguage: string) {
    Trim(code) == Trim(BuildDefaultMarkdown(language))
    || Trim(code) == Trim(BuildDefaultMarkdown(previousLanguage))
  }

  predicate SubmitDisabled(s: FormState) {
    || s.loading
    || !s.isRegistered
    || (IsFreeChoice(s) && |s.customTitle| == 0)
    || |Trim(s.code)| == 0
    || (IsDefaultMarkdown(s.code, s.language, s.previousLanguage) && !s.isEditMode)
  }

  /** An untouched template, possibly padded with whitespace, cannot be
      submitted as a new solution. */
  lemma UntouchedTemplateBlocksSubmit(s: FormState, w1: string, w2: string)
    requires AllSpace(w1) && AllSpace(w2)
    requires s.code == w1 + BuildDefaultMarkdown(s.language) + w2
          || s.code == w1 + BuildDefaultMarkdown(s.previousLanguage) + w2
    requires !s.isEditMode
    ensures SubmitDisabled(s)
  {
    TrimPadded(w1, BuildDefaultMarkdown(s.language), w2);
    TrimPadded(w1, BuildDefaultMarkdown(s.previousLanguage), w2);
  }

  /** Blank markdown cannot be submitted, not even in edit mode. */
  lemma BlankCodeBlocksSubmit(s: FormState)
    requires AllSpace(s.code)
    ensures SubmitDisabled(s)
  {
    TrimStartOfAllSpace(s.code);
  }

  /** A free-choice problem needs a title. */
  lemma FreeChoiceNeedsTitle(s: FormState)
    requires s.selectedType == Some(Free) && s.customTitle == ""
    ensures SubmitDisabled(s)
  {
  }

  /** With the registration flag computed from the user's seasons, a user
      registered nowhere can never submit. */
  lemma UnregisteredUserCannotSubmit(me: Identity, seasons: seq<SeasonSummary>, selectedId: string, s: FormState)
    requires s.isRegistered == IsRegistered(me, RegisteredSeasons(me, seasons), selectedId)
    requires RegisteredSeasons(me, seasons) == []
    ensures SubmitDisabled(s)
  {
  }

  /** In edit mode the template check is lifted: a loaded solution that
      equals a template can be resubmitted when nothing else blocks it. */
  lemma EditModeLiftsTemplateCheck(s: FormState)
    requires !s.loading && s.isRegistered && s.isEditMode
    requires !IsFreeChoice(s) || |s.customTitle| > 0
    requires s.code == BuildDefaultMarkdown(s.language)
    ensures !SubmitDisabled(s)
  {
    DefaultMarkdownNotBlank(s.language);
  }
}

=== FILE: wrappers.dfy ===
/** Optional and fallible values, standing in for JavaScript's `null`/`undefined`
    and for thrown errors. */
module Wrappers {

  /** `None` models a value that is `null` or `undefined`. */
  datatype Option<+T> = None | Some(value: T) {

    /** The value, or `default` when there is none (JavaScript's `??`). */
    function GetOr(default: T): T {
      match this
      case Some(v) => v
      case None => default
    }
  }

  /** `Failure` models an `Error` thrown by the source. */
  datatype Result<+T, +E> = Success(value: T) | Failure(error: E)
}
